=== FILE: README.md ===
# Library catalogue core, modelled in Dafny

This project models the core of a Spring book catalogue built on ports and adapters.
A book has an id, author, title, genre, page count, publication year, two timestamps and an active flag.
The model covers these parts:

- the domain value objects: `BookGenre`, `BookFilter`, `PaginationQuery` and `PaginatedResult`;
- the use case `BookServiceUseCase` over its repository port;
- the SQL adapter: the entity mapping, the JPQL filter query, sorting, paging and the page mappers;
- the REST adapter: the controller, the HAL-style response mapper and the exception handler;
- the server-rendered web UI controller and its exception handler.

Each source component is one Dafny module, in one file:

| file | module | models |
|---|---|---|
| wrappers.dfy | Wrappers | `Option` for a Java null and `Result` for a value or a thrown exception |
| text.dfy | Text | `trim()`, `isBlank()`, ASCII case mapping, `equalsIgnoreCase`, `contains`, decimal `int` rendering and parsing |
| genre.dfy | Genres | the `BookGenre` enum: its constants, display names and `valueOf` |
| domain.dfy | Domain | the `Book` record |
| exceptions.dfy | Exceptions | the exceptions the adapters handle, and their messages |
| filter.dfy | Filters | `BookFilter` and its normalisation |
| pagination.dfy | Pagination | `PaginationQuery` and its checks and defaults; `PaginatedResult` and its `totalPages()` |
| entity.dfy | Entities | `BookEntity`, its column constraints and `BookEntityMapper`'s two directions |
| pageable.dfy | Pageable | Spring's `Sort`, `PageRequest` and `Page` |
| paginationmapper.dfy | PaginationMappers | `PaginationEntityMapper` and `PaginationMapper` |
| ordering.dfy | Ordering | `ORDER BY` on entity properties, with nulls first |
| jpa.dfy | JpaRepository | the BOOK table, the `findByFilters` query, `findById` and `findByIdAndActiveTrue` |
| adapter.dfy | RepositoryAdapter | the repository port: `BookRepositoryAdapter`'s `findAllWithFilters`, and `save`, `findById` and `findActiveById` over the JPA repository |
| service.dfy | Service | `BookServiceUseCase` |
| resterrors.dfy | RestErrors | `CustomExceptionHandler` |
| restmapper.dfy | RestMapper | `BookMapper` (REST), including the page links |
| restcontroller.dfy | RestController | `BookControllerAdapter` |
| web.dfy | WebUi | `BookWebController` and `WebExceptionHandler` |

The model makes five kinds of choice:

- The database is a value: a `Table` holding a map from id to row, the insertion order and the next generated id.
  Each operation takes a table and returns the table afterwards.
- The store enforces every declared NOT NULL column of the BOOK table except `EDITORIAL_ID`, and the declared sizes.
  `AUTHOR`, `CREATED_AT`, `UPDATED_AT` and `ACTIVE` are NOT NULL, and author and title hold at most 250 chars.
  A save that breaks one of them fails with a runtime exception and leaves the table unchanged; both front ends answer it with 500.
- The clock is a parameter `now`.
- Every service operation reports the repository port calls it made, in order.
  This lets the contracts say "the store was not consulted" or "exactly one query ran".
- Exceptions are values of `Exceptions.Exception`.
  A thrown exception is a `Failure`, and the handlers map it to a response or an error page.

## Where the code and its tests disagree

- The page number in a `PaginatedResult` is Spring's `getNumber()`, which is 0-based.
  Some tests expect the 1-based number.
  The model keeps the 0-based value the code produces.
- The REST listing defaults `sortBy` to `"id"`, as the controller's constant says, although a test expects `"title"`.

## Readings of the code

- The service's update saves the caller's book as sent, and its unit test checks exactly that; the test replaces the repository with a stub, so it never meets the NOT NULL columns.
  `Service.UpdateAsWritten`, `RestController.UpdateBook` and `WebUi.UpdateBook` model the code as written; the corrected update is listed under "## Findings".
- `PaginatedResult` has four components: content, page number, page size and total elements.
  The entity mapper passes five arguments, so the model drops the extra total-pages argument and computes `totalPages()` from the other three.
- The REST exception handler has no handler for `BookNotFoundException`.
  A missing book therefore gets the generic `RuntimeException` answer: 500 with code `INTERNAL_ERROR`.
  This is shown by `RestErrors.BookNotFoundIsInternalError` and `RestController.GetBook`.
  The web UI does map it to 404.
- The REST page links are built from the 0-based page number the page reports.
  As a result, "self" names the page before the one requested and "next" names the one requested.
  The link for page 1 is `page=0`, which the same endpoint rejects with 400.
  `RestController.LinksAreOnePageBehind` and `RestController.FirstPageSelfLinkIsRejected` state this; the model does not correct it.
- `BookRepositoryAdapter` implements only `findAllWithFilters`.
  The port's `save`, `findById` and `findActiveById` are therefore modelled from the port interface, over the JPA repository's `save`, `findById` and `findByIdAndActiveTrue`.
  The id is generated by the database (`GenerationType.IDENTITY`).
  A row whose id is already stored is merged: it replaces the stored row.
  Any other row, with no id or with an id the table does not hold, is inserted under the next generated id.
- Spring Data converts the page offset `page * size` to an `int` and refuses an offset above `Integer.MAX_VALUE` with `InvalidDataAccessApiUsageException`.
  The model's store query fails in that case, and both front ends answer it with 500.
- The generated MapStruct code is not part of this model.
  The genre conversions follow the mapper's declared helper methods.
  `stringToEnum` on a null genre text and `enumToString` on a null genre both throw a `NullPointerException`.
## Model

| member | source | states |
|---|---|---|
| Text.Trim | application/src/main/java/com/library/manager/domain/valueobjects/BookFilter.java:13-18 | String.trim(): the result is empty exactly when every char is at or below U+0020; otherwise it is the infix of the input between the leading and trailing runs of such chars, and it starts and ends with a char above U+0020 |
| Text.TrimIdempotent | application/src/main/java/com/library/manager/domain/valueobjects/BookFilter.java:17 | trimming a trimmed value changes nothing, so normalising a filter text twice is the same as once |
| Text.BlankAndTrimDiffer | application/src/main/java/com/library/manager/domain/valueobjects/PaginationQuery.java:15-21 | the query's isBlank() test and the filter's trim() test disagree: a NUL char is trimmed away but is not blank, and an ideographic space is blank but survives trim() |
| Text.EqualsIgnoreCaseIsLowerEquality | driven/repository-sql/src/main/java/com/library/manager/repositories/mappers/PaginationMapper.java:16 | with ASCII case mapping, equalsIgnoreCase holds exactly when the two lower-cased texts are equal |
| Text.IntToString | application/src/main/java/com/library/manager/application/exceptions/BookNotFoundException.java:5-7 | the decimal rendering that string concatenation uses, and that "%d" uses under a locale whose zero digit is '0', is non-empty, all digits after an optional minus sign, and starts with "-" exactly for negative numbers |
| Text.IntToStringRoundTrip | application/src/main/java/com/library/manager/application/exceptions/BookNotFoundException.java:6 | parsing the decimal rendering of any integer gives the integer back |
| Text.IntToStringInjective | application/src/main/java/com/library/manager/application/exceptions/BookNotFoundException.java:6 | distinct ids render to distinct decimal texts |
| Genres.DisplayName | application/src/main/java/com/library/manager/domain/BookGenre.java:8-25 | every constant's displayName equals its own constant name |
| Genres.Values | application/src/main/java/com/library/manager/domain/BookGenre.java:8-19 | values() is the twelve constants in declaration order, FICTION first and OTHER last, each exactly once |
| Genres.NameInjective | application/src/main/java/com/library/manager/domain/BookGenre.java:8-19 | no two constants share a name |
| Genres.ValueOf | application/src/main/java/com/library/manager/domain/BookGenre.java:6-26 | valueOf finds a constant whose name is exactly the text, and finds none exactly when no constant has that name |
| Genres.ValueOfName | application/src/main/java/com/library/manager/domain/BookGenre.java:8-19 | valueOf(name(g)) is g for every constant |
| Genres.NameFitsColumn | driven/repository-sql/src/main/java/com/library/manager/driven/repositories/models/BookEntity.java:35-38 | every constant name is non-empty and fits the 150-char GENRE column |
| Exceptions.BookNotFoundMessageInjective | application/src/main/java/com/library/manager/application/exceptions/BookNotFoundException.java:5-7 | the not-found message identifies the id: equal messages mean equal ids |
| Exceptions.BookNotFoundMessage | application/src/main/java/com/library/manager/application/exceptions/BookNotFoundException.java:5-7 | the message is "Book not found for ID: " followed by text that parses back to the id, under a default format locale whose zero digit is '0' |
| Filters.Normalize | application/src/main/java/com/library/manager/domain/valueobjects/BookFilter.java:13-18 | null or trim-empty text becomes null; any other text becomes its trimmed form, which is non-empty with nothing left to trim |
| Filters.NewBookFilter | application/src/main/java/com/library/manager/domain/valueobjects/BookFilter.java:7-11 | the constructor trims title and author (dropping the blank ones), keeps the genre, and makes active true when it is null |
| Filters.NormalizeFixpoint | application/src/main/java/com/library/manager/domain/valueobjects/BookFilter.java:13-18 | an already normalised text criterion passes through normalize unchanged |
| Filters.RebuildNormalized | application/src/main/java/com/library/manager/domain/valueobjects/BookFilter.java:7-11 | rebuilding a filter from a normalised filter's fields yields the same filter |
| Filters.NewBookFilterIdempotent | application/src/main/java/com/library/manager/domain/valueobjects/BookFilter.java:7-11 | building a filter from the fields of a built filter gives the same filter |
| Pagination.OrDefault | application/src/main/java/com/library/manager/domain/valueobjects/PaginationQuery.java:15-21 | the back-filled sort text is not blank whenever its default is not blank |
| Pagination.NewPaginationQuery | application/src/main/java/com/library/manager/domain/valueobjects/PaginationQuery.java:6-22 | a negative page fails first, then a size below 1, each with its own IllegalArgumentException message; otherwise the query keeps page and size, and a null or blank sortBy or sortDirection becomes "title" or "asc", while any other value is kept |
| Pagination.NewPaginationQueryWithDefaults | application/src/main/java/com/library/manager/domain/valueobjects/PaginationQuery.java:24-26 | the two-argument constructor equals the full one with "title"/"asc", and equally with both texts null |
| Pagination.SmallestQueryAccepted | application/src/main/java/com/library/manager/domain/valueobjects/PaginationQuery.java:7-13 | page 0 with size 1 is the boundary that is accepted |
| Pagination.RebuildValidQuery | application/src/main/java/com/library/manager/domain/valueobjects/PaginationQuery.java:6-22 | constructing a query from a valid query's own fields gives that query back |
| Pagination.TotalPagesBounds | application/src/main/java/com/library/manager/domain/valueobjects/PaginatedResult.java:12-14 | for 0 < totalElements <= Integer.MAX_VALUE and size >= 1, totalPages t is at least 1 and (t-1)*size < totalElements <= t*size |
| Pagination.TotalPagesZero | application/src/main/java/com/library/manager/domain/valueobjects/PaginatedResult.java:12-14 | totalPages is 0 exactly when there are no elements |
| Pagination.TotalPagesSinglePage | application/src/main/java/com/library/manager/domain/valueobjects/PaginatedResult.java:12-14 | up to pageSize elements make exactly one page |
| Pagination.TotalPagesExample | application/src/main/java/com/library/manager/domain/valueobjects/PaginatedResult.java:12-14 | 25 elements at 10 per page make 3 pages, 100 make 10, none make 0 |
| Pagination.TotalPages | application/src/main/java/com/library/manager/domain/valueobjects/PaginatedResult.java:12-14 | the (int) cast keeps totalPages within the int range; no elements give 0, a positive count with size >= 0 gives at least 1, and a zero size saturates to Integer.MAX_VALUE |
| PaginationMappers.DirectionOf | driven/repository-sql/src/main/java/com/library/manager/driven/repositories/mappers/PaginationEntityMapper.java:13-15 | the direction is DESC exactly when the text equals "desc" ignoring case |
| PaginationMappers.ToPageable | driven/repository-sql/src/main/java/com/library/manager/driven/repositories/mappers/PaginationEntityMapper.java:12-23 | the pageable is valid, keeps page and size, sorts by one order on sortBy, descending exactly for "desc" in any case, and its offset is page*size |
| PaginationMappers.DirectionOfExamples | driven/repository-sql/src/main/java/com/library/manager/repositories/mappers/PaginationMapper.java:16-18 | "DeSc" sorts descending; "INVALID" and "AsC" sort ascending |
| PaginationMappers.ExtractSortField | driven/repository-sql/src/main/java/com/library/manager/repositories/mappers/PaginationMapper.java:40-48 | the first order's property, or "id" when the pageable is unsorted |
| PaginationMappers.ExtractSortDirection | driven/repository-sql/src/main/java/com/library/manager/repositories/mappers/PaginationMapper.java:50-60 | always "asc" or "desc", and "desc" exactly when the first order is descending |
| PaginationMappers.ToPaginationQuery | driven/repository-sql/src/main/java/com/library/manager/repositories/mappers/PaginationMapper.java:28-38 | a valid pageable always converts, keeping page number and size, with the extracted sort field and direction |
| PaginationMappers.UnsortedReadsBackAsDefaults | driven/repository-sql/src/main/java/com/library/manager/repositories/mappers/PaginationMapper.java:12-13 | an unsorted pageable reads back with sort "id" and direction "asc" |
| PaginationMappers.QueryRoundTrip | driven/repository-sql/src/main/java/com/library/manager/repositories/mappers/PaginationMapper.java:15-38 | query to pageable to query keeps page, size and sortBy, and normalises the direction to "desc" or "asc" |
| PaginationMappers.PageableRoundTrip | driven/repository-sql/src/main/java/com/library/manager/repositories/mappers/PaginationMapper.java:15-38 | pageable to query to pageable restores any valid pageable with a single order |
| Entities.GenreAlwaysFits | driven/repository-sql/src/main/java/com/library/manager/driven/repositories/models/BookEntity.java:35-38 | the GENRE length constraint never rejects a genre |
| Entities.ConstraintsOnText | driven/repository-sql/src/main/java/com/library/manager/driven/repositories/models/BookEntity.java:27-53 | a row meets the BOOK column constraints exactly when author is present, author and title fit in 250 chars, and createdAt, updatedAt and active are present |
| Entities.ToEntity | driven/repository-sql/src/main/java/com/library/manager/driven/repositories/mappers/BookEntityMapper.java:15 | toEntity copies each of the nine fields to the column of the same name |
| Entities.ToDomain | driven/repository-sql/src/main/java/com/library/manager/driven/repositories/mappers/BookEntityMapper.java:13 | toDomain copies each of the nine columns to the field of the same name, and toEntity undoes it |
| Entities.DomainRoundTrip | driven/repository-sql/src/main/java/com/library/manager/driven/repositories/mappers/BookEntityMapper.java:13-15 | toDomain(toEntity(b)) is b |
| Entities.ToEntityInjective | driven/repository-sql/src/main/java/com/library/manager/driven/repositories/mappers/BookEntityMapper.java:15 | distinct books map to distinct rows |
| Ordering.KeyOf | driven/repository-sql/src/main/java/com/library/manager/driven/repositories/BookJpaRepository.java:24 | a row has a sort key exactly for the entity's nine properties; the genre sorts by its stored name |
| Ordering.Lex | driven/repository-sql/src/main/java/com/library/manager/driven/repositories/BookJpaRepository.java:24 | lexicographic comparison is a sign that is 0 exactly for equal sequences |
| Ordering.LexAntisymmetric | driven/repository-sql/src/main/java/com/library/manager/driven/repositories/BookJpaRepository.java:24 | swapping the arguments negates the comparison |
| Ordering.LexTransitive | driven/repository-sql/src/main/java/com/library/manager/driven/repositories/BookJpaRepository.java:24 | the lexicographic order is transitive |
| Ordering.CompareKeys | driven/repository-sql/src/main/java/com/library/manager/driven/repositories/BookJpaRepository.java:24 | keys compare to 0 exactly when equal, and null sorts below every value |
| Ordering.Directed | driven/repository-sql/src/main/java/com/library/manager/driven/repositories/mappers/PaginationEntityMapper.java:13-16 | an ASC order compares keys as they are and a DESC order reverses them |
| Ordering.KeysAntisymmetric | driven/repository-sql/src/main/java/com/library/manager/driven/repositories/BookJpaRepository.java:24 | key comparison is antisymmetric |
| Ordering.KeysTransitive | driven/repository-sql/src/main/java/com/library/manager/driven/repositories/BookJpaRepository.java:24 | key comparison is transitive |
| Ordering.DirectedAntisymmetric | driven/repository-sql/src/main/java/com/library/manager/driven/repositories/mappers/PaginationEntityMapper.java:13-16 | directed comparison is antisymmetric in both directions |
| Ordering.DirectedTransitive | driven/repository-sql/src/main/java/com/library/manager/driven/repositories/mappers/PaginationEntityMapper.java:13-16 | directed comparison is transitive in both directions |
| Ordering.CompareRowsAntisymmetric | driven/repository-sql/src/main/java/com/library/manager/driven/repositories/BookJpaRepository.java:24 | comparing rows under a list of orders is antisymmetric |
| Ordering.CompareRowsTransitive | driven/repository-sql/src/main/java/com/library/manager/driven/repositories/BookJpaRepository.java:24 | comparing rows under a list of orders is transitive, so it is a total preorder |
| Ordering.InsertSorted | driven/repository-sql/src/main/java/com/library/manager/driven/repositories/BookJpaRepository.java:24 | inserting into a sorted list keeps it sorted |
| Ordering.SortRows | driven/repository-sql/src/main/java/com/library/manager/driven/repositories/BookJpaRepository.java:24 | the sort returns a permutation of the rows (same multiset) that is sorted under the orders |
| Ordering.SortedHeadIsLeast | driven/repository-sql/src/main/java/com/library/manager/driven/repositories/BookJpaRepository.java:24 | the first row of a sorted result precedes every input row |
| Ordering.AscendingTitleFirst | driven/repository-sql/src/main/java/com/library/manager/driven/repositories/BookJpaRepository.java:24 | sorting ascending by title puts the row with the strictly least title first |
| Ordering.TitleExample | driven/repository-sql/src/main/java/com/library/manager/driven/repositories/BookJpaRepository.java:24 | "1984" sorts before "Dune" and before "The Hobbit" |
| JpaRepository.Rows | driven/repository-sql/src/main/java/com/library/manager/driven/repositories/BookJpaRepository.java:14 | the scan lists the rows in table order, one per stored id |
| JpaRepository.RowsAreStored | driven/repository-sql/src/main/java/com/library/manager/driven/repositories/BookJpaRepository.java:14 | a row appears in the scan exactly when it is stored under some id |
| JpaRepository.Save | driven/repository-sql/src/main/java/com/library/manager/driven/repositories/BookJpaRepository.java:14 | a row breaking a NOT NULL or size constraint is refused with a runtime exception; otherwise a row whose id is stored replaces that row (merge) and any other row is inserted under the next generated id; the saved row is stored, every other row is unchanged, the ids gain only the saved one, and the table invariant is kept |
| JpaRepository.FindById | driven/repository-sql/src/main/java/com/library/manager/driven/repositories/BookJpaRepository.java:14 | findById finds a row exactly when one is stored under the id, and returns that row |
| JpaRepository.FindByIdAndActiveTrue | driven/repository-sql/src/main/java/com/library/manager/driven/repositories/BookJpaRepository.java:26 | findByIdAndActiveTrue finds the row only when it is stored and active |
| JpaRepository.SaveThenFind | driven/repository-sql/src/main/java/com/library/manager/driven/repositories/BookJpaRepository.java:14 | a row that was saved reads back under its id |
| JpaRepository.SaveLeavesOthers | driven/repository-sql/src/main/java/com/library/manager/driven/repositories/BookJpaRepository.java:14 | saving leaves every other id's row unchanged |
| JpaRepository.SaveNewGetsFreshId | driven/repository-sql/src/main/java/com/library/manager/driven/repositories/BookJpaRepository.java:14 | a saved row without a stored id gets an id that no stored row has, and the table grows by one |
| JpaRepository.SaveKeepsStoredRows | driven/repository-sql/src/main/java/com/library/manager/driven/repositories/models/BookEntity.java:27-53 | when every stored row meets the column constraints, so does every row after a save |
| JpaRepository.Filter | driven/repository-sql/src/main/java/com/library/manager/driven/repositories/BookJpaRepository.java:19-22 | the filtered rows are exactly the input rows that satisfy the WHERE clause, with their multiplicities |
| JpaRepository.Window | driven/repository-sql/src/main/java/com/library/manager/driven/repositories/BookJpaRepository.java:24 | skip/take: at most size rows; none once the offset passes the end; otherwise the run of rows starting at the offset |
| JpaRepository.SortedMatches | driven/repository-sql/src/main/java/com/library/manager/driven/repositories/BookJpaRepository.java:16-24 | a sorted permutation of the matching rows: the same multiset as the filtered scan, in the requested order |
| JpaRepository.FindAllWithFilters | driven/repository-sql/src/main/java/com/library/manager/driven/repositories/BookJpaRepository.java:16-24 | it fails with InvalidDataAccessApiUsageException exactly when a sort names an unknown property or the offset exceeds Integer.MAX_VALUE; otherwise the total counts every match, and the content is the window at page*size of the sorted matches |
| JpaRepository.WindowOfSorted | driven/repository-sql/src/main/java/com/library/manager/driven/repositories/BookJpaRepository.java:24 | a window of a sorted list is sorted |
| JpaRepository.ActiveComponent | driven/repository-sql/src/main/java/com/library/manager/driven/repositories/BookJpaRepository.java:19 | the active component alone selects exactly the rows with that flag |
| JpaRepository.TitleComponent | driven/repository-sql/src/main/java/com/library/manager/driven/repositories/BookJpaRepository.java:20 | the title component alone selects the rows whose lower-cased title contains the lower-cased value |
| JpaRepository.AuthorComponent | driven/repository-sql/src/main/java/com/library/manager/driven/repositories/BookJpaRepository.java:21 | the author component alone selects the rows whose lower-cased author contains the lower-cased value |
| JpaRepository.GenreComponent | driven/repository-sql/src/main/java/com/library/manager/driven/repositories/BookJpaRepository.java:22 | the genre component alone selects exactly the rows of that genre |
| JpaRepository.ComponentsConjoined | driven/repository-sql/src/main/java/com/library/manager/driven/repositories/BookJpaRepository.java:19-22 | a row matches exactly when it matches every component on its own |
| JpaRepository.NoComponentsMatchAll | driven/repository-sql/src/main/java/com/library/manager/driven/repositories/BookJpaRepository.java:19-22 | a filter with every component null matches every row |
| JpaRepository.MatchIgnoresCase | driven/repository-sql/src/main/java/com/library/manager/driven/repositories/BookJpaRepository.java:20 | upper-casing the title criterion selects the same rows |
| JpaRepository.TotalIndependentOfWindow | driven/repository-sql/src/main/java/com/library/manager/driven/repositories/BookJpaRepository.java:16-24 | the total does not depend on the page asked for or the sort |
| JpaRepository.PagesCoverAll | application/src/main/java/com/library/manager/domain/valueobjects/PaginatedResult.java:12-14 | for one fixed order of the result, pages 0 to totalPages-1 laid end to end are the whole result, so every row is on exactly one page |
| JpaRepository.PagePastLastIsEmpty | application/src/main/java/com/library/manager/domain/valueobjects/PaginatedResult.java:12-14 | a page number at or past totalPages has empty content |
| JpaRepository.PageNonEmptyIff | application/src/main/java/com/library/manager/domain/valueobjects/PaginatedResult.java:12-14 | a page has rows exactly when its number is below totalPages |
| RepositoryAdapter.ToBookPaginatedResult | driven/repository-sql/src/main/java/com/library/manager/driven/repositories/mappers/BookEntityMapper.java:17-26 | the content is mapped row by row, and the total, the 0-based page number and the size are carried over |
| RepositoryAdapter.QueriedRows | driven/repository-sql/src/main/java/com/library/manager/driven/repositories/adapters/BookRepositoryAdapter.java:27-35 | the rows one listing query returns are at most one page |
| RepositoryAdapter.PaginatedResultRoundTrip | driven/repository-sql/src/main/java/com/library/manager/driven/repositories/mappers/BookEntityMapper.java:17-26 | mapping the content back with toEntity recovers the page's rows |
| RepositoryAdapter.FindAllWithFilters | driven/repository-sql/src/main/java/com/library/manager/driven/repositories/adapters/BookRepositoryAdapter.java:27-35 | it fails exactly for an unknown sortBy or an offset above Integer.MAX_VALUE; otherwise the result keeps page and size, counts every match, and its books map back row by row to the requested window of the sorted matches |
| RepositoryAdapter.PageContentSorted | driven/repository-sql/src/main/java/com/library/manager/driven/repositories/adapters/BookRepositoryAdapter.java:27-35 | the books of a page, mapped back, are sorted in the requested order |
| RepositoryAdapter.NonEmptyIffBeforeLastPage | driven/repository-sql/src/main/java/com/library/manager/driven/repositories/adapters/BookRepositoryAdapter.java:27-35 | the result has books exactly when its page number is below its totalPages |
| RepositoryAdapter.Save | application/src/main/java/com/library/manager/application/ports/driven/BookRepositoryPort.java:12 | a book breaking the column constraints is refused with the table unchanged; otherwise the saved book keeps a stored id or gets the next generated one, reads back, other rows are unchanged, and the table invariant is kept |
| RepositoryAdapter.FindById | application/src/main/java/com/library/manager/application/ports/driven/BookRepositoryPort.java:14 | findById returns the stored book, active or not |
| RepositoryAdapter.FindActiveById | application/src/main/java/com/library/manager/application/ports/driven/BookRepositoryPort.java:16 | findActiveById returns the stored book only while it is active |
| RepositoryAdapter.SaveThenFindById | application/src/main/java/com/library/manager/application/ports/driven/BookRepositoryPort.java:12-14 | a book that was saved reads back unchanged by id |
| Service.ValidateId | application/src/main/java/com/library/manager/application/services/BookServiceUseCase.java:66-70 | the check fails exactly for a null id, with "Book ID cannot be null" |
| Service.GetBookIfExist | application/src/main/java/com/library/manager/application/services/BookServiceUseCase.java:72-75 | it succeeds exactly when the id is stored, with that row's book, and otherwise throws BookNotFoundException for the id |
| Service.UpdateAsWritten | application/src/main/java/com/library/manager/application/services/BookServiceUseCase.java:39-48 | as written: the caller's book with updatedAt now is saved as sent, so it succeeds exactly when that book meets every column constraint |
| Service.Save | application/src/main/java/com/library/manager/application/services/BookServiceUseCase.java:21-29 | one port save of the book marked active with createdAt and updatedAt now; it succeeds exactly when author and title fit their columns, with that book under a stored id or a new one, and otherwise fails with the table unchanged |
| Service.FindActiveById | application/src/main/java/com/library/manager/application/services/BookServiceUseCase.java:31-37 | a null id is rejected with no port call; otherwise one active lookup, which succeeds exactly for a stored active book and otherwise throws BookNotFoundException |
| Service.Update | application/src/main/java/com/library/manager/application/services/BookServiceUseCase.java:39-48 | corrected: null id: IllegalArgumentException and no calls; unknown id: BookNotFoundException after one findById; otherwise the sent fields with the stored createdAt and active and updatedAt now are saved, succeeding exactly when the text fits and the stored createdAt and active are present |
| Service.Deactivate | application/src/main/java/com/library/manager/application/services/BookServiceUseCase.java:50-59 | null id and unknown id fail as in update; otherwise the stored book is saved again with active false and updatedAt now, succeeding exactly when its text fits and its createdAt is present |
| Service.GetAllWithFilters | application/src/main/java/com/library/manager/application/services/BookServiceUseCase.java:61-64 | one findAllWithFilters call, with its result passed through and the store untouched |
| Service.SaveThenFindActive | application/src/main/java/com/library/manager/application/services/BookServiceUseCase.java:21-37 | a saved book is found active under its new id |
| Service.DeactivateThenFind | application/src/main/java/com/library/manager/application/services/BookServiceUseCase.java:50-59 | after deactivation the book is not found active but is still stored, with active false |
| Service.DeactivateIdempotent | application/src/main/java/com/library/manager/application/services/BookServiceUseCase.java:50-59 | deactivating twice at the same time stores the same row as once |
| Service.UpdateIgnoresActive | application/src/main/java/com/library/manager/application/services/BookServiceUseCase.java:39-48 | corrected: an inactive book can still be updated, and stays inactive |
| Service.UpdateKeepsCreatedAt | application/src/main/java/com/library/manager/application/services/BookServiceUseCase.java:39-48 | corrected: an update keeps the stored createdAt and sets updatedAt to now, with the sent author and title |
| Service.UpdateKeepsConstraints | application/src/main/java/com/library/manager/application/services/BookServiceUseCase.java:39-48 | corrected: an update keeps every row within the column constraints |
| Service.UpdateAsWrittenRefusesMissingCreatedAt | application/src/main/java/com/library/manager/application/services/BookServiceUseCase.java:39-48 | as written, updating a stored book with a null createdAt fails with a constraint violation and changes nothing |
| Service.UpdateAcceptsMissingCreatedAt | application/src/main/java/com/library/manager/application/services/BookServiceUseCase.java:39-48 | corrected, the same update succeeds and keeps the stored createdAt |
| Service.SaveKeepsConstraints | application/src/main/java/com/library/manager/application/services/BookServiceUseCase.java:21-29 | save keeps every row within the BOOK column constraints |
| Service.DeactivateKeepsConstraints | application/src/main/java/com/library/manager/application/services/BookServiceUseCase.java:50-59 | deactivation keeps every row within the column constraints |
| RestErrors.FieldErrorMap | driving/api-rest/src/main/java/com/library/manager/driving/controllers/error/CustomExceptionHandler.java:58-62 | the map has a key exactly for each field with a field error, and the last error on a field gives its message |
| RestErrors.GlobalErrorsIgnored | driving/api-rest/src/main/java/com/library/manager/driving/controllers/error/CustomExceptionHandler.java:58-62 | object-level errors add nothing to the map |
| RestErrors.Handle | driving/api-rest/src/main/java/com/library/manager/driving/controllers/error/CustomExceptionHandler.java:28-126 | the four client-error kinds get 400 with their own code, message and details: the criteria field and issue for an IllegalArgumentException that mentions criteria, the field errors, the INVALID_JSON texts, and the type-mismatch message, parameter, provided value and expected type; every other exception gets 500 INTERNAL_ERROR, with details naming its class only for RuntimeExceptions; NOT_FOUND is never used |
| RestErrors.IllegalArgumentIsClientError | driving/api-rest/src/main/java/com/library/manager/driving/controllers/error/CustomExceptionHandler.java:28-45 | IllegalArgumentException is a RuntimeException, yet it is answered with 400 |
| RestErrors.BookNotFoundIsInternalError | driving/api-rest/src/main/java/com/library/manager/driving/controllers/error/CustomExceptionHandler.java:104-116 | BookNotFoundException falls to the RuntimeException handler: 500 with type BookNotFoundException |
| RestErrors.CriteriaDetailsExample | driving/api-rest/src/main/java/com/library/manager/driving/controllers/error/CustomExceptionHandler.java:35 | criteria details are attached for "Invalid CRITERIA" and not for a null message |
| RestErrors.LastFieldErrorWins | driving/api-rest/src/main/java/com/library/manager/driving/controllers/error/CustomExceptionHandler.java:58-62 | of two errors on one field, the second message is kept |
| RestMapper.GenreValueOf | driving/api-rest/src/main/java/com/library/manager/driving/controllers/mappers/BookMapper.java:88-91 | valueOf succeeds exactly for a constant's exact name, and otherwise throws IllegalArgumentException "No enum constant ..." |
| RestMapper.EnumToString | driving/api-rest/src/main/java/com/library/manager/driving/controllers/mappers/BookMapper.java:83-86 | a genre is written as its name; a null genre throws NullPointerException |
| RestMapper.StringToEnum | driving/api-rest/src/main/java/com/library/manager/driving/controllers/mappers/BookMapper.java:88-91 | a null request genre throws NullPointerException; any other goes through valueOf |
| RestMapper.GenreRoundTrip | driving/api-rest/src/main/java/com/library/manager/driving/controllers/mappers/BookMapper.java:83-91 | a genre written by enumToString is read back by stringToEnum |
| RestMapper.GetOffsetDateTime | driving/api-rest/src/main/java/com/library/manager/driving/controllers/mappers/BookMapper.java:93-99 | null stays null; a date-time gets the UTC offset and keeps its local time |
| RestMapper.OffsetDateTimeRoundTrip | driving/api-rest/src/main/java/com/library/manager/driving/controllers/mappers/BookMapper.java:93-99 | the local date-time is recovered from the offset one |
| RestMapper.ToFilter | driving/api-rest/src/main/java/com/library/manager/driving/controllers/mappers/BookMapper.java:48-50 | title and author go to their own slots, normalised, the genre is kept and active is true |
| RestMapper.ToBook | driving/api-rest/src/main/java/com/library/manager/driving/controllers/mappers/BookMapper.java:39-40 | it succeeds exactly for a present, known genre name; it copies the request's fields and leaves id, timestamps and active null |
| RestMapper.BookHrefInjective | driving/api-rest/src/main/java/com/library/manager/driving/controllers/mappers/BookMapper.java:22 | distinct ids give distinct book URLs |
| RestMapper.BookHref | driving/api-rest/src/main/java/com/library/manager/driving/controllers/mappers/BookMapper.java:22 | the book URL is "/v1/books/" followed by "null" for a null id and otherwise by text that parses back to the id |
| RestMapper.BookLinks | driving/api-rest/src/main/java/com/library/manager/driving/controllers/mappers/BookMapper.java:19-32 | self (GET) and update (PUT) always, and deactivate (DELETE) exactly when the book is active |
| RestMapper.ToBookResponse | driving/api-rest/src/main/java/com/library/manager/driving/controllers/mappers/BookMapper.java:34-37 | it fails with NullPointerException exactly for a null genre; otherwise fields, genre name, UTC timestamps and links as above |
| RestMapper.ToListBookResponse | driving/api-rest/src/main/java/com/library/manager/driving/controllers/mappers/BookMapper.java:42 | it succeeds exactly when every book has a genre, converting each in order |
| RestMapper.ToPagination | driving/api-rest/src/main/java/com/library/manager/driving/controllers/mappers/BookMapper.java:44-46 | number and size come from pageNumber and pageSize; totalPages is the result's |
| RestMapper.PageHrefInjective | driving/api-rest/src/main/java/com/library/manager/driving/controllers/mappers/BookMapper.java:113-116 | distinct (page, size) pairs give distinct page URLs |
| RestMapper.PageHrefReadsBack | driving/api-rest/src/main/java/com/library/manager/driving/controllers/mappers/BookMapper.java:113-116 | a page URL starts "/v1/books?page="; its page parameter up to the first "&" parses back to the page and its pageSize parameter to the size |
| RestMapper.PageLinks | driving/api-rest/src/main/java/com/library/manager/driving/controllers/mappers/BookMapper.java:58-78 | self and first come first and every page link is a GET |
| RestMapper.PageLinksPresence | driving/api-rest/src/main/java/com/library/manager/driving/controllers/mappers/BookMapper.java:63-76 | last exists exactly when total > 0, next exactly when page < total, prev exactly when page > 1, each with the page it names |
| RestMapper.ToResponse | driving/api-rest/src/main/java/com/library/manager/driving/controllers/mappers/BookMapper.java:52-81 | it succeeds exactly when every book has a genre; each book of the body is the response of the book at the same position, and the pagination block and the page links come from the result |
| RestController.Wrap32 | driving/api-rest/src/main/java/com/library/manager/driving/controllers/adapters/BookControllerAdapter.java:90 | Java int arithmetic: values in range are unchanged and the result is congruent to the exact value modulo 2^32 |
| RestController.CreateBook | driving/api-rest/src/main/java/com/library/manager/driving/controllers/adapters/BookControllerAdapter.java:37-45 | a present, known genre with author and title that fit their columns gives 201 with the request's fields, a new id, now as both timestamps and three links; a bad genre changes nothing and is answered by the handler; text that does not fit is a 500 with the table unchanged |
| RestController.GetBook | driving/api-rest/src/main/java/com/library/manager/driving/controllers/adapters/BookControllerAdapter.java:47-53 | a stored active book with a genre gives 200 with its fields and three links; a missing or inactive one is answered as BookNotFoundException |
| RestController.DeactivateBook | driving/api-rest/src/main/java/com/library/manager/driving/controllers/adapters/BookControllerAdapter.java:55-61 | 204 exactly for a stored id whose row can be saved again, which is every stored id when the rows meet the constraints, with the row now inactive; an unknown id is BookNotFoundException and no change |
| RestController.UpdateBook | driving/api-rest/src/main/java/com/library/manager/driving/controllers/adapters/BookControllerAdapter.java:63-72 | as written, a PUT is never answered 200: a bad genre is answered by the handler with no calls, an unknown id is BookNotFoundException, and a stored id sends a book with null createdAt and active to the store, which refuses it: 500 with the table unchanged |
| RestController.UpdateBookCorrected | driving/api-rest/src/main/java/com/library/manager/driving/controllers/adapters/BookControllerAdapter.java:63-72 | corrected: 200 exactly for a known genre, a stored id and fitting text when the rows meet the constraints; the path id wins; the stored createdAt and active are kept, so the deactivate link appears exactly for an active book |
| RestController.GenreParam | driving/api-rest/src/main/java/com/library/manager/driving/controllers/adapters/BookControllerAdapter.java:83-84 | the genre is upper-cased and looked up; an unknown one raises the valueOf IllegalArgumentException |
| RestController.PageIndexAsWritten | driving/api-rest/src/main/java/com/library/manager/driving/controllers/adapters/BookControllerAdapter.java:90 | page.orElse(1) - 1 in int arithmetic: Integer.MIN_VALUE wraps to Integer.MAX_VALUE |
| RestController.PageIndex | driving/api-rest/src/main/java/com/library/manager/driving/controllers/adapters/BookControllerAdapter.java:90 | the corrected index is non-negative exactly for pages from 1 on, and agrees with the source away from Integer.MIN_VALUE |
| RestController.ListQuery | driving/api-rest/src/main/java/com/library/manager/driving/controllers/adapters/BookControllerAdapter.java:89-94 | the query is accepted exactly for a non-negative index and a size of at least 1; absent size, sortBy and direction become 10, "id" and "ASC", supplied non-blank ones pass through unchanged, a blank sortBy falls back to "title" and a blank direction to "asc" |
| RestController.GetBooksAt | driving/api-rest/src/main/java/com/library/manager/driving/controllers/adapters/BookControllerAdapter.java:74-99 | a bad genre, page or size is a 400 with no service call; otherwise one service call with toFilter's filter and the query; an unsortable property or an offset above Integer.MAX_VALUE is a 500; a 200 carries the page number, size, total, at most a page of books and the page links |
| RestController.ListedBooksAreQueriedRows | driving/api-rest/src/main/java/com/library/manager/driving/controllers/adapters/BookControllerAdapter.java:74-99 | the books of a 200 listing are the responses of the requested window of the sorted matching rows, position by position |
| RestController.ListFiltered | driving/api-rest/src/main/java/com/library/manager/driving/controllers/adapters/BookControllerAdapter.java:87-94 | with the filter built, an invalid page index or size is a 400 with no service call; otherwise exactly one service call with that filter and the built query; a 200 reports the index and size it was given and its books are the responses of the queried rows |
| RestController.ListPage | driving/api-rest/src/main/java/com/library/manager/driving/controllers/adapters/BookControllerAdapter.java:87-98 | one service call with the given filter and query; it answers 200 exactly when the query is sortable, its offset fits an int and every queried row has a genre; an unservable query is a 500; a 200 carries the query's page and size, the count of matching rows, the responses of the queried rows in order and the links for that page |
| RestController.GetBooksAsWritten | driving/api-rest/src/main/java/com/library/manager/driving/controllers/adapters/BookControllerAdapter.java:74-99 | as written, the service is called exactly when the wrapped page index and the other parameters pass |
| RestController.GetBooks | driving/api-rest/src/main/java/com/library/manager/driving/controllers/adapters/BookControllerAdapter.java:74-99 | corrected: any page below 1 is a 400 with no service call; a 200 carries page number page - 1 |
| RestController.CreateThenGet | driving/api-rest/src/main/java/com/library/manager/driving/controllers/adapters/BookControllerAdapter.java:37-53 | a created book is served back by getBook unchanged |
| RestController.DeactivateThenGet | driving/api-rest/src/main/java/com/library/manager/driving/controllers/adapters/BookControllerAdapter.java:47-61 | after a 204 deactivation getBook answers 500 (BookNotFoundException through the RuntimeException handler) |
| RestController.PutAsWrittenRefused | driving/api-rest/src/main/java/com/library/manager/driving/controllers/adapters/BookControllerAdapter.java:63-72 | on a PUT the corrected handler answers with 200, the handler as written answers 500 and leaves the table unchanged |
| RestController.UpdateThenGet | driving/api-rest/src/main/java/com/library/manager/driving/controllers/adapters/BookControllerAdapter.java:47-72 | corrected: a PUT on an active book succeeds, and getBook then serves exactly the body the PUT answered |
| RestController.GenreParamIgnoresCase | driving/api-rest/src/main/java/com/library/manager/driving/controllers/adapters/BookControllerAdapter.java:83 | the listing is the same for a genre and its upper-cased form |
| RestController.UnknownGenreRejected | driving/api-rest/src/main/java/com/library/manager/driving/controllers/adapters/BookControllerAdapter.java:83-84 | "poetry" is a 400 whose message names POETRY |
| RestController.LinksAreOnePageBehind | driving/api-rest/src/main/java/com/library/manager/driving/controllers/mappers/BookMapper.java:61-72 | the self link of page n names page n - 1, and a next link names page n itself |
| RestController.FirstPageSelfLinkIsRejected | driving/api-rest/src/main/java/com/library/manager/driving/controllers/adapters/BookControllerAdapter.java:90 | following the self link (page=0) of the default listing is a 400 |
| RestController.DefaultListingOfEmptyStore | driving/api-rest/src/main/java/com/library/manager/driving/controllers/adapters/BookControllerAdapter.java:74-99 | the default listing of an empty store is a 200 with no books whose self link names page 0 |
| RestController.PageWrapAccepted | driving/api-rest/src/main/java/com/library/manager/driving/controllers/adapters/BookControllerAdapter.java:90 | as written, page=Integer.MIN_VALUE passes the checks and reaches the store with index Integer.MAX_VALUE, which refuses the offset: a 500; corrected, it is a 400 with no service call |
| RestController.PageIndexAgreesAwayFromWrap | driving/api-rest/src/main/java/com/library/manager/driving/controllers/adapters/BookControllerAdapter.java:90 | for every other page value the source and the corrected listing agree |
| WebUi.HandleWeb | driving/web/src/main/java/com/library/manager/driving/web/exception/WebExceptionHandler.java:13-32 | BookNotFoundException gives 404 with its message, IllegalArgumentException 400 with its message, anything else 500 with a fixed text; the view is error/ plus the status |
| WebUi.MessageOf | driving/web/src/main/java/com/library/manager/driving/web/exception/WebExceptionHandler.java:16-23 | the model's error text is the exception's getMessage(): the IllegalArgumentException message as given, and for a missing book the not-found text, which names the id |
| WebUi.ReverseSortDir | driving/web/src/main/java/com/library/manager/driving/web/controllers/BookWebController.java:44 | "desc" exactly when the direction is exactly "asc"; "asc" otherwise |
| WebUi.ListBooks | driving/web/src/main/java/com/library/manager/driving/web/controllers/BookWebController.java:21-48 | a bad page or size is the 400 page with the constructor's message and no service call; otherwise one call with the filter and query; it renders exactly for a sortable sortBy and an offset that fits an int, and otherwise is the 500 page; the list view's books map back to the queried rows, with the filter, the raw sort, the reversed direction and all genres |
| WebUi.CreateForm | driving/web/src/main/java/com/library/manager/driving/web/controllers/BookWebController.java:50-55 | the create view with an empty book and all genres |
| WebUi.SaveBook | driving/web/src/main/java/com/library/manager/driving/web/controllers/BookWebController.java:57-61 | the book goes through the service save; it redirects exactly when author and title fit their columns, and otherwise is the 500 page with the table unchanged |
| WebUi.ShowActive | driving/web/src/main/java/com/library/manager/driving/web/controllers/BookWebController.java:63-76 | renders exactly for a stored active book, with that book; otherwise the 404 page with the not-found message |
| WebUi.Detail | driving/web/src/main/java/com/library/manager/driving/web/controllers/BookWebController.java:63-68 | the detail view renders exactly for a stored active book, without genres |
| WebUi.EditForm | driving/web/src/main/java/com/library/manager/driving/web/controllers/BookWebController.java:70-76 | the edit view renders exactly for a stored active book, with all genres |
| WebUi.UpdateBook | driving/web/src/main/java/com/library/manager/driving/web/controllers/BookWebController.java:78-83 | as written: an unknown id is the 404 page; for a stored id the posted book, with the path id and updatedAt now and its own createdAt and active, is stored and redirects exactly when it meets the column constraints, and otherwise the 500 page with the table unchanged |
| WebUi.UpdateBookCorrected | driving/web/src/main/java/com/library/manager/driving/web/controllers/BookWebController.java:78-83 | corrected: an unknown id is the 404 page; a stored id redirects exactly when the text fits and the stored createdAt and active are present, after storing the book with the path id, the stored createdAt and active and updatedAt now; otherwise the 500 page |
| WebUi.DeleteBook | driving/web/src/main/java/com/library/manager/driving/web/controllers/BookWebController.java:85-89 | redirects exactly for a stored id whose row can be saved again, which is every stored id when the rows meet the constraints; an unknown id is the 404 page with no change |
| WebUi.ReverseSortDirToggles | driving/web/src/main/java/com/library/manager/driving/web/controllers/BookWebController.java:44 | two header clicks restore "asc" or "desc" |
| WebUi.ReverseSortDirIsCaseSensitive | driving/web/src/main/java/com/library/manager/driving/web/controllers/BookWebController.java:44 | "ASC" and "DESC" both flip to "asc" |
| WebUi.ListDefaultsAccepted | driving/web/src/main/java/com/library/manager/driving/web/controllers/BookWebController.java:27-30 | the default parameters (page 0, size 10, "id", "asc") render the list |
| WebUi.SaveThenDetail | driving/web/src/main/java/com/library/manager/driving/web/controllers/BookWebController.java:57-68 | a book saved from the form is shown by the detail page under its new id |
| WebUi.DeleteThenDetail | driving/web/src/main/java/com/library/manager/driving/web/controllers/BookWebController.java:63-89 | after a delete the detail page is the 404 page with the not-found message |

## Left out

- Exceptions.BookNotFoundMessage: `%d` in `String.format` renders digits in the default format locale. The model assumes a locale whose zero digit is `'0'`, where the text matches `Long.toString`; under a locale with other digits (Persian, for instance) the message would not parse back as the model states.
- Unicode and locale-sensitive case mapping: `toUpperCase`, `toLowerCase` and `equalsIgnoreCase` are modelled on ASCII letters only. Every genre name and sort keyword is ASCII.
- The SQL `LIKE` operator is modelled as substring containment after lower-casing. The filter texts are used as patterns, so `%` and `_` in a filter would act as wildcards and `\` as the escape character (the H2 default); the model treats all three as ordinary characters. Database collation is also not modelled.
- `totalPages()` divides in `double` and rounds up with `Math.ceil`. The model uses the exact integer ceiling; floating-point rounding is not modelled.
- Clocks and timestamp formatting are not modelled: the `now` parameter stands for `LocalDateTime.now()`, and `OffsetDateTime` and the timestamps in the pagination and error bodies are left out.
- The `editorial` field and sorting by it are not modelled: no operation of the core reads or writes it beyond copying.
- The Spring, JPA, Hibernate and Thymeleaf wiring is not modelled: request binding, bean validation, transactions, dirty checking, HTML rendering and the dispatch to the most specific exception handler, which is modelled as a single table.
- The database's own null ordering is not modelled: nulls sort low (first in ascending order, last in descending order), whatever the dialect's default.
- The bean-validation annotations on the REST request body are not modelled, and neither is the `MethodArgumentNotValidException` they produce. The handler for that exception is modelled, taking the field errors as its input.
- The web UI's request parameters arrive already converted: genre is an `Option<BookGenre>`, and page and size are integers. Spring's conversion, and the 500 page for a parameter that fails it, are left out.
- Sorting by a property the entity does not have is modelled as the store query failing with a runtime exception (`InvalidDataAccessApiUsageException`). The framework translates that failure, and the translation is not part of the source.
- Strings are sequences of Unicode scalar values, not of UTF-16 code units.
  Text comparison in `ORDER BY` compares code points, while the database compares under its own collation.
- Ordering.SortRows: the model's sort puts rows with equal sort keys in one fixed order. The query has no tie-breaker, so the database may order ties differently, and differently in separate page queries; `JpaRepository.PagesCoverAll` therefore holds for one fixed order of the result only.
- Entities.TextFitsColumns: `@Size(max = 250)` counts UTF-16 code units, while the model counts Unicode scalar values, so a text with characters outside the Basic Multilingual Plane can fit in the model and still be refused by the database.
- JpaRepository.Save: the model assumes the `EDITORIAL_ID` column accepts null, as the repository's own tests do when they persist rows without an editorial. No operation of the core sets the editorial, so under the declared NOT NULL schema every save would be refused. The store raises one exception kind for every constraint violation; which layer detects it, and the exact exception class, are not modelled.
- JpaRepository.Save: a row carrying an id the table does not hold is inserted under a generated id, as a merge of a detached entity does with identity generation. Recent Hibernate versions refuse such a row with an optimistic-locking exception instead; that behaviour is not modelled.
- The legacy `repositories` package is not modelled, except its `PaginationMapper`.
- Service.Deactivate: the stored row after deactivation is stated only for a well-formed table (`JpaRepository.Valid`). Every table the model builds is well-formed, so this condition only rules out tables no operation can produce.

## Findings

| source | as written | input that shows it | evidently intended | confidence | as-written member | corrected member |
|---|---|---|---|---|---|---|
| driving/api-rest/src/main/java/com/library/manager/driving/controllers/adapters/BookControllerAdapter.java:90 | `page - 1` is computed in 32-bit `int` arithmetic, which wraps around | `page=-2147483648`: the index wraps to 2147483647, which passes the non-negative check, so the request is not rejected with 400; the store then refuses the offset and the answer is 500 | every page below 1 is rejected with 400 | not executed | RestController.GetBooksAsWritten, with the counterexample lemma RestController.PageWrapAccepted | RestController.GetBooks |
| application/src/main/java/com/library/manager/application/services/BookServiceUseCase.java:39-48 | update saves the caller's book as it arrives, with only `updatedAt` set; a REST request carries no `createdAt` or `active`, so both are null | any PUT on a stored book with a known genre: the NOT NULL `CREATED_AT` and `ACTIVE` columns refuse the row and the answer is 500. This rests on the same reading of the declared schema that the model sets aside for `EDITORIAL_ID` | the stored `createdAt` and `active` are kept. The service's unit test (BookServiceUseCaseTest.java:201-221) checks the save of the book as sent, against a stub repository, so the code's own test backs the as-written behaviour | not executed | Service.UpdateAsWritten, RestController.UpdateBook and WebUi.UpdateBook, with the counterexample lemmas Service.UpdateAsWrittenRefusesMissingCreatedAt and RestController.PutAsWrittenRefused | Service.Update, RestController.UpdateBookCorrected and WebUi.UpdateBookCorrected, with Service.UpdateAcceptsMissingCreatedAt and RestController.UpdateThenGet |

=== FILE: adapter.dfy ===
/** The driven side of the service's repository port: BookRepositoryAdapter
    composes the pagination mapper, the store query and the entity mapper;
    save, findById and findActiveById wrap the store with the entity mapping. */
module RepositoryAdapter {
  import opened Wrappers
  import opened Domain
  import opened Exceptions
  import opened Filters
  import opened Entities
  import opened Pageables
  import opened Pagination
  import opened PaginationMappers
  import opened Ordering
  import Jpa = JpaRepository

  /** BookEntityMapper.toBookPaginatedResult: the page's content mapped row by
      row to domain books, its total, its (0-based) number and its size. */
  function ToBookPaginatedResult(page: Page<BookEntity>): (r: PaginatedResult<Book>)
    ensures |r.content| == |page.content|
    ensures forall i | 0 <= i < |r.content| :: ToEntity(r.content[i]) == page.content[i]
    ensures r.totalElements == page.totalElements
    ensures r.pageNumber == page.Number() && r.pageSize == page.Size()
  {
    PaginatedResult(seq(|page.content|, i requires 0 <= i < |page.content| => ToDomain(page.content[i])),
                    page.totalElements, page.Number(), page.Size())
  }

  /** Mapping back with toEntity recovers the page's content exactly. */
  lemma PaginatedResultRoundTrip(page: Page<BookEntity>)
    ensures var r := ToBookPaginatedResult(page);
            seq(|r.content|, i requires 0 <= i < |r.content| => ToEntity(r.content[i])) == page.content
  {
  }

  /** The rows the store query returns for a query: the matching rows in the
      query's sort order, from offset page * pageSize, at most pageSize of them. */
  function QueriedRows(t: Jpa.Table, f: BookFilter, q: PaginationQuery): (r: seq<BookEntity>)
    requires Jpa.Valid(t) && q.Valid()
    ensures |r| <= q.pageSize
  {
    MulByPositive(q.page, q.pageSize);
    Jpa.Window(Jpa.SortedMatches(t, f, ToPageable(q).orders), q.page * q.pageSize, q.pageSize)
  }

  /** The books are the rows, one for one, under toEntity. */
  predicate MapsTo(books: seq<Book>, rows: seq<BookEntity>) {
    |books| == |rows| && forall i | 0 <= i < |books| :: ToEntity(books[i]) == rows[i]
  }

  /** findAllWithFilters: toPageable once, the store query with the filter
      as given, then toBookPaginatedResult. */
  function FindAllWithFilters(t: Jpa.Table, f: BookFilter, q: PaginationQuery)
    : (r: Result<PaginatedResult<Book>, Exception>)
    requires Jpa.Valid(t) && q.Valid()
    ensures r.Failure? <==> !IsSortable(q.sortBy) || q.page * q.pageSize > IntMax
    ensures r.Failure? ==> r.error == OtherRuntime(Jpa.InvalidDataAccessApiUsage)
    ensures r.Success? ==> r.value.pageNumber == q.page && r.value.pageSize == q.pageSize
    ensures r.Success? ==> r.value.totalElements == |Jpa.Filter(f, Jpa.Rows(t))|
    ensures r.Success? ==> |r.value.content| <= q.pageSize
    ensures r.Success? ==> forall b | b in r.value.content :: Jpa.Matches(f, ToEntity(b))
    ensures r.Success? ==> MapsTo(r.value.content, QueriedRows(t, f, q))
  {
    var p := ToPageable(q);
    var page := Jpa.FindAllWithFilters(t, f, p);
    if page.Failure? then Failure(page.error)
    else
      var r := ToBookPaginatedResult(page.value);
      forall b | b in r.content
        ensures Jpa.Matches(f, ToEntity(b))
      {
        var i :| 0 <= i < |r.content| && r.content[i] == b;
        assert page.value.content[i] in page.value.content;
      }
      Success(r)
  }

  /** The books of a page come back in the query's sort order: their rows are
      sorted by the query's single order. */
  lemma PageContentSorted(t: Jpa.Table, f: BookFilter, q: PaginationQuery)
    requires Jpa.Valid(t) && q.Valid() && FindAllWithFilters(t, f, q).Success?
    ensures var content := FindAllWithFilters(t, f, q).value.content;
            Sorted(ToPageable(q).orders, seq(|content|, i requires 0 <= i < |content| => ToEntity(content[i])))
  {
    var content := FindAllWithFilters(t, f, q).value.content;
    var rows := seq(|content|, i requires 0 <= i < |content| => ToEntity(content[i]));
    assert rows == QueriedRows(t, f, q);
    assert rows == Jpa.FindAllWithFilters(t, f, ToPageable(q)).value.content;
  }

  /** A page is non-empty exactly when its number is below totalPages: the
      reported totalPages is the number of pages that hold rows. */
  lemma NonEmptyIffBeforeLastPage(t: Jpa.Table, f: BookFilter, q: PaginationQuery)
    requires Jpa.Valid(t) && q.Valid()
    requires FindAllWithFilters(t, f, q).Success?
    requires |Jpa.Filter(f, Jpa.Rows(t))| <= IntMax
    ensures var r := FindAllWithFilters(t, f, q).value;
            r.content != [] <==> r.pageNumber < r.TotalPagesOf()
  {
    var r := FindAllWithFilters(t, f, q).value;
    var p := ToPageable(q);
    var page := Jpa.FindAllWithFilters(t, f, p).value;
    var s := Jpa.SortedMatches(t, f, p.orders);
    assert |r.content| == |page.content|;
    assert page.content == Jpa.Window(s, p.Offset(), p.pageSize);
    Jpa.PageNonEmptyIff(s, q.page, q.pageSize);
  }

  /** save: the book mapped to a row, stored, and the stored row mapped
      back; a row the table's constraints refuse is not stored. */
  function Save(t: Jpa.Table, b: Book): (r: Result<(Book, Jpa.Table), Exception>)
    ensures r.Failure? <==> !MeetsColumnConstraints(ToEntity(b))
    ensures r.Failure? ==> r.error == OtherRuntime(Jpa.ConstraintViolation)
    ensures r.Success? && b.id.Some? && b.id.value in t.rows ==> r.value.0 == b
    ensures r.Success? && (b.id.None? || b.id.value !in t.rows) ==> r.value.0 == b.(id := Some(t.nextId))
    ensures r.Success? ==> r.value.0.id.Some? && Jpa.FindById(r.value.1, r.value.0.id.value) == Some(ToEntity(r.value.0))
    ensures r.Success? ==> forall k | k in t.rows && Some(k) != r.value.0.id :: Jpa.FindById(r.value.1, k) == Jpa.FindById(t, k)
    ensures r.Success? ==> r.value.1.rows.Keys == t.rows.Keys + {r.value.0.id.value}
    ensures r.Success? && Jpa.Valid(t) ==> Jpa.Valid(r.value.1)
  {
    match Jpa.Save(t, ToEntity(b))
    case Failure(e) => Failure(e)
    case Success((e, t')) => Success((ToDomain(e), t'))
  }

  /** findById (as the adapter's tests use it): the stored book, active or not. */
  function FindById(t: Jpa.Table, id: int): (r: Option<Book>)
    ensures r.Some? <==> id in t.rows
    ensures r.Some? ==> ToEntity(r.value) == t.rows[id]
  {
    match Jpa.FindById(t, id)
    case None => None
    case Some(e) => Some(ToDomain(e))
  }

  /** findActiveById: the stored book only while it is active; nothing is
      mapped when the store finds no active row. */
  function FindActiveById(t: Jpa.Table, id: int): (r: Option<Book>)
    ensures r.Some? <==> id in t.rows && t.rows[id].active == Some(true)
    ensures r.Some? ==> r == FindById(t, id) && r.value.active == Some(true)
  {
    match Jpa.FindByIdAndActiveTrue(t, id)
    case None => None
    case Some(e) => Some(ToDomain(e))
  }

  /** A saved book reads back unchanged by id. */
  lemma SaveThenFindById(t: Jpa.Table, b: Book)
    requires Save(t, b).Success?
    ensures var (saved, t') := Save(t, b).value;
            FindById(t', saved.id.value) == Some(saved)
  {
    var (saved, t') := Save(t, b).value;
    DomainRoundTrip(saved);
  }
}

=== FILE: domain.dfy ===
/** The domain Book record and the timestamps it carries.  Every field is a
    nullable Java reference, so every field is an Option. */
module Domain {
  import opened Wrappers
  import opened Genres

  /** A java.time.LocalDateTime: a wall-clock date and time with no zone. */
  datatype DateTime = DateTime(year: int, month: int, day: int,
                               hour: int, minute: int, second: int, nano: int)

  /** A java.time.OffsetDateTime: a local date-time plus an offset from UTC. */
  datatype OffsetDateTime = OffsetDateTime(dateTime: DateTime, offsetSeconds: int)

  const Utc: int := 0

  /** The domain Book.  The editorial reference is not part of this model. */
  datatype Book = Book(
    id: Option<int>,
    author: Option<string>,
    title: Option<string>,
    genre: Option<BookGenre>,
    pages: Option<int>,
    publicationYear: Option<int>,
    createdAt: Option<DateTime>,
    updatedAt: Option<DateTime>,
    active: Option<bool>)

  /** `new Book()`: every field null. */
  const EmptyBook: Book := Book(None, None, None, None, None, None, None, None, None)
}

=== FILE: entity.dfy ===
/** The persisted BOOK row (BookEntity), its column constraints, and the
    field-copying BookEntityMapper between it and the domain Book. */
module Entities {
  import opened Wrappers
  import opened Genres
  import opened Domain

  /** One BOOK row.  The genre is held as the enum and stored by its name.
      The editorial reference is not part of this model. */
  datatype BookEntity = BookEntity(
    id: Option<int>,
    author: Option<string>,
    title: Option<string>,
    genre: Option<BookGenre>,
    pages: Option<int>,
    publicationYear: Option<int>,
    createdAt: Option<DateTime>,
    updatedAt: Option<DateTime>,
    active: Option<bool>)

  const AuthorMaxLength: int := 250
  const TitleMaxLength: int := 250
  const GenreMaxLength: int := 150

  /** The text stored in the GENRE column (EnumType.STRING). */
  function GenreColumn(e: BookEntity): Option<string> {
    if e.genre.Some? then Some(Name(e.genre.value)) else None
  }

  /** AUTHOR is non-null and at most 250 chars; TITLE, when present, at most 250 chars. */
  predicate TextFitsColumns(author: Option<string>, title: Option<string>) {
    && author.Some? && |author.value| <= AuthorMaxLength
    && (title.Some? ==> |title.value| <= TitleMaxLength)
  }

  /** The column constraints every row must meet apart from the store-generated
      id: AUTHOR non-null and at most 250 chars, TITLE at most 250 chars, GENRE
      at most 150 chars, CREATED_AT, UPDATED_AT and ACTIVE non-null. */
  predicate MeetsColumnConstraints(e: BookEntity) {
    && TextFitsColumns(e.author, e.title)
    && (GenreColumn(e).Some? ==> |GenreColumn(e).value| <= GenreMaxLength)
    && e.createdAt.Some?
    && e.updatedAt.Some?
    && e.active.Some?
  }

  /** Only the text columns and the NOT NULL audit columns can fail: the
      genre always fits. */
  lemma ConstraintsOnText(e: BookEntity)
    ensures MeetsColumnConstraints(e) <==>
      TextFitsColumns(e.author, e.title) && e.createdAt.Some? && e.updatedAt.Some? && e.active.Some?
  {
    GenreAlwaysFits(e);
  }

  /** A stored row additionally carries its (non-null) id. */
  predicate IsStoredRow(e: BookEntity) {
    e.id.Some? && MeetsColumnConstraints(e)
  }

  /** The genre column constraint never excludes a genre. */
  lemma GenreAlwaysFits(e: BookEntity)
    ensures GenreColumn(e).Some? ==> |GenreColumn(e).value| <= GenreMaxLength
  {
    if e.genre.Some? {
      NameFitsColumn(e.genre.value);
    }
  }

  // ---------------------------------------------------------------------
  // BookEntityMapper.toDomain / toEntity
  // ---------------------------------------------------------------------

  /** toEntity: copies every modelled field, nulls included. */
  function ToEntity(b: Book): (e: BookEntity)
    ensures e.id == b.id && e.author == b.author && e.title == b.title && e.genre == b.genre
    ensures e.pages == b.pages && e.publicationYear == b.publicationYear
    ensures e.createdAt == b.createdAt && e.updatedAt == b.updatedAt && e.active == b.active
  {
    BookEntity(b.id, b.author, b.title, b.genre, b.pages, b.publicationYear, b.createdAt, b.updatedAt, b.active)
  }

  /** toDomain: copies every modelled field back; it undoes toEntity exactly. */
  function ToDomain(e: BookEntity): (b: Book)
    ensures ToEntity(b) == e
    ensures b.id == e.id && b.author == e.author && b.title == e.title && b.genre == e.genre
    ensures b.pages == e.pages && b.publicationYear == e.publicationYear
    ensures b.createdAt == e.createdAt && b.updatedAt == e.updatedAt && b.active == e.active
  {
    Book(e.id, e.author, e.title, e.genre, e.pages, e.publicationYear, e.createdAt, e.updatedAt, e.active)
  }

  /** toDomain(toEntity(b)) preserves every field of b. */
  lemma DomainRoundTrip(b: Book)
    ensures ToDomain(ToEntity(b)) == b
  {
  }

  /** The two mappings are inverse bijections, so each is injective. */
  lemma ToEntityInjective(a: Book, b: Book)
    requires ToEntity(a) == ToEntity(b)
    ensures a == b
  {
    DomainRoundTrip(a);
    DomainRoundTrip(b);
  }
}

=== FILE: exceptions.dfy ===
/** The exceptions that cross the service and delivery boundaries, as far as
    the two exception handlers can tell them apart. */
module Exceptions {
  import opened Wrappers
  import Text

  /** One entry of a binding result: a field error or an object-level error. */
  datatype ObjectError =
    | FieldError(field: string, defaultMessage: Option<string>)
    | GlobalError(defaultMessage: Option<string>)

  datatype Exception =
      /** IllegalArgumentException, with its (possibly null) message. */
    | IllegalArgument(message: Option<string>)
      /** BookNotFoundException, a RuntimeException. */
    | BookNotFound(bookId: int)
      /** MethodArgumentNotValidException, a checked exception (a BindException). */
    | ArgumentNotValid(errors: seq<ObjectError>)
      /** HttpMessageNotReadableException, a RuntimeException. */
    | MessageNotReadable
      /** MethodArgumentTypeMismatchException, a RuntimeException: the parameter
          name, the offending value, and the simple name of the required type. */
    | TypeMismatch(name: string, value: Option<string>, requiredType: Option<string>)
      /** Any other RuntimeException, known by its class's simple name. */
    | OtherRuntime(simpleName: string)
      /** Any other checked Exception, known by its class's simple name. */
    | OtherChecked(simpleName: string)
  {
    /** Whether the exception's class extends RuntimeException. */
    predicate IsRuntime() {
      !ArgumentNotValid? && !OtherChecked?
    }

    /** Class.getSimpleName() of the exception's class. */
    function SimpleName(): string {
      match this
      case IllegalArgument(_) => "IllegalArgumentException"
      case BookNotFound(_) => "BookNotFoundException"
      case ArgumentNotValid(_) => "MethodArgumentNotValidException"
      case MessageNotReadable => "HttpMessageNotReadableException"
      case TypeMismatch(_, _, _) => "MethodArgumentTypeMismatchException"
      case OtherRuntime(n) => n
      case OtherChecked(n) => n
    }
  }

  /** The message BookNotFoundException builds with String.format("... %d"),
      under a default format locale whose zero digit is '0'. */
  function BookNotFoundMessage(bookId: int): (r: string)
    ensures |NotFoundPrefix| < |r| && r[..|NotFoundPrefix|] == NotFoundPrefix
    ensures Text.IsNumeral(r[|NotFoundPrefix|..]) && Text.ParseInt(r[|NotFoundPrefix|..]) == bookId
  {
    var m := NotFoundPrefix + Text.IntToString(bookId);
    assert m[|NotFoundPrefix|..] == Text.IntToString(bookId);
    Text.IntToStringRoundTrip(bookId);
    m
  }

  const NotFoundPrefix: string := "Book not found for ID: "

  /** Distinct ids give distinct not-found messages. */
  lemma BookNotFoundMessageInjective(a: int, b: int)
    requires BookNotFoundMessage(a) == BookNotFoundMessage(b)
    ensures a == b
  {
    assert BookNotFoundMessage(a)[|NotFoundPrefix|..] == Text.IntToString(a);
    assert BookNotFoundMessage(b)[|NotFoundPrefix|..] == Text.IntToString(b);
    Text.IntToStringInjective(a, b);
  }

  /** What the null-id guard throws. */
  const NullIdMessage: string := "Book ID cannot be null"
}

=== FILE: filter.dfy ===
/** The BookFilter value object: trimmed optional title and author, an
    optional genre, and an active selector that defaults to true. */
module Filters {
  import opened Wrappers
  import opened Genres
  import opened Text

  datatype BookFilter = BookFilter(
    title: Option<string>,
    author: Option<string>,
    genre: Option<BookGenre>,
    active: Option<bool>)

  /** A present text criterion is non-empty and has nothing left to trim. */
  predicate IsNormalizedText(v: Option<string>) {
    v.Some? ==> v.value != [] && !IsTrimmable(v.value[0]) && !IsTrimmable(v.value[|v.value| - 1])
  }

  /** What the compact constructor guarantees of every BookFilter. */
  predicate IsNormalized(f: BookFilter) {
    IsNormalizedText(f.title) && IsNormalizedText(f.author) && f.active.Some?
  }

  /** The private `normalize`: null or trim-empty becomes null, anything else is trimmed. */
  function Normalize(v: Option<string>): (r: Option<string>)
    ensures r.None? <==> v.None? || forall k | 0 <= k < |v.value| :: IsTrimmable(v.value[k])
    ensures r.Some? ==> r.value == Trim(v.value)
    ensures IsNormalizedText(r)
  {
    if v.None? || Trim(v.value) == [] then None else Some(Trim(v.value))
  }

  /** `new BookFilter(title, author, bookGenre, active)`. */
  function NewBookFilter(title: Option<string>, author: Option<string>,
                         genre: Option<BookGenre>, active: Option<bool>): (f: BookFilter)
    ensures IsNormalized(f)
    ensures f.genre == genre
    ensures active.Some? ==> f.active == active
    ensures active.None? ==> f.active == Some(true)
    ensures f.title.Some? ==> title.Some? && f.title.value == Trim(title.value)
    ensures f.author.Some? ==> author.Some? && f.author.value == Trim(author.value)
    ensures title.Some? && !(forall k | 0 <= k < |title.value| :: IsTrimmable(title.value[k])) ==> f.title.Some?
    ensures author.Some? && !(forall k | 0 <= k < |author.value| :: IsTrimmable(author.value[k])) ==> f.author.Some?
  {
    BookFilter(Normalize(title), Normalize(author), genre, Some(active.GetOr(true)))
  }

  /** Normalisation leaves an already normalised criterion unchanged. */
  lemma {:induction false} NormalizeFixpoint(v: Option<string>)
    requires IsNormalizedText(v)
    ensures Normalize(v) == v
  {
    if v.Some? {
      TrimOfTrimmed(v.value);
    }
  }

  /** Rebuilding a filter from a normalised filter's fields yields the same filter. */
  lemma {:induction false} RebuildNormalized(f: BookFilter)
    requires IsNormalized(f)
    ensures NewBookFilter(f.title, f.author, f.genre, f.active) == f
  {
    NormalizeFixpoint(f.title);
    NormalizeFixpoint(f.author);
  }

  /** Construction is idempotent. */
  lemma NewBookFilterIdempotent(title: Option<string>, author: Option<string>,
                                genre: Option<BookGenre>, active: Option<bool>)
    ensures var f := NewBookFilter(title, author, genre, active);
            NewBookFilter(f.title, f.author, f.genre, f.active) == f
  {
    RebuildNormalized(NewBookFilter(title, author, genre, active));
  }
}

=== FILE: genre.dfy ===
/** The closed BookGenre enumeration: twelve constants whose display name is
    their own constant name, and Enum.valueOf lookup by that name. */
module Genres {
  import opened Wrappers

  datatype BookGenre =
    | Fiction
    | NonFiction
    | Classic
    | Mystery
    | HistoricalFiction
    | Fantasy
    | Romance
    | ScienceFiction
    | Children
    | Essay
    | Adventure
    | Other

  /** The constant's name, Enum.name(): the spelling on the wire and in the GENRE column. */
  function Name(g: BookGenre): string {
    match g
    case Fiction => "FICTION"
    case NonFiction => "NON_FICTION"
    case Classic => "CLASSIC"
    case Mystery => "MYSTERY"
    case HistoricalFiction => "HISTORICAL_FICTION"
    case Fantasy => "FANTASY"
    case Romance => "ROMANCE"
    case ScienceFiction => "SCIENCE_FICTION"
    case Children => "CHILDREN"
    case Essay => "ESSAY"
    case Adventure => "ADVENTURE"
    case Other => "OTHER"
  }

  /** The displayName field, as each constant's constructor argument sets it. */
  function DisplayName(g: BookGenre): (r: string)
    ensures r == Name(g)
  {
    match g
    case Fiction => "FICTION"
    case NonFiction => "NON_FICTION"
    case Classic => "CLASSIC"
    case Mystery => "MYSTERY"
    case HistoricalFiction => "HISTORICAL_FICTION"
    case Fantasy => "FANTASY"
    case Romance => "ROMANCE"
    case ScienceFiction => "SCIENCE_FICTION"
    case Children => "CHILDREN"
    case Essay => "ESSAY"
    case Adventure => "ADVENTURE"
    case Other => "OTHER"
  }

  /** The constants in declaration order. */
  const Declared: seq<BookGenre> :=
    [Fiction, NonFiction, Classic, Mystery, HistoricalFiction, Fantasy,
     Romance, ScienceFiction, Children, Essay, Adventure, Other]

  lemma DeclaredCovers(g: BookGenre)
    ensures g in Declared
  {
    var gs := Declared;
    match g
    case Fiction => assert gs[0] == g;
    case NonFiction => assert gs[1] == g;
    case Classic => assert gs[2] == g;
    case Mystery => assert gs[3] == g;
    case HistoricalFiction => assert gs[4] == g;
    case Fantasy => assert gs[5] == g;
    case Romance => assert gs[6] == g;
    case ScienceFiction => assert gs[7] == g;
    case Children => assert gs[8] == g;
    case Essay => assert gs[9] == g;
    case Adventure => assert gs[10] == g;
    case Other => assert gs[11] == g;
  }

  /** BookGenre.values(): exactly the twelve constants, each once, in declaration order. */
  function Values(): (r: seq<BookGenre>)
    ensures |r| == 12
    ensures forall g: BookGenre :: g in r
    ensures forall i, j | 0 <= i < j < |r| :: r[i] != r[j]
    ensures r == [Fiction, NonFiction, Classic, Mystery, HistoricalFiction, Fantasy,
                  Romance, ScienceFiction, Children, Essay, Adventure, Other]
  {
    forall g: BookGenre
      ensures g in Declared
    {
      DeclaredCovers(g);
    }
    Declared
  }

  /** Distinct genres have distinct names. */
  lemma NameInjective(g: BookGenre, h: BookGenre)
    requires Name(g) == Name(h)
    ensures g == h
  {
  }

  /** The first genre in `gs` with the given name. */
  function Find(name: string, gs: seq<BookGenre>): (r: Option<BookGenre>)
    ensures r.Some? ==> r.value in gs && Name(r.value) == name
    ensures r.None? ==> forall g | g in gs :: Name(g) != name
  {
    if gs == [] then None
    else if Name(gs[0]) == name then Some(gs[0])
    else Find(name, gs[1..])
  }

  /** Enum.valueOf: the genre with exactly that name, or none when no
      constant has it (Java throws IllegalArgumentException then). */
  function ValueOf(name: string): (r: Option<BookGenre>)
    ensures r.Some? ==> Name(r.value) == name
    ensures r.None? <==> forall g: BookGenre :: Name(g) != name
  {
    Find(name, Values())
  }

  /** Lookup by name round-trips. */
  lemma ValueOfName(g: BookGenre)
    ensures ValueOf(Name(g)) == Some(g)
  {
    var r := ValueOf(Name(g));
    NameInjective(r.value, g);
  }

  /** Every name fits the GENRE column, declared with at most 150 chars. */
  lemma NameFitsColumn(g: BookGenre)
    ensures 0 < |Name(g)| <= 150
  {
  }
}

=== FILE: jpa.dfy ===
/** The BOOK table as the store sees it, and the BookJpaRepository queries:
    save (insert with a generated id, or overwrite), findById,
    findByIdAndActiveTrue, and findAllWithFilters (the JPQL predicate, the
    sort, the skip/take window and the total count). */
module JpaRepository {
  import opened Wrappers
  import opened Text
  import opened Genres
  import opened Exceptions
  import opened Filters
  import opened Entities
  import opened Pageables
  import opened Ordering
  import opened Pagination

  /** The rows by id, the ids in insertion order (the order an unsorted scan
      returns them), and the next id the identity column hands out. */
  datatype Table = Table(rows: map<int, BookEntity>, order: seq<int>, nextId: int)

  /** The table's own invariant: each id listed once, the listed ids are the
      keys, every row carries its own key as id, every key is below nextId. */
  predicate Valid(t: Table) {
    && (forall i, j | 0 <= i < j < |t.order| :: t.order[i] != t.order[j])
    && (forall k | k in t.rows :: k in t.order)
    && (forall i | 0 <= i < |t.order| :: t.order[i] in t.rows)
    && (forall k | k in t.rows :: t.rows[k].id == Some(k) && k < t.nextId)
  }

  /** The empty table. */
  const EmptyTable: Table := Table(map[], [], 1)

  /** The rows in table order. */
  function Rows(t: Table): (r: seq<BookEntity>)
    requires Valid(t)
    ensures |r| == |t.order|
    ensures forall i | 0 <= i < |r| :: r[i] == t.rows[t.order[i]]
  {
    seq(|t.order|, i requires 0 <= i < |t.order| && Valid(t) => t.rows[t.order[i]])
  }

  lemma RowsAreStored(t: Table, e: BookEntity)
    requires Valid(t)
    ensures e in Rows(t) <==> exists k :: k in t.rows && t.rows[k] == e
  {
    var r := Rows(t);
    if e in r {
      var i :| 0 <= i < |r| && r[i] == e;
      assert t.order[i] in t.rows;
    }
    if exists k :: k in t.rows && t.rows[k] == e {
      var k :| k in t.rows && t.rows[k] == e;
      var i :| 0 <= i < |t.order| && t.order[i] == k;
      assert r[i] == e;
    }
  }

  // ---------------------------------------------------------------------
  // save, findById, findByIdAndActiveTrue
  // ---------------------------------------------------------------------

  /** The exception a write that breaks a column constraint ends in. */
  const ConstraintViolation: string := "DataIntegrityViolationException"

  /** The id a save stores the row under: its own when a row with that id is
      stored (merge), otherwise the next generated one (persist, or the merge
      of a detached row whose id the table does not hold). */
  function SaveId(t: Table, e: BookEntity): int {
    if e.id.Some? && e.id.value in t.rows then e.id.value else t.nextId
  }

  /** save: a row that breaks a column constraint is refused and nothing is
      written; otherwise it replaces the row stored under its id, or is
      inserted under the next generated id. */
  function Save(t: Table, e: BookEntity): (r: Result<(BookEntity, Table), Exception>)
    ensures r.Failure? <==> !MeetsColumnConstraints(e)
    ensures r.Failure? ==> r.error == OtherRuntime(ConstraintViolation)
    ensures r.Success? && e.id.Some? && e.id.value in t.rows ==> r.value.0 == e
    ensures r.Success? && (e.id.None? || e.id.value !in t.rows) ==> r.value.0 == e.(id := Some(t.nextId))
    ensures r.Success? ==> IsStoredRow(r.value.0)
    ensures r.Success? ==> r.value.0.id.value in r.value.1.rows && r.value.1.rows[r.value.0.id.value] == r.value.0
    ensures r.Success? ==> forall k | k in t.rows && Some(k) != r.value.0.id :: k in r.value.1.rows && r.value.1.rows[k] == t.rows[k]
    ensures r.Success? ==> r.value.1.rows.Keys == t.rows.Keys + {r.value.0.id.value}
    ensures r.Success? && Valid(t) ==> Valid(r.value.1)
  {
    if !MeetsColumnConstraints(e) then Failure(OtherRuntime(ConstraintViolation))
    else
      var id := SaveId(t, e);
      var saved := e.(id := Some(id));
      var inserted := id !in t.rows;
      var t' := Table(t.rows[id := saved], if inserted then t.order + [id] else t.order,
                      if inserted then t.nextId + 1 else t.nextId);
      assert Valid(t) ==> Valid(t') by {
        if Valid(t) {
          assert inserted ==> id !in t.order;
          forall k | k in t'.rows
            ensures k in t'.order
          {
            if k == id && inserted {
              assert t'.order[|t.order|] == id;
            }
          }
        }
      }
      Success((saved, t'))
  }

  /** findById: the row stored under the id, active or not. */
  function FindById(t: Table, id: int): (r: Option<BookEntity>)
    ensures r.Some? <==> id in t.rows
    ensures r.Some? ==> r.value == t.rows[id]
  {
    if id in t.rows then Some(t.rows[id]) else None
  }

  /** findByIdAndActiveTrue: the row under the id only while it is active. */
  function FindByIdAndActiveTrue(t: Table, id: int): (r: Option<BookEntity>)
    ensures r.Some? <==> id in t.rows && t.rows[id].active == Some(true)
    ensures r.Some? ==> r == FindById(t, id)
  {
    if id in t.rows && t.rows[id].active == Some(true) then Some(t.rows[id]) else None
  }

  /** A saved row reads back by id. */
  lemma SaveThenFind(t: Table, e: BookEntity)
    requires Save(t, e).Success?
    ensures var (saved, t') := Save(t, e).value;
            FindById(t', saved.id.value) == Some(saved)
  {
  }

  /** Saving leaves every other row as it was, and a refused save leaves
      the table unchanged (the caller keeps the old one). */
  lemma SaveLeavesOthers(t: Table, e: BookEntity, k: int)
    requires k in t.rows && Save(t, e).Success? && Some(k) != Save(t, e).value.0.id
    ensures FindById(Save(t, e).value.1, k) == FindById(t, k)
  {
  }

  /** A row without id, or with an id the table does not hold, gets an id no
      stored row has, and the table grows by one row. */
  lemma SaveNewGetsFreshId(t: Table, e: BookEntity)
    requires Valid(t) && Save(t, e).Success? && (e.id.None? || e.id.value !in t.rows)
    ensures Save(t, e).value.0.id.value !in t.rows
    ensures |Rows(Save(t, e).value.1)| == |Rows(t)| + 1
  {
  }

  /** A save never stores a row that breaks a column constraint. */
  lemma SaveKeepsStoredRows(t: Table, e: BookEntity)
    requires forall k | k in t.rows :: IsStoredRow(t.rows[k])
    requires Save(t, e).Success?
    ensures forall k | k in Save(t, e).value.1.rows :: IsStoredRow(Save(t, e).value.1.rows[k])
  {
  }

  // ---------------------------------------------------------------------
  // findAllWithFilters
  // ---------------------------------------------------------------------

  /** `LOWER(column) LIKE LOWER('%' || value || '%')` read as case-insensitive
      containment; a null column never matches. */
  predicate ContainsIgnoringCase(column: Option<string>, value: string) {
    column.Some? && Contains(Lower(column.value), Lower(value))
  }

  /** The WHERE clause: each present filter component constrains the row, an
      absent one (IS NULL) lets every row through. */
  predicate Matches(f: BookFilter, e: BookEntity) {
    && (f.active.None? || e.active == f.active)
    && (f.title.None? || ContainsIgnoringCase(e.title, f.title.value))
    && (f.author.None? || ContainsIgnoringCase(e.author, f.author.value))
    && (f.genre.None? || e.genre == f.genre)
  }

  /** The rows that satisfy the WHERE clause, in table order. */
  function Filter(f: BookFilter, s: seq<BookEntity>): (r: seq<BookEntity>)
    ensures |r| <= |s|
    ensures forall e | e in r :: Matches(f, e)
    ensures forall e | e in s :: Matches(f, e) <==> e in r
    ensures forall e :: multiset(r)[e] == if Matches(f, e) then multiset(s)[e] else 0
  {
    if s == [] then []
    else
      var rest := Filter(f, s[1..]);
      assert s == [s[0]] + s[1..];
      assert multiset(s) == multiset{s[0]} + multiset(s[1..]);
      if Matches(f, s[0]) then
        assert multiset([s[0]] + rest) == multiset{s[0]} + multiset(rest);
        [s[0]] + rest
      else rest
  }

  /** Skip `offset` rows, then take up to `size`. */
  function Window<T>(s: seq<T>, offset: int, size: int): (r: seq<T>)
    requires offset >= 0 && size >= 0
    ensures |r| <= size
    ensures offset >= |s| ==> r == []
    ensures offset < |s| ==> |r| == if offset + size <= |s| then size else |s| - offset
    ensures offset < |s| ==> r == s[offset..offset + |r|]
  {
    if offset >= |s| then []
    else if offset + size <= |s| then s[offset..offset + size]
    else s[offset..]
  }

  /** The exception a query ends in when the sort names a property the entity
      does not have, or when the offset does not fit in an int. */
  const InvalidDataAccessApiUsage: string := "InvalidDataAccessApiUsageException"

  /** Every order names a property the entity has. */
  predicate KnownProperties(p: Pageable) {
    forall k | 0 <= k < |p.orders| :: IsSortable(p.orders[k].property)
  }

  /** The matching rows in the pageable's order, before the window. */
  function SortedMatches(t: Table, f: BookFilter, orders: seq<Order>): (r: seq<BookEntity>)
    requires Valid(t)
    ensures multiset(r) == multiset(Filter(f, Rows(t)))
    ensures |r| == |Filter(f, Rows(t))|
    ensures forall e | e in r :: Matches(f, e)
    ensures Sorted(orders, r)
  {
    var matching := Filter(f, Rows(t));
    var sorted := SortRows(orders, matching);
    forall e | e in sorted
      ensures Matches(f, e)
    {
      assert e in multiset(sorted);
    }
    sorted
  }

  /** findAllWithFilters: matching rows, sorted, windowed; the total is
      counted before the window.  A sort on a property the entity lacks, or
      an offset (page number times page size) beyond the int range the query
      API takes, fails at run time. */
  function FindAllWithFilters(t: Table, f: BookFilter, p: Pageable): (r: Result<Page<BookEntity>, Exception>)
    requires Valid(t) && p.Valid()
    ensures r.Failure? <==> !KnownProperties(p) || p.Offset() > IntMax
    ensures r.Failure? ==> r.error == OtherRuntime(InvalidDataAccessApiUsage)
    ensures r.Success? ==> r.value.pageable == p
    ensures r.Success? ==> r.value.totalElements == |Filter(f, Rows(t))|
    ensures r.Success? ==> |r.value.content| <= p.pageSize
    ensures r.Success? ==> forall e | e in r.value.content :: Matches(f, e)
    ensures r.Success? ==> Sorted(p.orders, r.value.content)
    ensures r.Success? ==> 0 <= p.Offset() <= IntMax && r.value.content == Window(SortedMatches(t, f, p.orders), p.Offset(), p.pageSize)
  {
    if !KnownProperties(p) || p.Offset() > IntMax then
      Failure(OtherRuntime(InvalidDataAccessApiUsage))
    else
      var sorted := SortedMatches(t, f, p.orders);
      assert p.Offset() >= 0 by { MulByPositive(p.pageNumber, p.pageSize); }
      var content := Window(sorted, p.Offset(), p.pageSize);
      WindowKeeps(f, p.orders, sorted, p.Offset(), p.pageSize);
      Success(Page(content, |sorted|, p))
  }

  /** A window of sorted matching rows holds sorted matching rows. */
  lemma WindowKeeps(f: BookFilter, orders: seq<Order>, s: seq<BookEntity>, offset: int, size: int)
    requires offset >= 0 && size >= 0
    requires Sorted(orders, s) && forall e | e in s :: Matches(f, e)
    ensures Sorted(orders, Window(s, offset, size))
    ensures forall e | e in Window(s, offset, size) :: Matches(f, e)
  {
    WindowOfSorted(orders, s, offset, size);
  }

  /** A window of a sorted sequence is sorted. */
  lemma WindowOfSorted(orders: seq<Order>, s: seq<BookEntity>, offset: int, size: int)
    requires offset >= 0 && size >= 0
    requires Sorted(orders, s)
    ensures Sorted(orders, Window(s, offset, size))
  {
    var w := Window(s, offset, size);
    forall i, j | 0 <= i < j < |w|
      ensures CompareRows(orders, w[i], w[j]) <= 0
    {
      assert w[i] == s[offset + i] && w[j] == s[offset + j];
    }
  }

  // ---------------------------------------------------------------------
  // Properties of the predicate, one filter component at a time
  // ---------------------------------------------------------------------

  /** With `active` present, exactly the rows with that flag pass it. */
  lemma ActiveComponent(f: BookFilter, e: BookEntity)
    requires f.active.Some? && f.title.None? && f.author.None? && f.genre.None?
    ensures Matches(f, e) <==> e.active == f.active
  {
  }

  /** With only a title present, exactly the rows whose lower-cased title
      contains the lower-cased value pass. */
  lemma TitleComponent(f: BookFilter, e: BookEntity)
    requires f.active.None? && f.title.Some? && f.author.None? && f.genre.None?
    ensures Matches(f, e) <==> e.title.Some? && Contains(Lower(e.title.value), Lower(f.title.value))
  {
  }

  /** With only an author present, the same test on the author. */
  lemma AuthorComponent(f: BookFilter, e: BookEntity)
    requires f.active.None? && f.title.None? && f.author.Some? && f.genre.None?
    ensures Matches(f, e) <==> e.author.Some? && Contains(Lower(e.author.value), Lower(f.author.value))
  {
  }

  /** With only a genre present, exactly the rows of that genre pass. */
  lemma GenreComponent(f: BookFilter, e: BookEntity)
    requires f.active.None? && f.title.None? && f.author.None? && f.genre.Some?
    ensures Matches(f, e) <==> e.genre == f.genre
  {
  }

  /** The components are conjoined: a row passes iff it passes each component alone. */
  lemma ComponentsConjoined(f: BookFilter, e: BookEntity)
    ensures Matches(f, e) <==>
      && Matches(BookFilter(None, None, None, f.active), e)
      && Matches(BookFilter(f.title, None, None, None), e)
      && Matches(BookFilter(None, f.author, None, None), e)
      && Matches(BookFilter(None, None, f.genre, None), e)
  {
  }

  /** The empty filter lets every row through. */
  lemma NoComponentsMatchAll(e: BookEntity)
    ensures Matches(BookFilter(None, None, None, None), e)
  {
  }

  /** Matching is case-insensitive in both the row and the filter value. */
  lemma MatchIgnoresCase(e: BookEntity, title: string)
    ensures Matches(BookFilter(Some(title), None, None, None), e)
        <==> Matches(BookFilter(Some(Upper(title)), None, None, None), e)
  {
    LowerOfUpper(title);
  }

  /** Any text contains its own lower-case form when lower-cased. */
  lemma LowerOfUpper(s: string)
    ensures Lower(Upper(s)) == Lower(s)
  {
  }

  // ---------------------------------------------------------------------
  // The window and the total
  // ---------------------------------------------------------------------

  /** The total does not depend on which page is asked for, nor on the sort. */
  lemma TotalIndependentOfWindow(t: Table, f: BookFilter, p: Pageable, q: Pageable)
    requires Valid(t) && p.Valid() && q.Valid()
    requires FindAllWithFilters(t, f, p).Success? && FindAllWithFilters(t, f, q).Success?
    ensures FindAllWithFilters(t, f, p).value.totalElements == FindAllWithFilters(t, f, q).value.totalElements
  {
  }

  /** The pages before `k` together hold exactly the first k * size rows. */
  function Pages<T>(s: seq<T>, size: int, k: nat): (r: seq<T>)
    requires size >= 1
  {
    if k == 0 then [] else Pages(s, size, k - 1) + Window(s, (k - 1) * size, size)
  }

  lemma {:induction false} PagesPrefix<T>(s: seq<T>, size: int, k: nat)
    requires size >= 1
    ensures Pages(s, size, k) == s[..if k * size <= |s| then k * size else |s|]
  {
    if k > 0 {
      NextPageOffset(k, size);
      PagesPrefix(s, size, k - 1);
      PrefixThenWindow(s, (k - 1) * size, size);
    }
  }

  /** The rows before `off`, then the window at `off`, are the rows before `off + size`. */
  lemma PrefixThenWindow<T>(s: seq<T>, off: int, size: int)
    requires off >= 0 && size >= 1
    ensures s[..if off <= |s| then off else |s|] + Window(s, off, size)
         == s[..if off + size <= |s| then off + size else |s|]
  {
    if off < |s| {
      var end := if off + size <= |s| then off + size else |s|;
      assert s[..off] + s[off..end] == s[..end];
    }
  }

  /** Page k starts where page k - 1 ends. */
  lemma NextPageOffset(k: nat, size: int)
    requires k >= 1 && size >= 1
    ensures (k - 1) * size >= 0
    ensures k * size == (k - 1) * size + size
  {
    MulByPositive(k - 1, size);
  }

  /** Pages 0 .. totalPages - 1, laid end to end, are the whole sorted result:
      every matching row lies on exactly one page and none is repeated. */
  lemma PagesCoverAll<T>(s: seq<T>, size: int)
    requires size >= 1 && |s| <= IntMax
    ensures Pages(s, size, TotalPages(|s|, size)) == s
  {
    var n := TotalPages(|s|, size);
    PagesPrefix(s, size, n);
    if |s| > 0 {
      TotalPagesBounds(|s|, size);
    }
  }

  /** A page number at or past totalPages has empty content. */
  lemma PagePastLastIsEmpty<T>(s: seq<T>, size: int, k: int)
    requires size >= 1 && |s| <= IntMax
    requires k >= TotalPages(|s|, size)
    ensures Window(s, k * size, size) == []
  {
    var n := TotalPages(|s|, size);
    if |s| > 0 {
      TotalPagesBounds(|s|, size);
    } else {
      TotalPagesZero(|s|, size);
    }
    MulByPositive(k - n, size);
    assert k * size == n * size + (k - n) * size;
    MulByPositive(k, size);
  }

  /** A page holds rows exactly when its number is below totalPages. */
  lemma PageNonEmptyIff<T>(s: seq<T>, page: int, size: int)
    requires size >= 1 && page >= 0 && |s| <= IntMax
    ensures page * size >= 0
    ensures Window(s, page * size, size) != [] <==> page < TotalPages(|s|, size)
  {
    MulByPositive(page, size);
    var n := |s|;
    if n == 0 {
      TotalPagesZero(n, size);
    } else {
      TotalPagesBounds(n, size);
      var tp := TotalPages(n, size);
      OffsetAgainstLastPage(page, tp, size, n);
    }
  }

  /** A page before the last one starts inside the rows; any later page starts past them. */
  lemma OffsetAgainstLastPage(page: int, tp: int, size: int, n: int)
    requires size >= 1 && page >= 0 && tp >= 1
    requires (tp - 1) * size < n <= tp * size
    ensures page < tp <==> page * size < n
  {
    if page < tp {
      MulByPositive(tp - 1 - page, size);
      assert page * size + (tp - 1 - page) * size == (tp - 1) * size;
    } else {
      MulByPositive(page - tp, size);
      assert page * size == tp * size + (page - tp) * size;
    }
  }
}

=== FILE: ordering.dfy ===
/** How the store orders BOOK rows for a Pageable's sort: every sortable
    property yields a key (null or a sequence of integers compared
    lexicographically), nulls sort low, a DESC order reverses its key, and
    later orders break ties of earlier ones.  Rows are sorted by insertion. */
module Ordering {
  import opened Wrappers
  import opened Genres
  import opened Domain
  import opened Entities
  import opened Pageables

  /** A sort key: a null column, or a value encoded as integers compared
      lexicographically (a number as itself, text by code points, a boolean
      as 0 or 1, a timestamp field by field from the year down). */
  datatype Key = NullKey | ValueKey(v: seq<int>)

  function Codes(s: string): (r: seq<int>)
    ensures |r| == |s|
    ensures forall i | 0 <= i < |s| :: r[i] == s[i] as int
  {
    seq(|s|, i requires 0 <= i < |s| => s[i] as int)
  }

  function NumberKey(v: Option<int>): Key {
    if v.None? then NullKey else ValueKey([v.value])
  }

  function TextKey(v: Option<string>): Key {
    if v.None? then NullKey else ValueKey(Codes(v.value))
  }

  function TimeKey(v: Option<DateTime>): Key {
    if v.None? then NullKey
    else
      var t := v.value;
      ValueKey([t.year, t.month, t.day, t.hour, t.minute, t.second, t.nano])
  }

  function FlagKey(v: Option<bool>): Key {
    if v.None? then NullKey else ValueKey([if v.value then 1 else 0])
  }

  /** The entity properties a sort may name (BookEntity's fields apart from
      the editorial association, which this model leaves out). */
  predicate IsSortable(property: string) {
    property in {"id", "author", "title", "bookGenre", "pages", "publicationYear",
                 "createdAt", "updatedAt", "active"}
  }

  /** The key of a row under a property: none for a property the entity lacks. */
  function KeyOf(e: BookEntity, property: string): (r: Option<Key>)
    ensures r.Some? <==> IsSortable(property)
    ensures property == "bookGenre" ==> r == Some(TextKey(GenreColumn(e)))
    ensures property == "title" ==> r == Some(TextKey(e.title))
  {
    match property
    case "id" => Some(NumberKey(e.id))
    case "author" => Some(TextKey(e.author))
    case "title" => Some(TextKey(e.title))
    case "bookGenre" => Some(TextKey(GenreColumn(e)))
    case "pages" => Some(NumberKey(e.pages))
    case "publicationYear" => Some(NumberKey(e.publicationYear))
    case "createdAt" => Some(TimeKey(e.createdAt))
    case "updatedAt" => Some(TimeKey(e.updatedAt))
    case "active" => Some(FlagKey(e.active))
    case _ => None
  }

  // ---------------------------------------------------------------------
  // Lexicographic comparison (-1, 0 or 1, like compareTo's sign)
  // ---------------------------------------------------------------------

  function Lex(a: seq<int>, b: seq<int>): (r: int)
    ensures -1 <= r <= 1
    ensures r == 0 <==> a == b
  {
    if a == [] && b == [] then 0
    else if a == [] then -1
    else if b == [] then 1
    else if a[0] < b[0] then -1
    else if a[0] > b[0] then 1
    else
      var r := Lex(a[1..], b[1..]);
      assert a == [a[0]] + a[1..] && b == [b[0]] + b[1..];
      r
  }

  lemma {:induction false} LexAntisymmetric(a: seq<int>, b: seq<int>)
    ensures Lex(a, b) == -Lex(b, a)
  {
    if a != [] && b != [] && a[0] == b[0] {
      LexAntisymmetric(a[1..], b[1..]);
    }
  }

  lemma {:induction false} LexTransitive(a: seq<int>, b: seq<int>, c: seq<int>)
    requires Lex(a, b) <= 0 && Lex(b, c) <= 0
    ensures Lex(a, c) <= 0
  {
    if a != [] && b != [] && c != [] && a[0] == b[0] && b[0] == c[0] {
      LexTransitive(a[1..], b[1..], c[1..]);
    }
  }

  /** Keys: null below every value, values lexicographically. */
  function CompareKeys(a: Key, b: Key): (r: int)
    ensures -1 <= r <= 1
    ensures r == 0 <==> a == b
    ensures a.NullKey? && b.ValueKey? ==> r == -1
  {
    match (a, b)
    case (NullKey, NullKey) => 0
    case (NullKey, ValueKey(_)) => -1
    case (ValueKey(_), NullKey) => 1
    case (ValueKey(x), ValueKey(y)) => Lex(x, y)
  }

  /** A key comparison read in an order's direction. */
  function Directed(d: Direction, a: Key, b: Key): (r: int)
    ensures r == 0 <==> a == b
    ensures d == Asc ==> r == CompareKeys(a, b)
    ensures d == Desc ==> r == CompareKeys(b, a)
  {
    KeysAntisymmetric(a, b);
    if d == Desc then -CompareKeys(a, b) else CompareKeys(a, b)
  }

  lemma KeysAntisymmetric(a: Key, b: Key)
    ensures CompareKeys(a, b) == -CompareKeys(b, a)
  {
    if a.ValueKey? && b.ValueKey? {
      LexAntisymmetric(a.v, b.v);
    }
  }

  lemma KeysTransitive(a: Key, b: Key, c: Key)
    requires CompareKeys(a, b) <= 0 && CompareKeys(b, c) <= 0
    ensures CompareKeys(a, c) <= 0
  {
    if a.ValueKey? && b.ValueKey? && c.ValueKey? {
      LexTransitive(a.v, b.v, c.v);
    }
  }

  lemma DirectedAntisymmetric(d: Direction, a: Key, b: Key)
    ensures Directed(d, a, b) == -Directed(d, b, a)
  {
    KeysAntisymmetric(a, b);
  }

  lemma DirectedTransitive(d: Direction, a: Key, b: Key, c: Key)
    requires Directed(d, a, b) <= 0 && Directed(d, b, c) <= 0
    ensures Directed(d, a, c) <= 0
  {
    if d == Asc {
      KeysTransitive(a, b, c);
    } else {
      KeysTransitive(c, b, a);
    }
  }

  // ---------------------------------------------------------------------
  // Comparison of rows under a sequence of orders
  // ---------------------------------------------------------------------

  /** The key a row sorts by under one order (null for a property the
      entity lacks; queries reject those before sorting). */
  function SortKey(e: BookEntity, o: Order): Key {
    KeyOf(e, o.property).GetOr(NullKey)
  }

  /** The first order whose keys differ decides; equal on all orders is a tie. */
  function CompareRows(orders: seq<Order>, a: BookEntity, b: BookEntity): int
  {
    if orders == [] then 0
    else
      var c := Directed(orders[0].direction, SortKey(a, orders[0]), SortKey(b, orders[0]));
      if c != 0 then c else CompareRows(orders[1..], a, b)
  }

  lemma {:induction false} CompareRowsAntisymmetric(orders: seq<Order>, a: BookEntity, b: BookEntity)
    ensures CompareRows(orders, a, b) == -CompareRows(orders, b, a)
  {
    if orders != [] {
      DirectedAntisymmetric(orders[0].direction, SortKey(a, orders[0]), SortKey(b, orders[0]));
      CompareRowsAntisymmetric(orders[1..], a, b);
    }
  }

  lemma {:induction false} CompareRowsTransitive(orders: seq<Order>, a: BookEntity, b: BookEntity, c: BookEntity)
    requires CompareRows(orders, a, b) <= 0 && CompareRows(orders, b, c) <= 0
    ensures CompareRows(orders, a, c) <= 0
  {
    if orders != [] {
      var d := orders[0].direction;
      var ka, kb, kc := SortKey(a, orders[0]), SortKey(b, orders[0]), SortKey(c, orders[0]);
      DirectedAntisymmetric(d, ka, kb);
      DirectedAntisymmetric(d, kb, kc);
      DirectedAntisymmetric(d, ka, kc);
      if Directed(d, ka, kb) == 0 && Directed(d, kb, kc) == 0 {
        CompareRowsTransitive(orders[1..], a, b, c);
      } else {
        DirectedTransitive(d, ka, kb, kc);
      }
    }
  }

  /** Every row precedes-or-ties every later row. */
  predicate Sorted(orders: seq<Order>, s: seq<BookEntity>) {
    forall i, j | 0 <= i < j < |s| :: CompareRows(orders, s[i], s[j]) <= 0
  }

  /** Places x before the first row it precedes-or-ties. */
  function Insert(orders: seq<Order>, x: BookEntity, s: seq<BookEntity>): (r: seq<BookEntity>)
    ensures |r| == |s| + 1
    ensures multiset(r) == multiset(s) + multiset{x}
  {
    if s == [] then [x]
    else if CompareRows(orders, x, s[0]) <= 0 then [x] + s
    else
      assert s == [s[0]] + s[1..];
      [s[0]] + Insert(orders, x, s[1..])
  }

  /** A row that precedes-or-ties every row of a sorted sequence may lead it. */
  lemma PrependSorted(orders: seq<Order>, x: BookEntity, s: seq<BookEntity>)
    requires Sorted(orders, s)
    requires forall j | 0 <= j < |s| :: CompareRows(orders, x, s[j]) <= 0
    ensures Sorted(orders, [x] + s)
  {
    var r := [x] + s;
    forall i, j | 0 <= i < j < |r|
      ensures CompareRows(orders, r[i], r[j]) <= 0
    {
      if i == 0 {
        assert r[j] == s[j - 1];
      } else {
        assert r[i] == s[i - 1] && r[j] == s[j - 1];
      }
    }
  }

  lemma {:induction false} InsertSorted(orders: seq<Order>, x: BookEntity, s: seq<BookEntity>)
    requires Sorted(orders, s)
    ensures Sorted(orders, Insert(orders, x, s))
  {
    if s == [] {
    } else if CompareRows(orders, x, s[0]) <= 0 {
      forall j | 0 <= j < |s|
        ensures CompareRows(orders, x, s[j]) <= 0
      {
        if j > 0 {
          CompareRowsTransitive(orders, x, s[0], s[j]);
        }
      }
      PrependSorted(orders, x, s);
    } else {
      CompareRowsAntisymmetric(orders, x, s[0]);
      var tail := Insert(orders, x, s[1..]);
      InsertSorted(orders, x, s[1..]);
      forall j | 0 <= j < |tail|
        ensures CompareRows(orders, s[0], tail[j]) <= 0
      {
        LeadPrecedesInserted(orders, x, s, tail[j]);
      }
      PrependSorted(orders, s[0], tail);
    }
  }

  /** In the step that inserts past the head: the head precedes-or-ties every
      row of the insertion into the rest. */
  lemma LeadPrecedesInserted(orders: seq<Order>, x: BookEntity, s: seq<BookEntity>, e: BookEntity)
    requires Sorted(orders, s) && s != []
    requires CompareRows(orders, s[0], x) <= 0
    requires e in multiset(Insert(orders, x, s[1..]))
    ensures CompareRows(orders, s[0], e) <= 0
  {
    if e != x {
      assert e in multiset(s[1..]);
      var k :| 0 <= k < |s[1..]| && s[1..][k] == e;
      assert s[k + 1] == e;
    }
  }

  /** The rows in the order the sort gives them: sorted, and a permutation
      of the input. */
  function SortRows(orders: seq<Order>, s: seq<BookEntity>): (r: seq<BookEntity>)
    ensures |r| == |s|
    ensures multiset(r) == multiset(s)
    ensures Sorted(orders, r)
  {
    if s == [] then []
    else
      var rest := SortRows(orders, s[1..]);
      InsertSorted(orders, s[0], rest);
      assert s == [s[0]] + s[1..];
      Insert(orders, s[0], rest)
  }

  /** The first row of a sorted result precedes-or-ties every input row. */
  lemma SortedHeadIsLeast(orders: seq<Order>, s: seq<BookEntity>, e: BookEntity)
    requires e in s
    ensures CompareRows(orders, SortRows(orders, s)[0], e) <= 0
  {
    var r := SortRows(orders, s);
    assert e in multiset(s);
    assert e in multiset(r);
    var k :| 0 <= k < |r| && r[k] == e;
    if k == 0 {
      CompareRowsAntisymmetric(orders, e, e);
    }
  }

  /** Under a single ascending title order, a row whose title sorts strictly
      below every other row's title comes first ("1984" before "Dune"). */
  lemma AscendingTitleFirst(s: seq<BookEntity>, first: BookEntity)
    requires first in s
    requires forall e | e in s && e != first :: CompareKeys(TextKey(first.title), TextKey(e.title)) < 0
    ensures SortRows([Order(Asc, "title")], s)[0] == first
  {
    var orders := [Order(Asc, "title")];
    var r := SortRows(orders, s);
    SortedHeadIsLeast(orders, s, first);
    assert r[0] in multiset(s) by { assert r[0] in multiset(r); }
    if r[0] != first {
      assert CompareRows(orders, first, r[0]) < 0;
      CompareRowsAntisymmetric(orders, first, r[0]);
      assert false;
    }
  }

  /** "1984" sorts before "Dune" and "The Hobbit" by code point. */
  lemma TitleExample()
    ensures CompareKeys(TextKey(Some("1984")), TextKey(Some("Dune"))) < 0
    ensures CompareKeys(TextKey(Some("1984")), TextKey(Some("The Hobbit"))) < 0
  {
    assert Codes("1984")[0] == '1' as int;
    assert Codes("Dune")[0] == 'D' as int;
    assert Codes("The Hobbit")[0] == 'T' as int;
  }
}

=== FILE: pageable.dfy ===
/** The framework's paging vocabulary as the store sees it: a sort direction,
    sort orders, a page request (Pageable) and a returned page (Page). */
module Pageables {
  import opened Text

  datatype Direction = Asc | Desc {
    /** Sort.Direction.name(). */
    function Name(): string {
      if Asc? then "ASC" else "DESC"
    }
  }

  /** One Sort.Order: a direction and the property it sorts by. */
  datatype Order = Order(direction: Direction, property: string)

  /** A PageRequest: a 0-based page number, a page size and the sort orders
      (an empty sequence is an unsorted request). */
  datatype Pageable = Pageable(pageNumber: int, pageSize: int, orders: seq<Order>) {
    /** What PageRequest.of and Sort.Order check on construction. */
    predicate Valid() {
      && pageNumber >= 0
      && pageSize >= 1
      && forall k | 0 <= k < |orders| :: !IsBlank(orders[k].property)
    }

    /** Sort.isSorted(). */
    predicate IsSorted() {
      orders != []
    }

    /** getOffset(): the number of rows skipped before this page. */
    function Offset(): int {
      pageNumber * pageSize
    }
  }

  /** A Page: the window's content, the total count of matching rows, and the
      request that produced it (getNumber() and getSize() come from it). */
  datatype Page<T> = Page(content: seq<T>, totalElements: int, pageable: Pageable) {
    function Number(): int {
      pageable.pageNumber
    }

    function Size(): int {
      pageable.pageSize
    }
  }
}

=== FILE: pagination.dfy ===
/** The PaginationQuery and PaginatedResult value objects. */
module Pagination {
  import opened Wrappers
  import opened Text
  import opened Exceptions

  const PageNegativeMessage: string := "Page number cannot be negative."
  const PageSizeMessage: string := "Page size must be at least 1."
  const DefaultSortBy: string := "title"
  const DefaultSortDirection: string := "asc"

  /** A 0-based page index, a page size, a sort property and a direction text. */
  datatype PaginationQuery = PaginationQuery(page: int, pageSize: int, sortBy: string, sortDirection: string) {
    /** What the compact constructor guarantees of every PaginationQuery. */
    predicate Valid() {
      page >= 0 && pageSize >= 1 && !IsBlank(sortBy) && !IsBlank(sortDirection)
    }
  }

  /** The back-fill applied to sortBy and sortDirection: null or blank takes the default. */
  function OrDefault(v: Option<string>, default: string): (r: string)
    ensures !IsBlank(default) ==> !IsBlank(r)
  {
    if v.None? || IsBlank(v.value) then default else v.value
  }

  /** The validating compact constructor `new PaginationQuery(page, pageSize, sortBy, sortDirection)`.
      The page check runs first, then the size check; only then are the texts back-filled. */
  function NewPaginationQuery(page: int, pageSize: int, sortBy: Option<string>, sortDirection: Option<string>)
    : (r: Result<PaginationQuery, Exception>)
    ensures r.Success? <==> page >= 0 && pageSize >= 1
    ensures page < 0 ==> r == Failure(IllegalArgument(Some(PageNegativeMessage)))
    ensures page >= 0 && pageSize < 1 ==> r == Failure(IllegalArgument(Some(PageSizeMessage)))
    ensures r.Success? ==> r.value.Valid() && r.value.page == page && r.value.pageSize == pageSize
    ensures r.Success? && (sortBy.None? || IsBlank(sortBy.value)) ==> r.value.sortBy == DefaultSortBy
    ensures r.Success? && sortBy.Some? && !IsBlank(sortBy.value) ==> r.value.sortBy == sortBy.value
    ensures r.Success? && (sortDirection.None? || IsBlank(sortDirection.value)) ==> r.value.sortDirection == DefaultSortDirection
    ensures r.Success? && sortDirection.Some? && !IsBlank(sortDirection.value) ==> r.value.sortDirection == sortDirection.value
  {
    if page < 0 then
      Failure(IllegalArgument(Some(PageNegativeMessage)))
    else if pageSize < 1 then
      Failure(IllegalArgument(Some(PageSizeMessage)))
    else
      assert !IsJavaWhitespace(DefaultSortBy[0]) && !IsJavaWhitespace(DefaultSortDirection[0]);
      Success(PaginationQuery(page, pageSize, OrDefault(sortBy, DefaultSortBy), OrDefault(sortDirection, DefaultSortDirection)))
  }

  /** The 2-argument constructor `new PaginationQuery(page, pageSize)`. */
  function NewPaginationQueryWithDefaults(page: int, pageSize: int): (r: Result<PaginationQuery, Exception>)
    ensures r == NewPaginationQuery(page, pageSize, Some(DefaultSortBy), Some(DefaultSortDirection))
    ensures r == NewPaginationQuery(page, pageSize, None, None)
  {
    NewPaginationQuery(page, pageSize, Some("title"), Some("asc"))
  }

  /** The accepted boundary: page 0 with page size 1. */
  lemma SmallestQueryAccepted()
    ensures NewPaginationQuery(0, 1, None, None) == Success(PaginationQuery(0, 1, "title", "asc"))
  {
  }

  /** Rebuilding a query from a valid query's fields yields the same query. */
  lemma RebuildValidQuery(q: PaginationQuery)
    requires q.Valid()
    ensures NewPaginationQuery(q.page, q.pageSize, Some(q.sortBy), Some(q.sortDirection)) == Success(q)
  {
  }

  // ---------------------------------------------------------------------
  // PaginatedResult
  // ---------------------------------------------------------------------

  const IntMax: int := 0x7fff_ffff
  const IntMin: int := -0x8000_0000

  /** The exact ceiling of a / b for a non-zero divisor. */
  function CeilDiv(a: int, b: int): int
    requires b != 0
  {
    if b > 0 then -((-a) / b) else -(a / (-b))
  }

  /** Ceiling division by a positive divisor brackets the dividend. */
  lemma CeilDivBounds(a: int, b: int)
    requires b > 0
    ensures (CeilDiv(a, b) - 1) * b < a <= CeilDiv(a, b) * b
  {
    var q := (-a) / b;
    var m := (-a) % b;
    assert -a == b * q + m && 0 <= m < b;
    assert CeilDiv(a, b) * b == a + m by {
      assert CeilDiv(a, b) == -q;
    }
  }

  /** The (int) cast of a double: values beyond the int range saturate. */
  function SaturateToInt(x: int): int {
    if x > IntMax then IntMax else if x < IntMin then IntMin else x
  }

  /** `totalElements == 0 ? 0 : (int) Math.ceil((double) totalElements / pageSize)`,
      computed exactly (without double rounding).  A zero page size divides to
      an infinity, which the cast saturates. */
  function TotalPages(totalElements: int, pageSize: int): (r: int)
    ensures IntMin <= r <= IntMax
    ensures totalElements == 0 ==> r == 0
    ensures totalElements > 0 && pageSize >= 0 ==> r >= 1
    ensures totalElements > 0 && pageSize == 0 ==> r == IntMax
  {
    if totalElements == 0 then 0
    else if pageSize == 0 then (if totalElements > 0 then IntMax else IntMin)
    else SaturateToInt(CeilDiv(totalElements, pageSize))
  }

  /** Sign facts about a product with a positive factor. */
  lemma MulByPositive(x: int, b: int)
    requires b >= 1
    ensures x <= 0 ==> x * b <= 0
    ensures x >= 0 ==> x * b >= x
    ensures x >= 1 ==> x * b >= b
  {
  }

  /** For a positive element count within the int range and a valid page size,
      the last page is non-empty: (totalPages - 1) * pageSize < totalElements <= totalPages * pageSize. */
  lemma TotalPagesBounds(totalElements: int, pageSize: int)
    requires 0 < totalElements <= IntMax && pageSize >= 1
    ensures var t := TotalPages(totalElements, pageSize);
            1 <= t && (t - 1) * pageSize < totalElements <= t * pageSize
  {
    CeilDivBounds(totalElements, pageSize);
    var c := CeilDiv(totalElements, pageSize);
    MulByPositive(c, pageSize);
    MulByPositive(c - 1, pageSize);
    assert 1 <= c <= totalElements;
  }

  /** totalPages is zero exactly when there are no elements (for valid page sizes). */
  lemma TotalPagesZero(totalElements: int, pageSize: int)
    requires 0 <= totalElements <= IntMax && pageSize >= 1
    ensures TotalPages(totalElements, pageSize) == 0 <==> totalElements == 0
  {
    if totalElements > 0 {
      TotalPagesBounds(totalElements, pageSize);
    }
  }

  /** Everything fits on one page when there are at most pageSize elements. */
  lemma TotalPagesSinglePage(totalElements: int, pageSize: int)
    requires 0 < totalElements <= pageSize
    ensures TotalPages(totalElements, pageSize) == 1
  {
    CeilDivBounds(totalElements, pageSize);
    var c := CeilDiv(totalElements, pageSize);
    MulByPositive(c, pageSize);
    MulByPositive(c - 1, pageSize);
    assert c == 1;
  }

  /** The worked example: 25 elements at 10 per page need 3 pages. */
  lemma TotalPagesExample()
    ensures TotalPages(25, 10) == 3 && TotalPages(100, 10) == 10 && TotalPages(0, 10) == 0
  {
  }

  /** A page of results: the content, the count over the whole filtered set,
      the page number and the page size. */
  datatype PaginatedResult<T> = PaginatedResult(content: seq<T>, totalElements: int, pageNumber: int, pageSize: int) {
    /** totalPages(): depends on totalElements and pageSize only. */
    function TotalPagesOf(): int {
      TotalPages(totalElements, pageSize)
    }
  }
}

=== FILE: paginationmapper.dfy ===
/** The conversions between PaginationQuery and Pageable: toPageable (shared,
    line for line, by PaginationEntityMapper and PaginationMapper) and
    PaginationMapper's reverse toPaginationQuery with its extract helpers. */
module PaginationMappers {
  import opened Wrappers
  import opened Text
  import opened Exceptions
  import opened Pagination
  import opened Pageables

  const DefaultSortField: string := "id"
  const DefaultSortDirectionName: string := "asc"

  /** DESC exactly when the text equals "desc" ignoring case; anything else is ASC. */
  function DirectionOf(text: string): (d: Direction)
    ensures d == Desc <==> Lower(text) == "desc"
  {
    EqualsIgnoreCaseIsLowerEquality("desc", text);
    if EqualsIgnoreCase("desc", text) then Desc else Asc
  }

  /** toPageable: the page number and size carried over, one order on sortBy. */
  function ToPageable(q: PaginationQuery): (p: Pageable)
    requires q.Valid()
    ensures p.Valid()
    ensures p.pageNumber == q.page && p.pageSize == q.pageSize
    ensures |p.orders| == 1 && p.orders[0].property == q.sortBy
    ensures p.orders[0].direction == Desc <==> Lower(q.sortDirection) == "desc"
    ensures p.Offset() == q.page * q.pageSize
  {
    Pageable(q.page, q.pageSize, [Order(DirectionOf(q.sortDirection), q.sortBy)])
  }

  /** The worked directions: "DeSc" sorts descending; "INVALID" and "AsC" sort ascending. */
  lemma DirectionOfExamples()
    ensures DirectionOf("desc") == Desc && DirectionOf("DeSc") == Desc
    ensures DirectionOf("INVALID") == Asc && DirectionOf("AsC") == Asc
  {
    assert Lower("DeSc") == "desc";
    assert Lower("INVALID") != "desc" by { assert |Lower("INVALID")| == 7; }
    assert Lower("AsC") != "desc" by { assert |Lower("AsC")| == 3; }
  }

  /** extractSortField: the first order's property, or "id" when unsorted. */
  function ExtractSortField(p: Pageable): (r: string)
    ensures p.IsSorted() ==> r == p.orders[0].property
    ensures !p.IsSorted() ==> r == DefaultSortField
  {
    if p.IsSorted() then p.orders[0].property else DefaultSortField
  }

  /** extractSortDirection: the first order's direction name lower-cased, or "asc" when unsorted. */
  function ExtractSortDirection(p: Pageable): (r: string)
    ensures r == "asc" || r == "desc"
    ensures r == "desc" <==> p.IsSorted() && p.orders[0].direction == Desc
  {
    if p.IsSorted() then Lower(p.orders[0].direction.Name()) else DefaultSortDirectionName
  }

  /** toPaginationQuery: the page number and size copied, the sort extracted. */
  function ToPaginationQuery(p: Pageable): (r: Result<PaginationQuery, Exception>)
    requires p.Valid()
    ensures r.Success?
    ensures r.value.page == p.pageNumber && r.value.pageSize == p.pageSize
    ensures r.value.sortBy == ExtractSortField(p)
    ensures r.value.sortDirection == ExtractSortDirection(p)
  {
    assert !IsJavaWhitespace(DefaultSortField[0]);
    assert p.IsSorted() ==> !IsBlank(p.orders[0].property);
    assert !IsJavaWhitespace(ExtractSortDirection(p)[0]);
    NewPaginationQuery(p.pageNumber, p.pageSize, Some(ExtractSortField(p)), Some(ExtractSortDirection(p)))
  }

  /** An unsorted request reads back as sort "id", direction "asc". */
  lemma UnsortedReadsBackAsDefaults(p: Pageable)
    requires p.Valid() && !p.IsSorted()
    ensures ToPaginationQuery(p) == Success(PaginationQuery(p.pageNumber, p.pageSize, "id", "asc"))
  {
  }

  /** Query -> Pageable -> query keeps the page, the size and the sort property;
      the direction comes back normalised to "desc" or "asc". */
  lemma QueryRoundTrip(q: PaginationQuery)
    requires q.Valid()
    ensures ToPaginationQuery(ToPageable(q))
         == Success(PaginationQuery(q.page, q.pageSize, q.sortBy,
                                    if Lower(q.sortDirection) == "desc" then "desc" else "asc"))
  {
  }

  /** Pageable -> query -> Pageable restores a request sorted by exactly one order. */
  lemma PageableRoundTrip(p: Pageable)
    requires p.Valid() && |p.orders| == 1
    ensures ToPageable(ToPaginationQuery(p).value) == p
  {
    var d := p.orders[0].direction;
    var text := ExtractSortDirection(p);
    if d == Desc {
      assert text == "desc";
      assert Lower(text) == "desc";
    } else {
      assert text == "asc";
      assert Lower(text) != "desc" by { assert |Lower(text)| == 3; }
    }
  }
}

=== FILE: restcontroller.dfy ===
/** BookControllerAdapter: the five REST operations.  Each maps the request,
    makes one service call, maps the result and picks a status; any exception
    on the way is answered by the REST exception handler instead.  The store,
    the clock and the port calls made are threaded through as in Service. */
module RestController {
  import opened Wrappers
  import opened Text
  import opened Genres
  import opened Domain
  import opened Exceptions
  import opened Filters
  import opened Pagination
  import opened Entities
  import opened RestErrors
  import opened RestMapper
  import Ordering
  import Jpa = JpaRepository
  import Service
  import Port = RepositoryAdapter

  const HttpOk: int := 200
  const HttpCreated: int := 201
  const HttpNoContent: int := 204

  /** The listing defaults: the first page (1-based), ten per page, by id, ascending. */
  const DefaultPage: int := 1
  const DefaultPageSize: int := 10
  const DefaultListSortBy: string := "id"
  const DefaultListSortDirection: string := "ASC"

  /** A Java int. */
  type Int32 = x: int | IntMin <= x <= IntMax

  /** Java int arithmetic: the result reduced into the int range, two's complement. */
  function Wrap32(x: int): (r: Int32)
    ensures IntMin <= x <= IntMax ==> r == x
    ensures (r - x) % 0x1_0000_0000 == 0
  {
    ((x - IntMin) % 0x1_0000_0000) + IntMin
  }

  /** Either the status and body of a ResponseEntity, or the handler's answer to an exception. */
  datatype Reply<B> = Answer(status: int, body: B) | Rejected(error: ErrorResponse)

  /** The reply, the store afterwards and the port calls the service made. */
  datatype Exchange<B> = Exchange(reply: Reply<B>, table: Jpa.Table, calls: seq<Service.PortCall>)

  /** The status the client sees. */
  function StatusOfReply<B>(r: Reply<B>): int {
    if r.Answer? then r.status else r.error.status
  }

  /** A genre name the request enum accepts. */
  predicate KnownGenreName(name: string) {
    exists g: BookGenre :: Name(g) == name
  }

  // ---------------------------------------------------------------------
  // Single books
  // ---------------------------------------------------------------------

  /** createBook: toBook, save, toBookResponse, 201. */
  function CreateBook(t: Jpa.Table, now: DateTime, req: BookRequest): (r: Exchange<BookResponse>)
    ensures r.reply.Answer? <==>
      req.bookGenre.Some? && KnownGenreName(req.bookGenre.value) && TextFitsColumns(req.author, req.title)
    ensures !(req.bookGenre.Some? && KnownGenreName(req.bookGenre.value)) ==>
      && r.reply.Rejected? && r.table == t && r.calls == []
      && r.reply.error.status == (if req.bookGenre.None? then InternalServerError else BadRequest)
    ensures req.bookGenre.Some? && KnownGenreName(req.bookGenre.value) && !TextFitsColumns(req.author, req.title) ==>
      && r.reply == Rejected(Handle(OtherRuntime(Jpa.ConstraintViolation)))
      && r.reply.error.status == InternalServerError
      && r.table == t && |r.calls| == 1
    ensures r.reply.Answer? ==>
      && r.reply.status == HttpCreated && |r.calls| == 1
      && var body := r.reply.body;
      && body.id.Some? && body.title == req.title && body.author == req.author
      && body.bookGenre == req.bookGenre.value
      && body.pages == req.pages && body.publicationYear == req.publicationYear
      && ToLocalDateTime(body.createdAt) == Some(now) && ToLocalDateTime(body.updatedAt) == Some(now)
      && |body.links| == 3
  {
    match ToBook(req)
    case Failure(e) => Exchange(Rejected(Handle(e)), t, [])
    case Success(book) =>
      var s := Service.Save(t, now, book);
      match s.result
      case Failure(e) => Exchange(Rejected(Handle(e)), s.table, s.calls)
      case Success(saved) =>
        match ToBookResponse(saved)
        case Failure(e) => Exchange(Rejected(Handle(e)), s.table, s.calls)
        case Success(body) => Exchange(Answer(HttpCreated, body), s.table, s.calls)
  }

  /** getBook: findActiveById, toBookResponse, 200. */
  function GetBook(t: Jpa.Table, id: int): (r: Exchange<BookResponse>)
    ensures r.table == t && r.calls == [Service.FindActiveByIdCall(id)]
    ensures !(id in t.rows && t.rows[id].active == Some(true)) ==> r.reply == Rejected(Handle(BookNotFound(id)))
    ensures r.reply.Answer? <==> id in t.rows && t.rows[id].active == Some(true) && t.rows[id].genre.Some?
    ensures r.reply.Answer? ==>
      && r.reply.status == HttpOk
      && r.reply.body.id == t.rows[id].id && r.reply.body.title == t.rows[id].title
      && r.reply.body.author == t.rows[id].author
      && r.reply.body.bookGenre == Name(t.rows[id].genre.value)
      && |r.reply.body.links| == 3
  {
    var f := Service.FindActiveById(t, Some(id));
    match f.result
    case Failure(e) => Exchange(Rejected(Handle(e)), t, f.calls)
    case Success(b) =>
      match ToBookResponse(b)
      case Failure(e) => Exchange(Rejected(Handle(e)), t, f.calls)
      case Success(body) => Exchange(Answer(HttpOk, body), t, f.calls)
  }

  /** deactivateBook: deactivate, 204 with no body. */
  function DeactivateBook(t: Jpa.Table, now: DateTime, id: int): (r: Exchange<()>)
    ensures r.reply.Answer? <==>
      id in t.rows && TextFitsColumns(t.rows[id].author, t.rows[id].title) && t.rows[id].createdAt.Some?
    ensures Service.RowsMeetConstraints(t) ==> (r.reply.Answer? <==> id in t.rows)
    ensures r.reply.Answer? ==> r.reply.status == HttpNoContent
    ensures id !in t.rows ==>
      r.reply == Rejected(Handle(BookNotFound(id))) && r.table == t && r.calls == [Service.FindByIdCall(id)]
    ensures id in t.rows && r.reply.Rejected? ==>
      r.reply == Rejected(Handle(OtherRuntime(Jpa.ConstraintViolation))) && r.table == t
    ensures Jpa.Valid(t) && r.reply.Answer? ==>
      Jpa.FindById(r.table, id) == Some(t.rows[id].(active := Some(false), updatedAt := Some(now)))
    ensures Jpa.Valid(t) ==> Jpa.Valid(r.table)
  {
    var d := Service.Deactivate(t, now, Some(id));
    match d.result
    case Failure(e) => Exchange(Rejected(Handle(e)), d.table, d.calls)
    case Success(_) => Exchange(Answer(HttpNoContent, ()), d.table, d.calls)
  }

  /** The request's genre names a constant of the enum. */
  predicate GenreAccepted(req: BookRequest) {
    req.bookGenre.Some? && KnownGenreName(req.bookGenre.value)
  }

  /** updateBook as written: toBook, the path id set on the book, the service
      update, toBookResponse, 200.  The request carries no createdAt or active,
      so the row sent to the store has both null and the store refuses it:
      the program never answers 200 here. */
  function UpdateBook(t: Jpa.Table, now: DateTime, id: int, req: BookRequest): (r: Exchange<BookResponse>)
    ensures r.reply.Rejected? && r.table == t
    ensures !GenreAccepted(req) ==>
      r.calls == [] && r.reply.error.status == (if req.bookGenre.None? then InternalServerError else BadRequest)
    ensures GenreAccepted(req) && id !in t.rows ==>
      r.reply == Rejected(Handle(BookNotFound(id))) && r.calls == [Service.FindByIdCall(id)]
    ensures GenreAccepted(req) && id in t.rows ==>
      && r.reply == Rejected(Handle(OtherRuntime(Jpa.ConstraintViolation)))
      && r.reply.error.status == InternalServerError
      && |r.calls| == 2 && r.calls[1].SaveCall?
      && r.calls[1].book.createdAt.None? && r.calls[1].book.active.None?
  {
    match ToBook(req)
    case Failure(e) => Exchange(Rejected(Handle(e)), t, [])
    case Success(b) =>
      var u := Service.UpdateAsWritten(t, now, b.(id := Some(id)));
      match u.result
      case Failure(e) => Exchange(Rejected(Handle(e)), u.table, u.calls)
      case Success(saved) =>
        match ToBookResponse(saved)
        case Failure(e) => Exchange(Rejected(Handle(e)), u.table, u.calls)
        case Success(body) => Exchange(Answer(HttpOk, body), u.table, u.calls)
  }

  /** updateBook with the corrected service update: the stored createdAt and
      active are kept. */
  function UpdateBookCorrected(t: Jpa.Table, now: DateTime, id: int, req: BookRequest): (r: Exchange<BookResponse>)
    ensures r.reply.Answer? <==>
      && GenreAccepted(req) && id in t.rows && TextFitsColumns(req.author, req.title)
      && t.rows[id].createdAt.Some? && t.rows[id].active.Some?
    ensures Service.RowsMeetConstraints(t) ==>
      (r.reply.Answer? <==> GenreAccepted(req) && id in t.rows && TextFitsColumns(req.author, req.title))
    ensures !GenreAccepted(req) ==> r.reply.Rejected? && r.table == t && r.calls == []
    ensures GenreAccepted(req) && id !in t.rows ==>
      r.reply == Rejected(Handle(BookNotFound(id))) && r.table == t
    ensures GenreAccepted(req) && id in t.rows && r.reply.Rejected? ==>
      r.reply == Rejected(Handle(OtherRuntime(Jpa.ConstraintViolation))) && r.table == t
    ensures r.reply.Answer? ==>
      && r.reply.status == HttpOk
      && var body := r.reply.body;
      && body.id == Some(id) && body.title == req.title && body.author == req.author
      && body.bookGenre == req.bookGenre.value
      && body.pages == req.pages && body.publicationYear == req.publicationYear
      && ToLocalDateTime(body.createdAt) == t.rows[id].createdAt && ToLocalDateTime(body.updatedAt) == Some(now)
      && (|body.links| == 3 <==> t.rows[id].active == Some(true))
      && Jpa.FindById(r.table, id).Some?
      && Jpa.FindById(r.table, id).value.createdAt == t.rows[id].createdAt
      && Jpa.FindById(r.table, id).value.active == t.rows[id].active
  {
    match ToBook(req)
    case Failure(e) => Exchange(Rejected(Handle(e)), t, [])
    case Success(b) =>
      var u := Service.Update(t, now, b.(id := Some(id)));
      match u.result
      case Failure(e) => Exchange(Rejected(Handle(e)), u.table, u.calls)
      case Success(saved) =>
        match ToBookResponse(saved)
        case Failure(e) => Exchange(Rejected(Handle(e)), u.table, u.calls)
        case Success(body) => Exchange(Answer(HttpOk, body), u.table, u.calls)
  }

  // ---------------------------------------------------------------------
  // The listing
  // ---------------------------------------------------------------------

  /** The query parameters of getBooks; page and pageSize are Java ints. */
  datatype ListParams = ListParams(
    page: Option<Int32>,
    pageSize: Option<Int32>,
    sortDirection: Option<string>,
    sortBy: Option<string>,
    author: Option<string>,
    title: Option<string>,
    genre: Option<string>)

  /** The genre parameter: upper-cased and looked up with valueOf; absent means no genre criterion. */
  function GenreParam(genre: Option<string>): (r: Result<Option<BookGenre>, Exception>)
    ensures genre.None? ==> r == Success(None)
    ensures genre.Some? ==> (r.Success? <==> KnownGenreName(Upper(genre.value)))
    ensures genre.Some? && r.Success? ==> r.value.Some? && Name(r.value.value) == Upper(genre.value)
    ensures r.Failure? ==> r.error == IllegalArgument(Some(NoEnumConstantMessage(Upper(genre.value))))
  {
    if genre.None? then Success(None)
    else
      match GenreValueOf(Upper(genre.value))
      case Failure(e) => Failure(e)
      case Success(g) => Success(Some(g))
  }

  /** The 0-based page index as the source computes it: `page.orElse(1) - 1` in int arithmetic. */
  function PageIndexAsWritten(page: Option<Int32>): (r: Int32)
    ensures page.GetOr(DefaultPage) != IntMin ==> r == page.GetOr(DefaultPage) - 1
    ensures page == Some(IntMin) ==> r == IntMax
  {
    Wrap32(page.GetOr(DefaultPage) - 1)
  }

  /** The 0-based page index without wrap-around: non-negative exactly for pages from 1 on. */
  function PageIndex(page: Option<Int32>): (r: int)
    ensures r >= 0 <==> page.GetOr(DefaultPage) >= 1
    ensures page.GetOr(DefaultPage) != IntMin ==> r == PageIndexAsWritten(page)
  {
    page.GetOr(DefaultPage) - 1
  }

  /** The PaginationQuery built from a page index and the parameters' defaults. */
  function ListQuery(index: int, p: ListParams): (r: Result<PaginationQuery, Exception>)
    ensures r.Success? <==> index >= 0 && p.pageSize.GetOr(DefaultPageSize) >= 1
    ensures r.Success? ==> r.value.page == index && r.value.pageSize == p.pageSize.GetOr(DefaultPageSize)
    ensures r.Success? && p.sortBy.None? ==> r.value.sortBy == DefaultListSortBy
    ensures r.Success? && p.sortDirection.None? ==> r.value.sortDirection == DefaultListSortDirection
    ensures r.Success? && p.sortBy.Some? && !IsBlank(p.sortBy.value) ==> r.value.sortBy == p.sortBy.value
    ensures r.Success? && p.sortDirection.Some? && !IsBlank(p.sortDirection.value) ==> r.value.sortDirection == p.sortDirection.value
    ensures r.Success? && p.sortBy.Some? && IsBlank(p.sortBy.value) ==> r.value.sortBy == DefaultSortBy
    ensures r.Success? && p.sortDirection.Some? && IsBlank(p.sortDirection.value) ==> r.value.sortDirection == DefaultSortDirection
  {
    assert !IsJavaWhitespace(DefaultListSortBy[0]) && !IsJavaWhitespace(DefaultListSortDirection[0]);
    NewPaginationQuery(index, p.pageSize.GetOr(DefaultPageSize),
                       Some(p.sortBy.GetOr(DefaultListSortBy)), Some(p.sortDirection.GetOr(DefaultListSortDirection)))
  }

  /** The genre is valid and the page index and size pass the query's checks. */
  predicate RequestAccepted(p: ListParams, index: int) {
    && (p.genre.Some? ==> KnownGenreName(Upper(p.genre.value)))
    && index >= 0 && p.pageSize.GetOr(DefaultPageSize) >= 1
  }

  /** The response books are the rows, one for one, in toBookResponse form. */
  predicate BooksAre(books: seq<BookResponse>, rows: seq<BookEntity>) {
    |books| == |rows| && forall i | 0 <= i < |rows| :: ToBookResponse(ToDomain(rows[i])) == Success(books[i])
  }

  /** Every row has a genre, so each maps to a response. */
  predicate GenresPresent(rows: seq<BookEntity>) {
    forall i | 0 <= i < |rows| :: rows[i].genre.Some?
  }

  /** The store can serve the query: the sort property exists and the offset
      fits in an int. */
  predicate Servable(q: PaginationQuery) {
    Ordering.IsSortable(q.sortBy) && q.page * q.pageSize <= IntMax
  }

  /** getBooks from the page index on: the genre lookup, toFilter, the query,
      one service call, toResponse, 200.  Both argument checks fail before
      the service is called. */
  function GetBooksAt(t: Jpa.Table, p: ListParams, index: int): (r: Exchange<BooksResponse>)
    requires Jpa.Valid(t)
    ensures r.table == t
    ensures !RequestAccepted(p, index) ==> r.reply.Rejected? && r.reply.error.status == BadRequest && r.calls == []
    ensures RequestAccepted(p, index) ==>
      && |r.calls| == 1 && r.calls[0].FindAllCall?
      && r.calls[0].filter == ToFilter(p.author, p.title, GenreParam(p.genre).value)
      && r.calls[0].query == ListQuery(index, p).value
    ensures RequestAccepted(p, index) && !Servable(ListQuery(index, p).value) ==>
      r.reply.Rejected? && r.reply.error.status == InternalServerError
    ensures r.reply.Answer? ==>
      && RequestAccepted(p, index)
      && Servable(ListQuery(index, p).value)
      && r.reply.status == HttpOk
      && r.reply.body.pagination.number == index
      && r.reply.body.pagination.size == p.pageSize.GetOr(DefaultPageSize)
      && r.reply.body.pagination.totalElements == |Jpa.Filter(r.calls[0].filter, Jpa.Rows(t))|
      && r.reply.body.links == PageLinks(index, p.pageSize.GetOr(DefaultPageSize), r.reply.body.pagination.totalPages)
  {
    match GenreParam(p.genre)
    case Failure(e) => Exchange(Rejected(Handle(e)), t, [])
    case Success(genre) => ListFiltered(t, p, ToFilter(p.author, p.title, genre), index)
  }

  /** getBooks once the filter is built: the query, then the page. */
  function ListFiltered(t: Jpa.Table, p: ListParams, filter: BookFilter, index: int): (r: Exchange<BooksResponse>)
    requires Jpa.Valid(t)
    ensures r.table == t
    ensures ListQuery(index, p).Failure? ==> r.reply.Rejected? && r.reply.error.status == BadRequest && r.calls == []
    ensures ListQuery(index, p).Success? ==> r.calls == [Service.FindAllCall(filter, ListQuery(index, p).value)]
    ensures ListQuery(index, p).Success? && !Servable(ListQuery(index, p).value) ==>
      r.reply.Rejected? && r.reply.error.status == InternalServerError
    ensures r.reply.Answer? ==>
      && ListQuery(index, p).Success?
      && Servable(ListQuery(index, p).value)
      && r.reply.status == HttpOk
      && r.reply.body.pagination.number == index
      && r.reply.body.pagination.size == p.pageSize.GetOr(DefaultPageSize)
      && r.reply.body.pagination.totalElements == |Jpa.Filter(filter, Jpa.Rows(t))|
      && BooksAre(r.reply.body.books, Port.QueriedRows(t, filter, ListQuery(index, p).value))
      && r.reply.body.links == PageLinks(index, p.pageSize.GetOr(DefaultPageSize), r.reply.body.pagination.totalPages)
  {
    match ListQuery(index, p)
    case Failure(e) => Exchange(Rejected(Handle(e)), t, [])
    case Success(q) => ListPage(t, filter, q)
  }

  /** getBooks once the filter and query are built: the service call, toResponse, 200. */
  function ListPage(t: Jpa.Table, filter: BookFilter, q: PaginationQuery): (r: Exchange<BooksResponse>)
    requires Jpa.Valid(t) && q.Valid()
    ensures r.table == t && r.calls == [Service.FindAllCall(filter, q)]
    ensures r.reply.Answer? <==> Servable(q) && GenresPresent(Port.QueriedRows(t, filter, q))
    ensures !Servable(q) ==> r.reply == Rejected(Handle(OtherRuntime(Jpa.InvalidDataAccessApiUsage)))
    ensures !Servable(q) ==> r.reply.error.status == InternalServerError
    ensures r.reply.Answer? ==>
      && r.reply.status == HttpOk
      && r.reply.body.pagination.number == q.page
      && r.reply.body.pagination.size == q.pageSize
      && r.reply.body.pagination.totalElements == |Jpa.Filter(filter, Jpa.Rows(t))|
      && BooksAre(r.reply.body.books, Port.QueriedRows(t, filter, q))
      && r.reply.body.links == PageLinks(q.page, q.pageSize, r.reply.body.pagination.totalPages)
  {
    var o := Service.GetAllWithFilters(t, filter, q);
    match o.result
    case Failure(e) => Exchange(Rejected(Handle(e)), t, o.calls)
    case Success(page) =>
      var rows := Port.QueriedRows(t, filter, q);
      GenresOfMappedRows(page.content, rows);
      match ToResponse(page)
      case Failure(e) => Exchange(Rejected(Handle(e)), t, o.calls)
      case Success(body) =>
        ResponseOfMappedRows(page.content, rows, body.books);
        Exchange(Answer(HttpOk, body), t, o.calls)
  }

  /** Books mapped from rows have a genre exactly when the rows do. */
  lemma GenresOfMappedRows(books: seq<Book>, rows: seq<BookEntity>)
    requires Port.MapsTo(books, rows)
    ensures GenresPresent(rows) <==> forall i | 0 <= i < |books| :: books[i].genre.Some?
  {
  }

  /** Responses of books mapped from rows are the responses of the rows. */
  lemma ResponseOfMappedRows(books: seq<Book>, rows: seq<BookEntity>, responses: seq<BookResponse>)
    requires Port.MapsTo(books, rows) && |responses| == |books|
    requires forall i | 0 <= i < |books| :: ToBookResponse(books[i]) == Success(responses[i])
    ensures BooksAre(responses, rows)
  {
    forall i | 0 <= i < |rows|
      ensures ToBookResponse(ToDomain(rows[i])) == Success(responses[i])
    {
      assert ToDomain(rows[i]) == books[i];
    }
  }

  /** The books getBooks answers with are the rows the store query returns
      for the filter and query it sent, in that order, each in response form. */
  lemma ListedBooksAreQueriedRows(t: Jpa.Table, p: ListParams, index: int)
    requires Jpa.Valid(t) && GetBooksAt(t, p, index).reply.Answer?
    ensures var r := GetBooksAt(t, p, index);
            BooksAre(r.reply.body.books, Port.QueriedRows(t, r.calls[0].filter, r.calls[0].query))
  {
  }

  /** getBooks as written: the page index computed with int wrap-around. */
  function GetBooksAsWritten(t: Jpa.Table, p: ListParams): (r: Exchange<BooksResponse>)
    requires Jpa.Valid(t)
    ensures RequestAccepted(p, PageIndexAsWritten(p.page)) <==> r.calls != []
  {
    GetBooksAt(t, p, PageIndexAsWritten(p.page))
  }

  /** getBooks: a 1-based page number, defaulting to 1; any page below 1 is a bad request. */
  function GetBooks(t: Jpa.Table, p: ListParams): (r: Exchange<BooksResponse>)
    requires Jpa.Valid(t)
    ensures p.page.GetOr(DefaultPage) < 1 ==> r.reply.Rejected? && r.reply.error.status == BadRequest && r.calls == []
    ensures r.reply.Answer? ==> p.page.GetOr(DefaultPage) >= 1 && r.reply.body.pagination.number == p.page.GetOr(DefaultPage) - 1
  {
    GetBooksAt(t, p, PageIndex(p.page))
  }

  // ---------------------------------------------------------------------
  // Properties across operations
  // ---------------------------------------------------------------------

  /** A created book is served back unchanged by getBook under its new id. */
  lemma CreateThenGet(t: Jpa.Table, now: DateTime, req: BookRequest)
    requires CreateBook(t, now, req).reply.Answer?
    ensures var c := CreateBook(t, now, req);
            GetBook(c.table, c.reply.body.id.value).reply == Answer(HttpOk, c.reply.body)
  {
    var book := ToBook(req).value;
    var s := Service.Save(t, now, book);
    Service.SaveThenFindActive(t, now, book);
    assert ToEntity(s.result.value).active == Some(true);
  }

  /** After a deactivation, getBook no longer finds the book; the REST
      handler answers the missing book with 500. */
  lemma DeactivateThenGet(t: Jpa.Table, now: DateTime, id: int)
    requires Jpa.Valid(t) && Service.RowsMeetConstraints(t) && id in t.rows
    ensures var d := DeactivateBook(t, now, id);
            && d.reply == Answer(HttpNoContent, ())
            && GetBook(d.table, id).reply == Rejected(Handle(BookNotFound(id)))
            && StatusOfReply(GetBook(d.table, id).reply) == InternalServerError
  {
  }

  /** The discrepancy: on a PUT that the corrected handler answers with 200,
      the handler as written answers 500 and changes nothing, because the
      book built from the request has no createdAt or active. */
  lemma PutAsWrittenRefused(t: Jpa.Table, now: DateTime, id: int, req: BookRequest)
    requires Service.RowsMeetConstraints(t)
    requires id in t.rows && GenreAccepted(req) && TextFitsColumns(req.author, req.title)
    ensures UpdateBookCorrected(t, now, id, req).reply.Answer?
    ensures var u := UpdateBook(t, now, id, req);
            && u.reply == Rejected(Handle(OtherRuntime(Jpa.ConstraintViolation)))
            && u.reply.error.status == InternalServerError
            && u.table == t
  {
  }

  /** With the stored createdAt and active kept, a PUT on an active stored
      book succeeds, and getBook then serves exactly the body the PUT answered. */
  lemma UpdateThenGet(t: Jpa.Table, now: DateTime, id: int, req: BookRequest)
    requires Jpa.Valid(t) && Service.RowsMeetConstraints(t)
    requires id in t.rows && t.rows[id].active == Some(true)
    requires GenreAccepted(req) && TextFitsColumns(req.author, req.title)
    ensures var u := UpdateBookCorrected(t, now, id, req);
            && u.reply.Answer?
            && GetBook(u.table, id).reply == Answer(HttpOk, u.reply.body)
  {
    var b := ToBook(req).value.(id := Some(id));
    var u := Service.Update(t, now, b);
    var saved := u.result.value;
    assert ToDomain(ToEntity(saved)) == saved;
  }

  /** The genre parameter is case-insensitive: it is upper-cased before the lookup. */
  lemma GenreParamIgnoresCase(t: Jpa.Table, p: ListParams, s: string)
    requires Jpa.Valid(t)
    ensures GetBooks(t, p.(genre := Some(s))) == GetBooks(t, p.(genre := Some(Upper(s))))
  {
    UpperIdempotent(s);
    assert GenreParam(Some(s)) == GenreParam(Some(Upper(s)));
  }

  /** An unknown genre is a bad request whose message names the upper-cased value. */
  lemma UnknownGenreRejected(t: Jpa.Table, p: ListParams)
    requires Jpa.Valid(t) && p.genre == Some("poetry")
    ensures GetBooks(t, p).reply
         == Rejected(Handle(IllegalArgument(Some(NoEnumConstantMessage("POETRY")))))
    ensures StatusOfReply(GetBooks(t, p).reply) == BadRequest
  {
    PoetryIsNoGenre();
  }

  /** "poetry" upper-cases to a name no constant has. */
  lemma PoetryIsNoGenre()
    ensures GenreParam(Some("poetry")) == Failure(IllegalArgument(Some(NoEnumConstantMessage("POETRY"))))
  {
    assert Upper("poetry") == "POETRY";
    forall g: BookGenre
      ensures Name(g) != "POETRY"
    {
    }
  }

  /** The page links are built from the 0-based index while the page
      parameter is 1-based: the self link of page n asks for page n - 1, and
      the next link (when there is one) asks for page n again. */
  lemma LinksAreOnePageBehind(t: Jpa.Table, p: ListParams)
    requires Jpa.Valid(t) && GetBooks(t, p).reply.Answer?
    ensures var body := GetBooks(t, p).reply.body;
            var n := p.page.GetOr(DefaultPage);
            var size := p.pageSize.GetOr(DefaultPageSize);
            && body.links[0] == PageLink("self", n - 1, size)
            && RelIs(body.links, "next", PageLink("next", n, size))
  {
    var r := GetBooks(t, p);
    AnsweredLinks(t, p);
    SelfAndNextLinks(p.page.GetOr(DefaultPage) - 1, p.pageSize.GetOr(DefaultPageSize),
                     r.reply.body.pagination.totalPages, r.reply.body.links);
  }

  /** The links of an answered listing are the page links of its 0-based index. */
  lemma AnsweredLinks(t: Jpa.Table, p: ListParams)
    requires Jpa.Valid(t) && GetBooks(t, p).reply.Answer?
    ensures var body := GetBooks(t, p).reply.body;
            body.links == PageLinks(p.page.GetOr(DefaultPage) - 1, p.pageSize.GetOr(DefaultPageSize), body.pagination.totalPages)
  {
    var index := PageIndex(p.page);
    var r := GetBooksAt(t, p, index);
    assert GetBooks(t, p) == r;
    assert r.reply.body.links == PageLinks(index, p.pageSize.GetOr(DefaultPageSize), r.reply.body.pagination.totalPages);
  }

  /** The self link names the page itself and the next link the one after it. */
  lemma SelfAndNextLinks(index: int, size: int, total: int, links: seq<Link>)
    requires links == PageLinks(index, size, total)
    ensures links[0] == PageLink("self", index, size)
    ensures RelIs(links, "next", PageLink("next", index + 1, size))
  {
    PageLinksPresence(index, size, total);
  }

  /** The default listing over an empty store succeeds; its self link asks for page 0. */
  lemma DefaultListingOfEmptyStore()
    ensures var first := GetBooks(Jpa.EmptyTable, ListParams(None, None, None, None, None, None, None));
            && first.reply.Answer?
            && first.reply.body.books == []
            && first.reply.body.links[0] == PageLink("self", 0, DefaultPageSize)
  {
    var p := ListParams(None, None, None, None, None, None, None);
    var q := ListQuery(PageIndex(p.page), p).value;
    assert q == PaginationQuery(0, 10, "id", "ASC");
    assert Servable(q);
    assert Jpa.Rows(Jpa.EmptyTable) == [];
    assert Port.QueriedRows(Jpa.EmptyTable, ToFilter(None, None, None), q) == [];
  }

  /** The default listing over an empty store succeeds, and following its
      self link (page=0) is a bad request. */
  lemma FirstPageSelfLinkIsRejected()
    ensures var first := GetBooks(Jpa.EmptyTable, ListParams(None, None, None, None, None, None, None));
            && first.reply.Answer?
            && first.reply.body.links[0] == PageLink("self", 0, DefaultPageSize)
            && GetBooks(Jpa.EmptyTable, ListParams(Some(0), Some(DefaultPageSize), None, None, None, None, None)).reply
               == Rejected(Handle(IllegalArgument(Some(PageNegativeMessage))))
  {
    DefaultListingOfEmptyStore();
  }

  /** As written, page=Integer.MIN_VALUE wraps to the largest index and
      passes the argument checks: the service is called, the store refuses
      the offset, and the answer is 500, where every other page below 1 is a
      bad request that never reaches the service. */
  lemma PageWrapAccepted(t: Jpa.Table)
    requires Jpa.Valid(t)
    ensures var p := ListParams(Some(IntMin), None, None, None, None, None, None);
            var w := GetBooksAsWritten(t, p);
            && |w.calls| == 1 && w.calls[0].query == PaginationQuery(IntMax, DefaultPageSize, "id", "ASC")
            && w.reply == Rejected(Handle(OtherRuntime(Jpa.InvalidDataAccessApiUsage)))
            && StatusOfReply(w.reply) == InternalServerError
            && GetBooks(t, p).reply.Rejected? && GetBooks(t, p).calls == []
            && StatusOfReply(GetBooks(t, p).reply) == BadRequest
  {
    var p := ListParams(Some(IntMin), None, None, None, None, None, None);
    var q := ListQuery(IntMax, p).value;
    assert q == PaginationQuery(IntMax, 10, "id", "ASC");
    assert !Servable(q);
  }

  /** Apart from Integer.MIN_VALUE, the source's page arithmetic and the
      corrected one agree. */
  lemma PageIndexAgreesAwayFromWrap(t: Jpa.Table, p: ListParams)
    requires Jpa.Valid(t) && p.page != Some(IntMin)
    ensures GetBooksAsWritten(t, p) == GetBooks(t, p)
  {
  }
}

=== FILE: resterrors.dfy ===
/** CustomExceptionHandler: the table from exception kind to HTTP status and
    JSON error envelope {code, message, details}.  The most specific handler
    applies: the four client-error kinds first, then any other
    RuntimeException, then any other Exception. */
module RestErrors {
  import opened Wrappers
  import opened Text
  import opened Exceptions

  datatype ErrorCode = NotFound | InvalidCriteria | ValidationError | InvalidJson | InvalidParameter | InternalError {
    /** The code's spelling in the envelope. */
    function Name(): string {
      match this
      case NotFound => "NOT_FOUND"
      case InvalidCriteria => "INVALID_CRITERIA"
      case ValidationError => "VALIDATION_ERROR"
      case InvalidJson => "INVALID_JSON"
      case InvalidParameter => "INVALID_PARAMETER"
      case InternalError => "INTERNAL_ERROR"
    }
  }

  /** A value in the details map: text, a JSON null, or the field-error map. */
  datatype Detail = Text(text: string) | NullValue | FieldErrors(errors: map<string, Option<string>>)

  /** The envelope without its timestamp. */
  datatype ErrorBody = ErrorBody(code: ErrorCode, message: Option<string>, details: Option<map<string, Detail>>)

  datatype ErrorResponse = ErrorResponse(status: int, body: ErrorBody)

  const BadRequest: int := 400
  const InternalServerError: int := 500

  const CriteriaField: string := "criteria"
  const CriteriaIssue: string := "Invalid criteria or parameter provided"
  const InvalidRequestData: string := "Invalid request data"
  const InvalidJsonMessage: string := "Invalid JSON format or missing required fields"
  const InvalidJsonIssue: string := "Request body is not valid JSON or is missing required fields"
  const UnexpectedMessage: string := "An unexpected error occurred while processing the request"

  /** The kinds with a handler of their own, all answered with 400. */
  predicate IsClientError(ex: Exception) {
    ex.IllegalArgument? || ex.ArgumentNotValid? || ex.MessageNotReadable? || ex.TypeMismatch?
  }

  /** The status that goes with each code. */
  function StatusOf(code: ErrorCode): int {
    if code == InternalError then InternalServerError
    else if code == NotFound then 404
    else BadRequest
  }

  // ---------------------------------------------------------------------
  // The field-error map: later errors on the same field overwrite earlier ones
  // ---------------------------------------------------------------------

  /** Error i is a field error on `field` and no later error is. */
  predicate IsLastOnField(errors: seq<ObjectError>, i: int, field: string) {
    && 0 <= i < |errors|
    && errors[i].FieldError? && errors[i].field == field
    && forall j | i < j < |errors| :: !(errors[j].FieldError? && errors[j].field == field)
  }

  /** The fieldErrors map: each field error's field to its default message,
      in binding order, so the last error on a field wins; global errors are skipped. */
  function FieldErrorMap(errors: seq<ObjectError>): (r: map<string, Option<string>>)
    ensures forall k :: k in r <==> exists i | 0 <= i < |errors| :: errors[i].FieldError? && errors[i].field == k
    ensures forall i, k | IsLastOnField(errors, i, k) :: k in r && r[k] == errors[i].defaultMessage
  {
    if errors == [] then map[]
    else
      var init := errors[..|errors| - 1];
      var last := errors[|errors| - 1];
      var m := FieldErrorMap(init);
      forall i, k | IsLastOnField(errors, i, k) && i < |errors| - 1
        ensures IsLastOnField(init, i, k)
      {
      }
      if last.FieldError? then m[last.field := last.defaultMessage] else m
  }

  /** Global (non-field) errors contribute nothing. */
  lemma GlobalErrorsIgnored(errors: seq<ObjectError>, message: Option<string>)
    ensures FieldErrorMap(errors + [GlobalError(message)]) == FieldErrorMap(errors)
  {
    assert (errors + [GlobalError(message)])[..|errors|] == errors;
  }

  // ---------------------------------------------------------------------
  // The handler table
  // ---------------------------------------------------------------------

  /** Whether the IllegalArgument handler attaches criteria details. */
  predicate MentionsCriteria(message: Option<string>) {
    message.Some? && Contains(Lower(message.value), CriteriaField)
  }

  function Handle(ex: Exception): (r: ErrorResponse)
    ensures r.status == StatusOf(r.body.code)
    ensures r.status == BadRequest <==> IsClientError(ex)
    ensures r.status == InternalServerError <==> !IsClientError(ex)
    ensures r.body.code != NotFound
    ensures r.body.code == InvalidCriteria <==> ex.IllegalArgument?
    ensures r.body.code == ValidationError <==> ex.ArgumentNotValid?
    ensures r.body.code == InvalidJson <==> ex.MessageNotReadable?
    ensures r.body.code == InvalidParameter <==> ex.TypeMismatch?
    ensures ex.IllegalArgument? ==> r.body.message == ex.message
    ensures ex.IllegalArgument? ==> (r.body.details.Some? <==> MentionsCriteria(ex.message))
    ensures ex.IllegalArgument? && MentionsCriteria(ex.message) ==>
      r.body.details == Some(map["field" := Text(CriteriaField), "issue" := Text(CriteriaIssue)])
    ensures ex.ArgumentNotValid? ==>
      && r.body.message == Some(InvalidRequestData)
      && r.body.details == Some(map["fieldErrors" := FieldErrors(FieldErrorMap(ex.errors))])
    ensures ex.MessageNotReadable? ==>
      && r.body.message == Some(InvalidJsonMessage)
      && r.body.details == Some(map["issue" := Text(InvalidJsonIssue)])
    ensures ex.TypeMismatch? ==>
      && r.body.message == Some("Parameter '" + ex.name + "' has invalid type")
      && r.body.details.Some? && r.body.details.value.Keys == {"parameter", "providedValue", "expectedType"}
      && r.body.details.value["parameter"] == Text(ex.name)
      && r.body.details.value["providedValue"] == (if ex.value.None? then NullValue else Text(ex.value.value))
      && r.body.details.value["expectedType"] == Text(ex.requiredType.GetOr("unknown"))
    ensures !IsClientError(ex) ==> r.body.message == Some(UnexpectedMessage)
    ensures !IsClientError(ex) && ex.IsRuntime() ==> r.body.details == Some(map["type" := Text(ex.SimpleName())])
    ensures !ex.IsRuntime() && !IsClientError(ex) ==> r.body.details.None?
  {
    match ex
    case IllegalArgument(message) =>
      var details := if MentionsCriteria(message)
                     then Some(map["field" := Text(CriteriaField), "issue" := Text(CriteriaIssue)])
                     else None;
      ErrorResponse(BadRequest, ErrorBody(InvalidCriteria, message, details))
    case ArgumentNotValid(errors) =>
      ErrorResponse(BadRequest, ErrorBody(ValidationError, Some(InvalidRequestData),
                                          Some(map["fieldErrors" := FieldErrors(FieldErrorMap(errors))])))
    case MessageNotReadable =>
      ErrorResponse(BadRequest, ErrorBody(InvalidJson, Some(InvalidJsonMessage),
                                          Some(map["issue" := Text(InvalidJsonIssue)])))
    case TypeMismatch(name, value, requiredType) =>
      var provided := if value.None? then NullValue else Text(value.value);
      ErrorResponse(BadRequest, ErrorBody(InvalidParameter, Some("Parameter '" + name + "' has invalid type"),
                                          Some(map["parameter" := Text(name),
                                                   "providedValue" := provided,
                                                   "expectedType" := Text(requiredType.GetOr("unknown"))])))
    case _ =>
      if ex.IsRuntime() then
        ErrorResponse(InternalServerError, ErrorBody(InternalError, Some(UnexpectedMessage),
                                                     Some(map["type" := Text(ex.SimpleName())])))
      else
        ErrorResponse(InternalServerError, ErrorBody(InternalError, Some(UnexpectedMessage), None))
  }

  /** IllegalArgumentException is a RuntimeException, yet its own handler wins: 400, not 500. */
  lemma IllegalArgumentIsClientError(message: Option<string>)
    ensures IllegalArgument(message).IsRuntime()
    ensures Handle(IllegalArgument(message)).status == BadRequest
  {
  }

  /** A missing book has no handler of its own here: it is answered as an
      unexpected RuntimeException (500), never with NOT_FOUND. */
  lemma BookNotFoundIsInternalError(id: int)
    ensures Handle(BookNotFound(id))
         == ErrorResponse(InternalServerError,
                          ErrorBody(InternalError, Some(UnexpectedMessage),
                                    Some(map["type" := Text("BookNotFoundException")])))
  {
  }

  /** The criteria details follow the message, whatever its letter case. */
  lemma CriteriaDetailsExample()
    ensures Handle(IllegalArgument(Some("Invalid CRITERIA"))).body.details.Some?
    ensures Handle(IllegalArgument(None)).body.details.None?
  {
    var m := "Invalid CRITERIA";
    assert Lower(m)[8..16] == CriteriaField;
    assert OccursAt(Lower(m), CriteriaField, 8);
  }

  /** The last of two errors on one field wins. */
  lemma LastFieldErrorWins(field: string, first: Option<string>, second: Option<string>)
    ensures FieldErrorMap([FieldError(field, first), FieldError(field, second)])[field] == second
  {
    assert IsLastOnField([FieldError(field, first), FieldError(field, second)], 1, field);
  }
}

=== FILE: restmapper.dfy ===
/** BookMapper: the conversions between the JSON models and the domain, and
    the hypermedia links of a book and of a page of books. */
module RestMapper {
  import opened Wrappers
  import opened Text
  import opened Genres
  import opened Domain
  import opened Exceptions
  import opened Filters
  import opened Pagination

  /** One hypermedia link. */
  datatype Link = Link(rel: string, href: string, httpMethod: string)

  /** The request body; the genre is the value of the request's genre enum. */
  datatype BookRequest = BookRequest(
    title: Option<string>,
    author: Option<string>,
    bookGenre: Option<string>,
    pages: Option<int>,
    publicationYear: Option<int>)

  /** The response body for one book; the genre is its display name. */
  datatype BookResponse = BookResponse(
    id: Option<int>,
    title: Option<string>,
    author: Option<string>,
    bookGenre: string,
    pages: Option<int>,
    publicationYear: Option<int>,
    createdAt: Option<OffsetDateTime>,
    updatedAt: Option<OffsetDateTime>,
    links: seq<Link>)

  /** The pagination block (its timestamp is not modelled). */
  datatype PaginationInfo = PaginationInfo(number: int, size: int, totalElements: int, totalPages: int)

  datatype BooksResponse = BooksResponse(books: seq<BookResponse>, pagination: PaginationInfo, links: seq<Link>)

  /** Dereferencing a null reference. */
  const NullPointer: Exception := OtherRuntime("NullPointerException")

  // ---------------------------------------------------------------------
  // Genres
  // ---------------------------------------------------------------------

  /** The message of Enum.valueOf's IllegalArgumentException. */
  function NoEnumConstantMessage(name: string): string {
    "No enum constant com.library.manager.domain.BookGenre." + name
  }

  /** BookGenre.valueOf: the genre of that exact name, or IllegalArgumentException. */
  function GenreValueOf(name: string): (r: Result<BookGenre, Exception>)
    ensures r.Success? <==> exists g: BookGenre :: Name(g) == name
    ensures r.Success? ==> Name(r.value) == name
    ensures r.Failure? ==> r.error == IllegalArgument(Some(NoEnumConstantMessage(name)))
  {
    match ValueOf(name)
    case Some(g) => Success(g)
    case None => Failure(IllegalArgument(Some(NoEnumConstantMessage(name))))
  }

  /** enumToString: the display name; a null genre is dereferenced. */
  function EnumToString(g: Option<BookGenre>): (r: Result<string, Exception>)
    ensures r.Success? <==> g.Some?
    ensures r.Success? ==> r.value == Name(g.value)
    ensures r.Failure? ==> r.error == NullPointer
  {
    if g.None? then Failure(NullPointer) else Success(DisplayName(g.value))
  }

  /** stringToEnum: valueOf of the request enum's value; a null enum is dereferenced. */
  function StringToEnum(v: Option<string>): (r: Result<BookGenre, Exception>)
    ensures v.None? ==> r == Failure(NullPointer)
    ensures v.Some? ==> r == GenreValueOf(v.value)
  {
    if v.None? then Failure(NullPointer) else GenreValueOf(v.value)
  }

  /** A genre written out by enumToString is read back by stringToEnum. */
  lemma GenreRoundTrip(g: BookGenre)
    ensures StringToEnum(Some(EnumToString(Some(g)).value)) == Success(g)
  {
    ValueOfName(g);
  }

  // ---------------------------------------------------------------------
  // Timestamps
  // ---------------------------------------------------------------------

  /** getOffsetDateTime: null stays null, anything else gets the UTC offset. */
  function GetOffsetDateTime(v: Option<DateTime>): (r: Option<OffsetDateTime>)
    ensures r.None? <==> v.None?
    ensures r.Some? ==> r.value.dateTime == v.value && r.value.offsetSeconds == Utc
  {
    if v.None? then None else Some(OffsetDateTime(v.value, Utc))
  }

  /** OffsetDateTime.toLocalDateTime, lifted to nulls. */
  function ToLocalDateTime(v: Option<OffsetDateTime>): Option<DateTime> {
    if v.None? then None else Some(v.value.dateTime)
  }

  /** The conversion loses nothing: the local date-time is read back. */
  lemma OffsetDateTimeRoundTrip(v: Option<DateTime>)
    ensures ToLocalDateTime(GetOffsetDateTime(v)) == v
  {
  }

  // ---------------------------------------------------------------------
  // Requests, responses, filters
  // ---------------------------------------------------------------------

  /** toFilter(author, title, genre): a BookFilter with title and author in
      their own slots and active fixed to true. */
  function ToFilter(author: Option<string>, title: Option<string>, genre: Option<BookGenre>): (f: BookFilter)
    ensures IsNormalized(f) && f.active == Some(true) && f.genre == genre
    ensures f.title == Normalize(title) && f.author == Normalize(author)
  {
    NewBookFilter(title, author, genre, Some(true))
  }

  /** toBook: the request's fields copied; id, timestamps and active stay null. */
  function ToBook(req: BookRequest): (r: Result<Book, Exception>)
    ensures r.Success? <==> req.bookGenre.Some? && exists g: BookGenre :: Name(g) == req.bookGenre.value
    ensures r.Success? ==>
      && r.value.id.None? && r.value.createdAt.None? && r.value.updatedAt.None? && r.value.active.None?
      && r.value.title == req.title && r.value.author == req.author
      && r.value.pages == req.pages && r.value.publicationYear == req.publicationYear
      && r.value.genre.Some? && Name(r.value.genre.value) == req.bookGenre.value
  {
    match StringToEnum(req.bookGenre)
    case Failure(e) => Failure(e)
    case Success(g) =>
      Success(Book(None, req.author, req.title, Some(g), req.pages, req.publicationYear, None, None, None))
  }

  /** The book's own URL; a null id is rendered "null" by string concatenation. */
  function BookHref(id: Option<int>): (r: string)
    ensures |BookPathPrefix| < |r| && r[..|BookPathPrefix|] == BookPathPrefix
    ensures id.None? ==> r[|BookPathPrefix|..] == "null"
    ensures id.Some? ==> Text.IsNumeral(r[|BookPathPrefix|..]) && Text.ParseInt(r[|BookPathPrefix|..]) == id.value
  {
    var tail := if id.None? then "null" else IntToString(id.value);
    var h := BookPathPrefix + tail;
    assert h[|BookPathPrefix|..] == tail;
    if id.Some? then IntToStringRoundTrip(id.value); h else h
  }

  const BookPathPrefix: string := "/v1/books/"

  /** Different ids give different book URLs. */
  lemma BookHrefInjective(a: int, b: int)
    requires BookHref(Some(a)) == BookHref(Some(b))
    ensures a == b
  {
    assert BookHref(Some(a))[|BookPathPrefix|..] == IntToString(a);
    assert BookHref(Some(b))[|BookPathPrefix|..] == IntToString(b);
    IntToStringInjective(a, b);
  }

  /** addLinks: self (GET) and update (PUT) always, deactivate (DELETE) only
      while the book is active. */
  function BookLinks(b: Book): (r: seq<Link>)
    ensures |r| == 2 || |r| == 3
    ensures r[0] == Link("self", BookHref(b.id), "GET")
    ensures r[1] == Link("update", BookHref(b.id), "PUT")
    ensures |r| == 3 <==> b.active == Some(true)
    ensures |r| == 3 ==> r[2] == Link("deactivate", BookHref(b.id), "DELETE")
  {
    var href := BookHref(b.id);
    var links := [Link("self", href, "GET"), Link("update", href, "PUT")];
    if b.active == Some(true) then links + [Link("deactivate", href, "DELETE")] else links
  }

  /** toBookResponse: the book's fields, its genre's display name, its
      timestamps at UTC, and its links. */
  function ToBookResponse(b: Book): (r: Result<BookResponse, Exception>)
    ensures r.Success? <==> b.genre.Some?
    ensures r.Failure? ==> r.error == NullPointer
    ensures r.Success? ==>
      && r.value.id == b.id && r.value.title == b.title && r.value.author == b.author
      && r.value.pages == b.pages && r.value.publicationYear == b.publicationYear
      && r.value.bookGenre == Name(b.genre.value)
      && ToLocalDateTime(r.value.createdAt) == b.createdAt
      && ToLocalDateTime(r.value.updatedAt) == b.updatedAt
      && r.value.links == BookLinks(b)
  {
    match EnumToString(b.genre)
    case Failure(e) => Failure(e)
    case Success(genre) =>
      Success(BookResponse(b.id, b.title, b.author, genre, b.pages, b.publicationYear,
                           GetOffsetDateTime(b.createdAt), GetOffsetDateTime(b.updatedAt), BookLinks(b)))
  }

  /** toListBookResponse: every book converted, in order; the first failure propagates. */
  function ToListBookResponse(books: seq<Book>): (r: Result<seq<BookResponse>, Exception>)
    ensures r.Success? <==> forall i | 0 <= i < |books| :: books[i].genre.Some?
    ensures r.Success? ==> |r.value| == |books|
    ensures r.Success? ==> forall i | 0 <= i < |books| :: ToBookResponse(books[i]) == Success(r.value[i])
  {
    if books == [] then Success([])
    else
      match ToBookResponse(books[0])
      case Failure(e) => Failure(e)
      case Success(first) =>
        match ToListBookResponse(books[1..])
        case Failure(e) => Failure(e)
        case Success(rest) =>
          assert forall i | 1 <= i < |books| :: books[i] == books[1..][i - 1];
          Success([first] + rest)
  }

  /** toPagination: number and size from pageNumber and pageSize, and the totals. */
  function ToPagination(p: PaginatedResult<Book>): (r: PaginationInfo)
    ensures r.number == p.pageNumber && r.size == p.pageSize
    ensures r.totalElements == p.totalElements
    ensures r.totalPages == TotalPages(p.totalElements, p.pageSize)
  {
    PaginationInfo(p.pageNumber, p.pageSize, p.totalElements, p.TotalPagesOf())
  }

  // ---------------------------------------------------------------------
  // Page links
  // ---------------------------------------------------------------------

  const BooksPath: string := "/v1/books"

  const PageQueryPrefix: string := BooksPath + "?page="

  function PageHref(page: int, size: int): string {
    PageQueryPrefix + IntToString(page) + "&pageSize=" + IntToString(size)
  }

  /** The query after "?page=" splits at its first '&' into the two numbers. */
  lemma QuerySplits(page: int, size: int)
    ensures var a := IntToString(page); var q := a + "&" + ("pageSize=" + IntToString(size));
      FirstAmpersand(q) == |a| && |a| + 10 < |q| && q[..|a|] == a
      && q[|a| + 1..|a| + 10] == "pageSize=" && q[|a| + 10..] == IntToString(size)
  {
    var a := IntToString(page);
    var b := "pageSize=" + IntToString(size);
    FirstAmpersandAfter(a, b);
    var q := a + "&" + b;
    assert q[..|a|] == a;
    assert q[|a| + 1..] == b;
  }

  /** A client reading a page URL gets back the page and pageSize it names. */
  lemma PageHrefReadsBack(page: int, size: int)
    ensures var r := PageHref(page, size);
      |PageQueryPrefix| < |r| && r[..|PageQueryPrefix|] == PageQueryPrefix
    ensures var q := PageHref(page, size)[|PageQueryPrefix|..]; var k := FirstAmpersand(q);
      k + 10 < |q| && IsNumeral(q[..k]) && ParseInt(q[..k]) == page
      && q[k + 1..k + 10] == "pageSize=" && IsNumeral(q[k + 10..]) && ParseInt(q[k + 10..]) == size
  {
    PageHrefParts(page, size);
    QuerySplits(page, size);
    IntToStringRoundTrip(page);
    IntToStringRoundTrip(size);
  }

  /** The index of the first '&', or the length when there is none. */
  function FirstAmpersand(s: string): (n: nat)
    ensures n <= |s|
    ensures forall k | 0 <= k < n :: s[k] != '&'
    ensures n < |s| ==> s[n] == '&'
  {
    if s == [] || s[0] == '&' then 0 else 1 + FirstAmpersand(s[1..])
  }

  /** The first '&' of `a + "&" + b` is the one after `a` when `a` has none. */
  lemma FirstAmpersandAfter(a: string, b: string)
    requires forall k | 0 <= k < |a| :: a[k] != '&'
    ensures FirstAmpersand(a + "&" + b) == |a|
  {
    var s := a + "&" + b;
    assert s[|a|] == '&';
    assert forall k | 0 <= k < |a| :: s[k] == a[k];
  }

  /** Text without '&' before a "&" is recovered from the joined string. */
  lemma SplitAtAmpersand(a: string, b: string, c: string, d: string)
    requires forall k | 0 <= k < |a| :: a[k] != '&'
    requires forall k | 0 <= k < |c| :: c[k] != '&'
    requires a + "&" + b == c + "&" + d
    ensures a == c && b == d
  {
    var s := a + "&" + b;
    FirstAmpersandAfter(a, b);
    FirstAmpersandAfter(c, d);
    assert a == s[..|a|] && c == s[..|c|];
    assert b == s[|a| + 1..] && d == s[|c| + 1..];
  }

  /** After the fixed prefix, a page URL is the page number, "&" and the size parameter. */
  lemma PageHrefParts(page: int, size: int)
    ensures |PageQueryPrefix| <= |PageHref(page, size)|
    ensures PageHref(page, size)[..|PageQueryPrefix|] == PageQueryPrefix
    ensures PageHref(page, size)[|PageQueryPrefix|..]
         == IntToString(page) + "&" + ("pageSize=" + IntToString(size))
  {
    var prefix := PageQueryPrefix;
    assert PageHref(page, size) == prefix + (IntToString(page) + "&" + ("pageSize=" + IntToString(size)));
  }

  /** The size parameter determines the size. */
  lemma PageSizeParamInjective(s1: int, s2: int)
    requires "pageSize=" + IntToString(s1) == "pageSize=" + IntToString(s2)
    ensures s1 == s2
  {
    assert IntToString(s1) == ("pageSize=" + IntToString(s1))[9..];
    assert IntToString(s2) == ("pageSize=" + IntToString(s2))[9..];
    IntToStringInjective(s1, s2);
  }

  /** Different (page, size) pairs give different page URLs. */
  lemma PageHrefInjective(p1: int, s1: int, p2: int, s2: int)
    requires PageHref(p1, s1) == PageHref(p2, s2)
    ensures p1 == p2 && s1 == s2
  {
    PageHrefParts(p1, s1);
    PageHrefParts(p2, s2);
    SplitAtAmpersand(IntToString(p1), "pageSize=" + IntToString(s1), IntToString(p2), "pageSize=" + IntToString(s2));
    IntToStringInjective(p1, p2);
    PageSizeParamInjective(s1, s2);
  }

  function PageLink(rel: string, page: int, size: int): Link {
    Link(rel, PageHref(page, size), "GET")
  }

  predicate HasRel(links: seq<Link>, rel: string) {
    exists i | 0 <= i < |links| :: links[i].rel == rel
  }

  /** Every link with the given rel is exactly `link`. */
  predicate RelIs(links: seq<Link>, rel: string, link: Link) {
    forall i | 0 <= i < |links| && links[i].rel == rel :: links[i] == link
  }

  lemma RelsOfConcat(a: seq<Link>, b: seq<Link>, rel: string, link: Link)
    ensures HasRel(a + b, rel) <==> HasRel(a, rel) || HasRel(b, rel)
    ensures RelIs(a, rel, link) && RelIs(b, rel, link) ==> RelIs(a + b, rel, link)
  {
    if HasRel(a + b, rel) {
      var i :| 0 <= i < |a + b| && (a + b)[i].rel == rel;
      if i >= |a| {
        assert b[i - |a|].rel == rel;
      }
    }
    if HasRel(a, rel) {
      var i :| 0 <= i < |a| && a[i].rel == rel;
      assert (a + b)[i].rel == rel;
    }
    if HasRel(b, rel) {
      var i :| 0 <= i < |b| && b[i].rel == rel;
      assert (a + b)[|a| + i].rel == rel;
    }
    if RelIs(a, rel, link) && RelIs(b, rel, link) {
      forall i | 0 <= i < |a + b| && (a + b)[i].rel == rel
        ensures (a + b)[i] == link
      {
        if i >= |a| {
          assert (a + b)[i] == b[i - |a|];
        }
      }
    }
  }

  /** A link when the condition holds, nothing otherwise. */
  function LinkIf(cond: bool, l: Link): (r: seq<Link>)
    ensures HasRel(r, l.rel) <==> cond
    ensures forall rel | rel != l.rel :: !HasRel(r, rel)
    ensures RelIs(r, l.rel, l)
  {
    if cond then assert [l][0].rel == l.rel; [l] else []
  }

  /** The links of a page: self and first always; last when there is any
      page; next when the number is below the total; prev when it is above 1. */
  function PageLinks(page: int, size: int, total: int): (r: seq<Link>)
    ensures |r| >= 2 && r[0] == PageLink("self", page, size) && r[1] == PageLink("first", 1, size)
    ensures forall i | 0 <= i < |r| :: r[i].httpMethod == "GET"
  {
    [PageLink("self", page, size), PageLink("first", 1, size)]
      + LinkIf(total > 0, PageLink("last", total, size))
      + LinkIf(page < total, PageLink("next", page + 1, size))
      + LinkIf(page > 1, PageLink("prev", page - 1, size))
  }

  /** Which optional links appear and where they point. */
  lemma PageLinksPresence(page: int, size: int, total: int)
    ensures var r := PageLinks(page, size, total);
      && (HasRel(r, "last") <==> total > 0)
      && (HasRel(r, "next") <==> page < total)
      && (HasRel(r, "prev") <==> page > 1)
      && RelIs(r, "last", PageLink("last", total, size))
      && RelIs(r, "next", PageLink("next", page + 1, size))
      && RelIs(r, "prev", PageLink("prev", page - 1, size))
  {
    var always := [PageLink("self", page, size), PageLink("first", 1, size)];
    var last := LinkIf(total > 0, PageLink("last", total, size));
    var next := LinkIf(page < total, PageLink("next", page + 1, size));
    var prev := LinkIf(page > 1, PageLink("prev", page - 1, size));
    assert !HasRel(always, "last") && !HasRel(always, "next") && !HasRel(always, "prev");
    forall rel: string, l: Link | rel in {"last", "next", "prev"} && l.rel == rel
      ensures HasRel(always + last + next + prev, rel) <==>
              HasRel(always, rel) || HasRel(last, rel) || HasRel(next, rel) || HasRel(prev, rel)
      ensures RelIs(always, rel, l) && RelIs(last, rel, l) && RelIs(next, rel, l) && RelIs(prev, rel, l)
              ==> RelIs(always + last + next + prev, rel, l)
    {
      RelsOfConcat(always, last, rel, l);
      RelsOfConcat(always + last, next, rel, l);
      RelsOfConcat(always + last + next, prev, rel, l);
    }
  }

  /** toResponse: the books converted, the pagination block, and the page
      links built from the result's pageNumber, pageSize and totalPages. */
  function ToResponse(p: PaginatedResult<Book>): (r: Result<BooksResponse, Exception>)
    ensures r.Success? <==> forall i | 0 <= i < |p.content| :: p.content[i].genre.Some?
    ensures r.Success? ==> |r.value.books| == |p.content|
    ensures r.Success? ==> forall i | 0 <= i < |p.content| :: ToBookResponse(p.content[i]) == Success(r.value.books[i])
    ensures r.Success? ==> r.value.pagination == ToPagination(p)
    ensures r.Success? ==> r.value.links == PageLinks(p.pageNumber, p.pageSize, p.TotalPagesOf())
  {
    match ToListBookResponse(p.content)
    case Failure(e) => Failure(e)
    case Success(books) =>
      Success(BooksResponse(books, ToPagination(p), PageLinks(p.pageNumber, p.pageSize, p.TotalPagesOf())))
  }
}

=== FILE: service.dfy ===
/** BookServiceUseCase over the repository port: the save stamp, the null-id
    guard, the existence check before update and deactivate, soft deletion,
    and the pass-through listing.  The clock is the parameter `now`; each
    operation reports the port calls it made, in order. */
module Service {
  import opened Wrappers
  import opened Domain
  import opened Exceptions
  import opened Filters
  import opened Entities
  import opened Pagination
  import Jpa = JpaRepository
  import Port = RepositoryAdapter

  /** One call on the repository port. */
  datatype PortCall =
    | SaveCall(book: Book)
    | FindByIdCall(id: int)
    | FindActiveByIdCall(id: int)
    | FindAllCall(filter: BookFilter, query: PaginationQuery)

  /** What an operation returns or throws, the store afterwards, and the port calls made. */
  datatype Outcome<R> = Outcome(result: Result<R, Exception>, table: Jpa.Table, calls: seq<PortCall>)

  /** Every stored row meets the BOOK column constraints. */
  predicate RowsMeetConstraints(t: Jpa.Table) {
    forall k | k in t.rows :: IsStoredRow(t.rows[k])
  }

  /** validateId: a null id is rejected, any other passes. */
  function ValidateId(id: Option<int>): (r: Result<int, Exception>)
    ensures r.Failure? <==> id.None?
    ensures r.Failure? ==> r.error == IllegalArgument(Some(NullIdMessage))
    ensures r.Success? ==> Some(r.value) == id
  {
    if id.None? then Failure(IllegalArgument(Some(NullIdMessage))) else Success(id.value)
  }

  /** getBookIfExist: findById, or BookNotFoundException for the id. */
  function GetBookIfExist(t: Jpa.Table, id: int): (r: Result<Book, Exception>)
    ensures r.Success? <==> id in t.rows
    ensures r.Failure? ==> r.error == BookNotFound(id)
    ensures r.Success? ==> ToEntity(r.value) == t.rows[id]
  {
    match Port.FindById(t, id)
    case None => Failure(BookNotFound(id))
    case Some(b) => Success(b)
  }

  /** save: stamps active, createdAt and updatedAt, then stores the book once;
      a book whose author or title does not fit its column is refused by the store. */
  function Save(t: Jpa.Table, now: DateTime, book: Book): (r: Outcome<Book>)
    ensures |r.calls| == 1 && r.calls[0].SaveCall?
    ensures var sent := r.calls[0].book;
            && sent.active == Some(true)
            && sent.createdAt == Some(now) && sent.updatedAt == Some(now)
            && sent.id == book.id && sent.author == book.author && sent.title == book.title
            && sent.genre == book.genre && sent.pages == book.pages
            && sent.publicationYear == book.publicationYear
    ensures r.result.Success? <==> TextFitsColumns(book.author, book.title)
    ensures r.result.Failure? ==> r.result.error == OtherRuntime(Jpa.ConstraintViolation) && r.table == t
    ensures r.result.Success? ==>
      && r.result.value.id.Some?
      && r.result.value == r.calls[0].book.(id := r.result.value.id)
      && (book.id.Some? && book.id.value in t.rows ==> r.result.value.id == book.id)
      && (book.id.None? || book.id.value !in t.rows ==> r.result.value.id == Some(t.nextId))
      && Port.FindById(r.table, r.result.value.id.value) == Some(r.result.value)
    ensures Jpa.Valid(t) ==> Jpa.Valid(r.table)
  {
    var stamped := book.(active := Some(true), createdAt := Some(now), updatedAt := Some(now));
    ConstraintsOnText(ToEntity(stamped));
    match Port.Save(t, stamped)
    case Failure(e) => Outcome(Failure(e), t, [SaveCall(stamped)])
    case Success((saved, t')) =>
      Port.SaveThenFindById(t, stamped);
      Outcome(Success(saved), t', [SaveCall(stamped)])
  }

  /** findActiveById: the null-id guard, then the active lookup. */
  function FindActiveById(t: Jpa.Table, id: Option<int>): (r: Outcome<Book>)
    ensures r.table == t
    ensures id.None? ==> r.result == Failure(IllegalArgument(Some(NullIdMessage))) && r.calls == []
    ensures id.Some? ==> r.calls == [FindActiveByIdCall(id.value)]
    ensures id.Some? ==>
      (r.result.Success? <==> id.value in t.rows && t.rows[id.value].active == Some(true))
    ensures id.Some? && r.result.Success? ==> ToEntity(r.result.value) == t.rows[id.value]
    ensures id.Some? && r.result.Failure? ==> r.result.error == BookNotFound(id.value)
  {
    match ValidateId(id)
    case Failure(e) => Outcome(Failure(e), t, [])
    case Success(i) =>
      match Port.FindActiveById(t, i)
      case None => Outcome(Failure(BookNotFound(i)), t, [FindActiveByIdCall(i)])
      case Some(b) => Outcome(Success(b), t, [FindActiveByIdCall(i)])
  }

  /** The book update stores: the caller's fields with updatedAt set, and the
      stored createdAt and active kept. */
  function Updated(book: Book, stored: BookEntity, now: DateTime): Book {
    book.(createdAt := stored.createdAt, active := stored.active, updatedAt := Some(now))
  }

  /** update as written: the null-id guard, the existence check (active or
      not), then the caller's book is stored with updatedAt set; its createdAt
      and active are stored as the caller supplied them, so a book without
      them breaks the NOT NULL columns and the store refuses it. */
  function UpdateAsWritten(t: Jpa.Table, now: DateTime, book: Book): (r: Outcome<Book>)
    ensures book.id.None? ==>
      r.result == Failure(IllegalArgument(Some(NullIdMessage))) && r.calls == [] && r.table == t
    ensures book.id.Some? && book.id.value !in t.rows ==>
      r.result == Failure(BookNotFound(book.id.value)) && r.calls == [FindByIdCall(book.id.value)] && r.table == t
    ensures book.id.Some? && book.id.value in t.rows ==>
      && r.calls == [FindByIdCall(book.id.value), SaveCall(book.(updatedAt := Some(now)))]
      && (r.result.Success? <==> MeetsColumnConstraints(ToEntity(book.(updatedAt := Some(now)))))
      && (r.result.Failure? ==> r.result == Failure(OtherRuntime(Jpa.ConstraintViolation)) && r.table == t)
      && (r.result.Success? ==>
            && r.result.value == book.(updatedAt := Some(now))
            && Jpa.FindById(r.table, book.id.value) == Some(ToEntity(book.(updatedAt := Some(now)))))
    ensures Jpa.Valid(t) ==> Jpa.Valid(r.table)
  {
    match ValidateId(book.id)
    case Failure(e) => Outcome(Failure(e), t, [])
    case Success(i) =>
      match GetBookIfExist(t, i)
      case Failure(e) => Outcome(Failure(e), t, [FindByIdCall(i)])
      case Success(_) =>
        var changed := book.(updatedAt := Some(now));
        match Port.Save(t, changed)
        case Failure(e) => Outcome(Failure(e), t, [FindByIdCall(i), SaveCall(changed)])
        case Success((saved, t')) => Outcome(Success(saved), t', [FindByIdCall(i), SaveCall(changed)])
  }

  /** update: the null-id guard, the existence check (active or not), then the
      caller's book is stored with updatedAt set, keeping the stored row's
      createdAt and active. */
  function Update(t: Jpa.Table, now: DateTime, book: Book): (r: Outcome<Book>)
    ensures book.id.None? ==>
      r.result == Failure(IllegalArgument(Some(NullIdMessage))) && r.calls == [] && r.table == t
    ensures book.id.Some? && book.id.value !in t.rows ==>
      r.result == Failure(BookNotFound(book.id.value)) && r.calls == [FindByIdCall(book.id.value)] && r.table == t
    ensures book.id.Some? && book.id.value in t.rows ==>
      var stored := t.rows[book.id.value];
      && |r.calls| == 2 && r.calls[0] == FindByIdCall(book.id.value) && r.calls[1].SaveCall?
      && var sent := r.calls[1].book;
      && sent.id == book.id && sent.author == book.author && sent.title == book.title
      && sent.genre == book.genre && sent.pages == book.pages && sent.publicationYear == book.publicationYear
      && sent.createdAt == stored.createdAt && sent.active == stored.active && sent.updatedAt == Some(now)
      && (r.result.Success? <==>
            TextFitsColumns(book.author, book.title) && stored.createdAt.Some? && stored.active.Some?)
      && (r.result.Failure? ==> r.result == Failure(OtherRuntime(Jpa.ConstraintViolation)) && r.table == t)
      && (r.result.Success? ==> r.result.value == sent && Jpa.FindById(r.table, book.id.value) == Some(ToEntity(sent)))
    ensures Jpa.Valid(t) ==> Jpa.Valid(r.table)
  {
    match ValidateId(book.id)
    case Failure(e) => Outcome(Failure(e), t, [])
    case Success(i) =>
      match GetBookIfExist(t, i)
      case Failure(e) => Outcome(Failure(e), t, [FindByIdCall(i)])
      case Success(current) =>
        var changed := Updated(book, ToEntity(current), now);
        ConstraintsOnText(ToEntity(changed));
        match Port.Save(t, changed)
        case Failure(e) => Outcome(Failure(e), t, [FindByIdCall(i), SaveCall(changed)])
        case Success((saved, t')) => Outcome(Success(saved), t', [FindByIdCall(i), SaveCall(changed)])
  }

  /** deactivate: the null-id guard, the existence check, then the loaded book
      is stored again with active false and updatedAt set, all else unchanged. */
  function Deactivate(t: Jpa.Table, now: DateTime, id: Option<int>): (r: Outcome<()>)
    ensures id.None? ==>
      r.result == Failure(IllegalArgument(Some(NullIdMessage))) && r.calls == [] && r.table == t
    ensures id.Some? && id.value !in t.rows ==>
      r.result == Failure(BookNotFound(id.value)) && r.calls == [FindByIdCall(id.value)] && r.table == t
    ensures id.Some? && id.value in t.rows ==>
      && |r.calls| == 2 && r.calls[0] == FindByIdCall(id.value) && r.calls[1].SaveCall?
      && (r.result.Success? <==>
            TextFitsColumns(t.rows[id.value].author, t.rows[id.value].title) && t.rows[id.value].createdAt.Some?)
      && (r.result.Failure? ==> r.result == Failure(OtherRuntime(Jpa.ConstraintViolation)) && r.table == t)
    ensures Jpa.Valid(t) && id.Some? && id.value in t.rows && r.result.Success? ==>
      Jpa.FindById(r.table, id.value) == Some(t.rows[id.value].(active := Some(false), updatedAt := Some(now)))
    ensures Jpa.Valid(t) ==> Jpa.Valid(r.table)
  {
    match ValidateId(id)
    case Failure(e) => Outcome(Failure(e), t, [])
    case Success(i) =>
      match GetBookIfExist(t, i)
      case Failure(e) => Outcome(Failure(e), t, [FindByIdCall(i)])
      case Success(current) =>
        var changed := current.(active := Some(false), updatedAt := Some(now));
        ConstraintsOnText(ToEntity(changed));
        ConstraintsOnText(t.rows[i]);
        match Port.Save(t, changed)
        case Failure(e) => Outcome(Failure(e), t, [FindByIdCall(i), SaveCall(changed)])
        case Success(_) =>
          Outcome(Success(()), Port.Save(t, changed).value.1, [FindByIdCall(i), SaveCall(changed)])
  }

  /** getAllWithFilters: one port call, its result unchanged, the store untouched. */
  function GetAllWithFilters(t: Jpa.Table, f: BookFilter, q: PaginationQuery): (r: Outcome<PaginatedResult<Book>>)
    requires Jpa.Valid(t) && q.Valid()
    ensures r.table == t && r.calls == [FindAllCall(f, q)]
    ensures r.result == Port.FindAllWithFilters(t, f, q)
  {
    Outcome(Port.FindAllWithFilters(t, f, q), t, [FindAllCall(f, q)])
  }

  // ---------------------------------------------------------------------
  // Properties across operations
  // ---------------------------------------------------------------------

  /** A saved book is found active under its new id. */
  lemma SaveThenFindActive(t: Jpa.Table, now: DateTime, book: Book)
    requires Save(t, now, book).result.Success?
    ensures var s := Save(t, now, book);
            FindActiveById(s.table, s.result.value.id).result == s.result
  {
    var s := Save(t, now, book);
    var saved := s.result.value;
    assert ToEntity(saved).active == Some(true);
  }

  /** After deactivation the book is no longer found active, but is still
      stored (findById sees it) with active false. */
  lemma DeactivateThenFind(t: Jpa.Table, now: DateTime, id: int)
    requires Jpa.Valid(t) && RowsMeetConstraints(t) && id in t.rows
    ensures var d := Deactivate(t, now, Some(id));
            && d.result.Success?
            && FindActiveById(d.table, Some(id)).result == Failure(BookNotFound(id))
            && GetBookIfExist(d.table, id).Success?
            && GetBookIfExist(d.table, id).value.active == Some(false)
  {
  }

  /** Deactivating twice stores the same row as deactivating once (at the same time). */
  lemma DeactivateIdempotent(t: Jpa.Table, now: DateTime, id: int)
    requires Jpa.Valid(t) && RowsMeetConstraints(t) && id in t.rows
    ensures var once := Deactivate(t, now, Some(id)).table;
            Jpa.FindById(Deactivate(once, now, Some(id)).table, id) == Jpa.FindById(once, id)
  {
    var once := Deactivate(t, now, Some(id)).table;
    assert MeetsColumnConstraints(once.rows[id]);
  }

  /** Update does not consult the active flag: an inactive book can be updated. */
  lemma UpdateIgnoresActive(t: Jpa.Table, now: DateTime, book: Book)
    requires RowsMeetConstraints(t) && TextFitsColumns(book.author, book.title)
    requires book.id.Some? && book.id.value in t.rows && t.rows[book.id.value].active == Some(false)
    ensures Update(t, now, book).result.Success?
    ensures Jpa.FindById(Update(t, now, book).table, book.id.value).value.active == Some(false)
  {
  }

  /** Update keeps the stored createdAt and changes updatedAt to the clock. */
  lemma UpdateKeepsCreatedAt(t: Jpa.Table, now: DateTime, book: Book)
    requires RowsMeetConstraints(t) && TextFitsColumns(book.author, book.title)
    requires book.id.Some? && book.id.value in t.rows
    ensures var after := Jpa.FindById(Update(t, now, book).table, book.id.value);
            && after.Some?
            && after.value.createdAt == t.rows[book.id.value].createdAt
            && after.value.updatedAt == Some(now)
            && after.value.author == book.author && after.value.title == book.title
  {
  }

  /** Save keeps every row within the column constraints. */
  lemma SaveKeepsConstraints(t: Jpa.Table, now: DateTime, book: Book)
    requires RowsMeetConstraints(t)
    ensures RowsMeetConstraints(Save(t, now, book).table)
  {
    var stamped := book.(active := Some(true), createdAt := Some(now), updatedAt := Some(now));
    if Port.Save(t, stamped).Success? {
      Jpa.SaveKeepsStoredRows(t, ToEntity(stamped));
    }
  }

  /** Update keeps every row within the column constraints. */
  lemma UpdateKeepsConstraints(t: Jpa.Table, now: DateTime, book: Book)
    requires RowsMeetConstraints(t)
    ensures RowsMeetConstraints(Update(t, now, book).table)
  {
    if book.id.Some? && book.id.value in t.rows {
      var changed := Updated(book, t.rows[book.id.value], now);
      if Port.Save(t, changed).Success? {
        Jpa.SaveKeepsStoredRows(t, ToEntity(changed));
      }
    }
  }

  /** Deactivation keeps every row within the column constraints. */
  lemma DeactivateKeepsConstraints(t: Jpa.Table, now: DateTime, id: Option<int>)
    requires RowsMeetConstraints(t)
    ensures RowsMeetConstraints(Deactivate(t, now, id).table)
  {
    if id.Some? && id.value in t.rows {
      var changed := ToDomain(t.rows[id.value]).(active := Some(false), updatedAt := Some(now));
      if Port.Save(t, changed).Success? {
        Jpa.SaveKeepsStoredRows(t, ToEntity(changed));
      }
    }
  }

  /** As written, updating a stored book with a book that carries no
      createdAt (as every book built from a REST request does) is refused
      by the store, whatever else the book holds. */
  lemma UpdateAsWrittenRefusesMissingCreatedAt(t: Jpa.Table, now: DateTime, book: Book)
    requires book.id.Some? && book.id.value in t.rows && book.createdAt.None?
    ensures UpdateAsWritten(t, now, book).result == Failure(OtherRuntime(Jpa.ConstraintViolation))
    ensures UpdateAsWritten(t, now, book).table == t
  {
  }

  /** The corrected update accepts the same book, keeping the stored
      createdAt, whenever the store met its constraints and the text fits. */
  lemma UpdateAcceptsMissingCreatedAt(t: Jpa.Table, now: DateTime, book: Book)
    requires RowsMeetConstraints(t) && TextFitsColumns(book.author, book.title)
    requires book.id.Some? && book.id.value in t.rows && book.createdAt.None?
    ensures Update(t, now, book).result.Success?
    ensures Update(t, now, book).result.value.createdAt == t.rows[book.id.value].createdAt
  {
  }
}

=== FILE: text.dfy ===
/** The java.lang.String operations the catalogue relies on: trim, isBlank,
    ASCII case mapping, substring containment, equalsIgnoreCase, and the
    decimal rendering of integers used in links and messages. */
module Text {

  // ---------------------------------------------------------------------
  // trim(): strips every char at or below U+0020 from both ends
  // ---------------------------------------------------------------------

  predicate IsTrimmable(c: char) {
    c <= ' '
  }

  /** Number of trimmable chars at the start of `s`. */
  function LeadingTrimmable(s: string): (n: nat)
    ensures n <= |s|
    ensures forall k | 0 <= k < n :: IsTrimmable(s[k])
    ensures n < |s| ==> !IsTrimmable(s[n])
  {
    if |s| > 0 && IsTrimmable(s[0]) then 1 + LeadingTrimmable(s[1..]) else 0
  }

  /** Number of trimmable chars at the end of `s`. */
  function TrailingTrimmable(s: string): (n: nat)
    ensures n <= |s|
    ensures forall k | |s| - n <= k < |s| :: IsTrimmable(s[k])
    ensures n < |s| ==> !IsTrimmable(s[|s| - n - 1])
  {
    if |s| > 0 && IsTrimmable(s[|s| - 1]) then 1 + TrailingTrimmable(s[..|s| - 1]) else 0
  }

  /** String.trim(). */
  function Trim(s: string): (r: string)
    ensures |r| <= |s|
    ensures r == [] <==> forall k | 0 <= k < |s| :: IsTrimmable(s[k])
    ensures r != [] ==> !IsTrimmable(r[0]) && !IsTrimmable(r[|r| - 1])
    ensures LeadingTrimmable(s) + |r| <= |s|
    ensures r != [] ==> r == s[LeadingTrimmable(s)..LeadingTrimmable(s) + |r|]
    ensures forall k | LeadingTrimmable(s) + |r| <= k < |s| :: IsTrimmable(s[k])
  {
    var lead := LeadingTrimmable(s);
    if lead == |s| then
      []
    else
      var rest := s[lead..];
      var trail := TrailingTrimmable(rest);
      assert trail < |rest| by { assert !IsTrimmable(rest[0]); }
      var r := rest[..|rest| - trail];
      assert r[0] == s[lead];
      assert r == s[lead..lead + |r|];
      assert forall k | lead + |r| <= k < |s| :: s[k] == rest[k - lead];
      r
  }

  /** Trimming a string that has no trimmable char at either end leaves it as it is. */
  lemma {:induction false} TrimOfTrimmed(s: string)
    requires s != [] ==> !IsTrimmable(s[0]) && !IsTrimmable(s[|s| - 1])
    ensures Trim(s) == s
  {
    if s != [] {
      assert LeadingTrimmable(s) == 0;
      assert TrailingTrimmable(s) == 0;
    }
  }

  /** trim() is idempotent. */
  lemma TrimIdempotent(s: string)
    ensures Trim(Trim(s)) == Trim(s)
  {
    TrimOfTrimmed(Trim(s));
  }

  // ---------------------------------------------------------------------
  // isBlank(): every code point satisfies Character.isWhitespace
  // ---------------------------------------------------------------------

  /** Character.isWhitespace: the Unicode space, line and paragraph separators
      other than the non-breaking ones (U+00A0, U+2007, U+202F), plus the
      ASCII controls U+0009..U+000D and U+001C..U+001F. */
  predicate IsJavaWhitespace(c: char) {
    || ('\U{0009}' <= c <= '\U{000D}')
    || ('\U{001C}' <= c <= '\U{0020}')
    || c == '\U{1680}'
    || ('\U{2000}' <= c <= '\U{2006}')
    || ('\U{2008}' <= c <= '\U{200A}')
    || c == '\U{2028}' || c == '\U{2029}' || c == '\U{205F}' || c == '\U{3000}'
  }

  /** String.isBlank(). */
  predicate IsBlank(s: string) {
    forall k | 0 <= k < |s| :: IsJavaWhitespace(s[k])
  }

  /** The two notions of "blank" the source mixes differ: a NUL char is
      trimmed away but is not whitespace, and an ideographic space is
      whitespace but survives trim(). */
  lemma BlankAndTrimDiffer()
    ensures Trim("\U{0000}") == [] && !IsBlank("\U{0000}")
    ensures IsBlank("\U{3000}") && Trim("\U{3000}") != []
  {
    assert !IsJavaWhitespace('\U{0000}');
  }

  // ---------------------------------------------------------------------
  // ASCII case mapping
  // ---------------------------------------------------------------------

  function LowerChar(c: char): char {
    if 'A' <= c <= 'Z' then (c as int + 32) as char else c
  }

  function UpperChar(c: char): char {
    if 'a' <= c <= 'z' then (c as int - 32) as char else c
  }

  /** String.toLowerCase(), restricted to ASCII letters. */
  function Lower(s: string): (r: string)
    ensures |r| == |s|
    ensures forall k | 0 <= k < |s| :: r[k] == LowerChar(s[k])
  {
    seq(|s|, k requires 0 <= k < |s| => LowerChar(s[k]))
  }

  /** String.toUpperCase(), restricted to ASCII letters. */
  function Upper(s: string): (r: string)
    ensures |r| == |s|
    ensures forall k | 0 <= k < |s| :: r[k] == UpperChar(s[k])
  {
    seq(|s|, k requires 0 <= k < |s| => UpperChar(s[k]))
  }

  /** Upper-casing twice is upper-casing once. */
  lemma UpperIdempotent(s: string)
    ensures Upper(Upper(s)) == Upper(s)
  {
  }

  /** String.equalsIgnoreCase: same length and, char by char, equal or equal
      after upper-casing or after upper- then lower-casing. */
  predicate EqualsIgnoreCase(a: string, b: string) {
    && |a| == |b|
    && forall k | 0 <= k < |a| ::
         || a[k] == b[k]
         || UpperChar(a[k]) == UpperChar(b[k])
         || LowerChar(UpperChar(a[k])) == LowerChar(UpperChar(b[k]))
  }

  /** With ASCII case mapping, equalsIgnoreCase is equality after lower-casing. */
  lemma EqualsIgnoreCaseIsLowerEquality(a: string, b: string)
    ensures EqualsIgnoreCase(a, b) <==> Lower(a) == Lower(b)
  {
    if Lower(a) == Lower(b) {
      assert |a| == |b|;
      forall k | 0 <= k < |a|
        ensures UpperChar(a[k]) == UpperChar(b[k])
      {
        assert Lower(a)[k] == Lower(b)[k];
      }
    }
  }

  // ---------------------------------------------------------------------
  // Substring containment (String.contains, SQL LIKE '%x%')
  // ---------------------------------------------------------------------

  predicate OccursAt(s: string, sub: string, i: int) {
    0 <= i && i + |sub| <= |s| && s[i..i + |sub|] == sub
  }

  predicate Contains(s: string, sub: string) {
    exists i | 0 <= i <= |s| - |sub| :: OccursAt(s, sub, i)
  }

  // ---------------------------------------------------------------------
  // Decimal rendering of integers (Long.toString, String.format("%d"))
  // ---------------------------------------------------------------------

  predicate IsDigit(c: char) {
    '0' <= c <= '9'
  }

  function DigitChar(d: int): char
    requires 0 <= d < 10
  {
    ('0' as int + d) as char
  }

  function NatToString(n: nat): (r: string)
    ensures |r| > 0
    ensures forall k | 0 <= k < |r| :: IsDigit(r[k])
    decreases n
  {
    if n < 10 then [DigitChar(n)] else NatToString(n / 10) + [DigitChar(n % 10)]
  }

  /** Long.toString: an optional minus sign followed by the decimal digits. */
  function IntToString(n: int): (r: string)
    ensures |r| > 0
    ensures n < 0 <==> r[0] == '-'
    ensures forall k | 0 <= k < |r| :: r[k] == '-' || IsDigit(r[k])
  {
    if n < 0 then "-" + NatToString(-n) else NatToString(n)
  }

  /** Reads back a string of decimal digits. */
  function ParseNat(s: string): nat
    requires forall k | 0 <= k < |s| :: IsDigit(s[k])
    decreases |s|
  {
    if s == [] then 0
    else
      assert IsDigit(s[|s| - 1]);
      10 * ParseNat(s[..|s| - 1]) + (s[|s| - 1] as int - '0' as int)
  }

  /** A string ParseInt accepts: an optional minus sign, then decimal digits. */
  predicate IsNumeral(s: string) {
    |s| > 0
    && (s[0] == '-' ==> forall k | 1 <= k < |s| :: IsDigit(s[k]))
    && (s[0] != '-' ==> forall k | 0 <= k < |s| :: IsDigit(s[k]))
  }

  function ParseInt(s: string): int
    requires |s| > 0
    requires s[0] == '-' ==> forall k | 1 <= k < |s| :: IsDigit(s[k])
    requires s[0] != '-' ==> forall k | 0 <= k < |s| :: IsDigit(s[k])
  {
    if s[0] == '-' then -(ParseNat(s[1..]) as int) else ParseNat(s)
  }

  lemma {:induction false} NatToStringRoundTrip(n: nat)
    ensures ParseNat(NatToString(n)) == n
    decreases n
  {
    if n >= 10 {
      var s := NatToString(n);
      NatToStringRoundTrip(n / 10);
      assert s[..|s| - 1] == NatToString(n / 10);
    }
  }

  /** The rendering is read back exactly, so distinct integers render differently. */
  lemma IntToStringRoundTrip(n: int)
    ensures ParseInt(IntToString(n)) == n
  {
    if n < 0 {
      NatToStringRoundTrip(-n);
      assert IntToString(n)[1..] == NatToString(-n);
    } else {
      NatToStringRoundTrip(n);
    }
  }

  lemma IntToStringInjective(m: int, n: int)
    requires IntToString(m) == IntToString(n)
    ensures m == n
  {
    IntToStringRoundTrip(m);
    IntToStringRoundTrip(n);
  }
}

=== FILE: web.dfy ===
/** The server-rendered UI: BookWebController's pages and redirects, and
    WebExceptionHandler's error pages.  A rendered page is its view name and
    the model attributes it is given. */
module WebUi {
  import opened Wrappers
  import opened Text
  import opened Genres
  import opened Domain
  import opened Exceptions
  import opened Filters
  import opened Pagination
  import opened Entities
  import Ordering
  import Jpa = JpaRepository
  import Service
  import Port = RepositoryAdapter

  const ListView: string := "books/list"
  const CreateView: string := "books/create"
  const DetailView: string := "books/detail"
  const EditView: string := "books/edit"

  const CreatedRedirect: string := "redirect:/ui/books?successMessage=Book created successfully"
  const UpdatedRedirect: string := "redirect:/ui/books?successMessage=Book updated successfully"
  const DeactivatedRedirect: string := "redirect:/ui/books?successMessage=Book deactivated successfully"

  const UnexpectedErrorText: string := "An unexpected error occurred"

  /** The model attributes a view is rendered with; the genre list is
      present on the pages that show the genre select. */
  datatype ViewModel =
    | ListModel(page: PaginatedResult<Book>, filter: BookFilter, sortBy: string, sortDir: string,
                reverseSortDir: string, genres: seq<BookGenre>)
    | BookModel(book: Book, genreOptions: Option<seq<BookGenre>>)

  /** What a handler method answers: a rendered view, a redirect, or the
      error page the exception handler chose (its status, view and message). */
  datatype WebReply =
    | Render(view: string, model: ViewModel)
    | Redirect(target: string)
    | ErrorPage(status: int, view: string, error: Option<string>)

  datatype WebExchange = WebExchange(reply: WebReply, table: Jpa.Table, calls: seq<Service.PortCall>)

  /** Throwable.getMessage() for the exceptions the pages can raise. */
  function MessageOf(ex: Exception): (r: Option<string>)
    ensures ex.IllegalArgument? ==> r == ex.message
    ensures ex.BookNotFound? ==>
              r.Some? && |NotFoundPrefix| < |r.value|
              && r.value[..|NotFoundPrefix|] == NotFoundPrefix
              && Text.IsNumeral(r.value[|NotFoundPrefix|..]) && Text.ParseInt(r.value[|NotFoundPrefix|..]) == ex.bookId
  {
    match ex
    case IllegalArgument(m) => m
    case BookNotFound(id) => Some(BookNotFoundMessage(id))
    case _ => None
  }

  /** WebExceptionHandler: a missing book is 404, an illegal argument 400,
      anything else 500 with a fixed text. */
  function HandleWeb(ex: Exception): (r: WebReply)
    ensures r.ErrorPage?
    ensures r.status == 404 <==> ex.BookNotFound?
    ensures r.status == 400 <==> ex.IllegalArgument?
    ensures r.status == 500 <==> !ex.BookNotFound? && !ex.IllegalArgument?
    ensures r.view == "error/" + IntToString(r.status)
    ensures ex.BookNotFound? ==> r.error == Some(BookNotFoundMessage(ex.bookId))
    ensures ex.IllegalArgument? ==> r.error == ex.message
    ensures !ex.BookNotFound? && !ex.IllegalArgument? ==> r.error == Some(UnexpectedErrorText)
  {
    match ex
    case BookNotFound(_) => ErrorPage(404, "error/404", MessageOf(ex))
    case IllegalArgument(_) => ErrorPage(400, "error/400", MessageOf(ex))
    case _ => ErrorPage(500, "error/500", Some(UnexpectedErrorText))
  }

  /** The header link's direction: "desc" only after exactly "asc", otherwise "asc". */
  function ReverseSortDir(sortDir: string): (r: string)
    ensures r == "desc" <==> sortDir == "asc"
    ensures r == "asc" <==> sortDir != "asc"
  {
    if sortDir == "asc" then "desc" else "asc"
  }

  /** listBooks: the filter as given (a null active selects active books), the
      query from the raw paging parameters, one service call, and the list
      view with the result, the filter, the sort echoed back and all genres. */
  function ListBooks(t: Jpa.Table, title: Option<string>, author: Option<string>,
                     genre: Option<BookGenre>, active: Option<bool>,
                     page: int, size: int, sortBy: string, sortDir: string): (r: WebExchange)
    requires Jpa.Valid(t)
    ensures r.table == t
    ensures page < 0 ==> r.reply == ErrorPage(400, "error/400", Some(PageNegativeMessage)) && r.calls == []
    ensures page >= 0 && size < 1 ==> r.reply == ErrorPage(400, "error/400", Some(PageSizeMessage)) && r.calls == []
    ensures page >= 0 && size >= 1 ==>
      r.calls == [Service.FindAllCall(NewBookFilter(title, author, genre, active),
                                      NewPaginationQuery(page, size, Some(sortBy), Some(sortDir)).value)]
    ensures page >= 0 && size >= 1 ==>
      (r.reply.Render? <==>
         Ordering.IsSortable(NewPaginationQuery(page, size, Some(sortBy), Some(sortDir)).value.sortBy) && page * size <= IntMax)
    ensures page >= 0 && size >= 1 && !r.reply.Render? ==> r.reply == ErrorPage(500, "error/500", Some(UnexpectedErrorText))
    ensures r.reply.Render? ==>
      && page >= 0 && size >= 1
      && r.reply.view == ListView && r.reply.model.ListModel?
      && var m := r.reply.model;
      && var filter := NewBookFilter(title, author, genre, active);
      && m.page.pageNumber == page && m.page.pageSize == size
      && m.page.totalElements == |Jpa.Filter(filter, Jpa.Rows(t))|
      && Port.MapsTo(m.page.content, Port.QueriedRows(t, filter, NewPaginationQuery(page, size, Some(sortBy), Some(sortDir)).value))
      && m.filter == filter
      && m.sortBy == sortBy && m.sortDir == sortDir
      && m.reverseSortDir == ReverseSortDir(sortDir)
      && m.genres == Values()
  {
    var filter := NewBookFilter(title, author, genre, active);
    match NewPaginationQuery(page, size, Some(sortBy), Some(sortDir))
    case Failure(e) => WebExchange(HandleWeb(e), t, [])
    case Success(q) =>
      var o := Service.GetAllWithFilters(t, filter, q);
      match o.result
      case Failure(e) => WebExchange(HandleWeb(e), t, o.calls)
      case Success(result) =>
        WebExchange(Render(ListView, ListModel(result, filter, sortBy, sortDir, ReverseSortDir(sortDir), Values())),
                    t, o.calls)
  }

  /** createForm: an empty book and the genres. */
  function CreateForm(): (r: WebReply)
    ensures r.Render? && r.view == CreateView
    ensures r.model == BookModel(EmptyBook, Some(Values()))
  {
    Render(CreateView, BookModel(EmptyBook, Some(Values())))
  }

  /** save: the bound book saved, then the redirect to the list; a book the
      store refuses ends on the 500 page. */
  function SaveBook(t: Jpa.Table, now: DateTime, book: Book): (r: WebExchange)
    ensures r.reply.Redirect? <==> TextFitsColumns(book.author, book.title)
    ensures r.reply.Redirect? ==> r.reply.target == CreatedRedirect
    ensures !r.reply.Redirect? ==> r.reply == ErrorPage(500, "error/500", Some(UnexpectedErrorText)) && r.table == t
    ensures r.calls == Service.Save(t, now, book).calls
    ensures r.table == Service.Save(t, now, book).table
  {
    var s := Service.Save(t, now, book);
    match s.result
    case Failure(e) => WebExchange(HandleWeb(e), s.table, s.calls)
    case Success(_) => WebExchange(Redirect(CreatedRedirect), s.table, s.calls)
  }

  /** The page that shows one active book (detail, and edit with the genres). */
  function ShowActive(t: Jpa.Table, id: int, view: string, genres: Option<seq<BookGenre>>): (r: WebExchange)
    ensures r.table == t && r.calls == [Service.FindActiveByIdCall(id)]
    ensures r.reply.Render? <==> id in t.rows && t.rows[id].active == Some(true)
    ensures r.reply.Render? ==>
      r.reply.view == view && r.reply.model.BookModel? && r.reply.model.genreOptions == genres
      && ToEntity(r.reply.model.book) == t.rows[id]
    ensures !r.reply.Render? ==> r.reply == ErrorPage(404, "error/404", Some(BookNotFoundMessage(id)))
  {
    var f := Service.FindActiveById(t, Some(id));
    match f.result
    case Failure(e) => WebExchange(HandleWeb(e), t, f.calls)
    case Success(b) => WebExchange(Render(view, BookModel(b, genres)), t, f.calls)
  }

  /** detail: the active book. */
  function Detail(t: Jpa.Table, id: int): (r: WebExchange)
    ensures r.reply.Render? <==> id in t.rows && t.rows[id].active == Some(true)
    ensures r.reply.Render? ==>
      && r.reply.view == DetailView && r.reply.model.BookModel? && r.reply.model.genreOptions.None?
      && ToEntity(r.reply.model.book) == t.rows[id]
    ensures r.table == t
  {
    ShowActive(t, id, DetailView, None)
  }

  /** editForm: the active book and the genres. */
  function EditForm(t: Jpa.Table, id: int): (r: WebExchange)
    ensures r.reply.Render? <==> id in t.rows && t.rows[id].active == Some(true)
    ensures r.reply.Render? ==>
      && r.reply.view == EditView && r.reply.model.BookModel? && r.reply.model.genreOptions == Some(Values())
      && ToEntity(r.reply.model.book) == t.rows[id]
    ensures r.table == t
  {
    ShowActive(t, id, EditView, Some(Values()))
  }

  /** update as written: the path id set on the bound book, the service update,
      then the redirect.  The posted book is stored as bound, with its own
      createdAt and active. */
  function UpdateBook(t: Jpa.Table, now: DateTime, id: int, book: Book): (r: WebExchange)
    ensures id in t.rows ==>
      (r.reply.Redirect? <==> MeetsColumnConstraints(ToEntity(book.(id := Some(id), updatedAt := Some(now)))))
    ensures r.reply.Redirect? ==>
      && r.reply.target == UpdatedRedirect
      && Jpa.FindById(r.table, id) == Some(ToEntity(book.(id := Some(id), updatedAt := Some(now))))
    ensures id !in t.rows ==> r.reply == ErrorPage(404, "error/404", Some(BookNotFoundMessage(id))) && r.table == t
    ensures id in t.rows && !r.reply.Redirect? ==> r.reply == ErrorPage(500, "error/500", Some(UnexpectedErrorText)) && r.table == t
  {
    var u := Service.UpdateAsWritten(t, now, book.(id := Some(id)));
    match u.result
    case Failure(e) => WebExchange(HandleWeb(e), u.table, u.calls)
    case Success(_) => WebExchange(Redirect(UpdatedRedirect), u.table, u.calls)
  }

  /** update with the corrected service update: the stored createdAt and active are kept. */
  function UpdateBookCorrected(t: Jpa.Table, now: DateTime, id: int, book: Book): (r: WebExchange)
    ensures r.reply.Redirect? <==>
      id in t.rows && TextFitsColumns(book.author, book.title) && t.rows[id].createdAt.Some? && t.rows[id].active.Some?
    ensures Service.RowsMeetConstraints(t) ==> (r.reply.Redirect? <==> id in t.rows && TextFitsColumns(book.author, book.title))
    ensures r.reply.Redirect? ==>
      && r.reply.target == UpdatedRedirect
      && Jpa.FindById(r.table, id) == Some(ToEntity(Service.Updated(book.(id := Some(id)), t.rows[id], now)))
    ensures id !in t.rows ==> r.reply == ErrorPage(404, "error/404", Some(BookNotFoundMessage(id))) && r.table == t
    ensures id in t.rows && !r.reply.Redirect? ==> r.reply == ErrorPage(500, "error/500", Some(UnexpectedErrorText)) && r.table == t
  {
    var u := Service.Update(t, now, book.(id := Some(id)));
    match u.result
    case Failure(e) => WebExchange(HandleWeb(e), u.table, u.calls)
    case Success(_) => WebExchange(Redirect(UpdatedRedirect), u.table, u.calls)
  }

  /** delete: deactivate, then the redirect. */
  function DeleteBook(t: Jpa.Table, now: DateTime, id: int): (r: WebExchange)
    ensures r.reply.Redirect? <==>
      id in t.rows && TextFitsColumns(t.rows[id].author, t.rows[id].title) && t.rows[id].createdAt.Some?
    ensures Service.RowsMeetConstraints(t) ==> (r.reply.Redirect? <==> id in t.rows)
    ensures r.reply.Redirect? ==> r.reply.target == DeactivatedRedirect
    ensures id !in t.rows ==> r.reply == ErrorPage(404, "error/404", Some(BookNotFoundMessage(id))) && r.table == t
    ensures id in t.rows && !r.reply.Redirect? ==> r.reply == ErrorPage(500, "error/500", Some(UnexpectedErrorText)) && r.table == t
    ensures Jpa.Valid(t) ==> Jpa.Valid(r.table)
  {
    var d := Service.Deactivate(t, now, Some(id));
    match d.result
    case Failure(e) => WebExchange(HandleWeb(e), d.table, d.calls)
    case Success(_) => WebExchange(Redirect(DeactivatedRedirect), d.table, d.calls)
  }

  // ---------------------------------------------------------------------
  // Properties across pages
  // ---------------------------------------------------------------------

  /** Clicking a column header twice restores the direction, for "asc" and "desc". */
  lemma ReverseSortDirToggles(sortDir: string)
    requires sortDir == "asc" || sortDir == "desc"
    ensures ReverseSortDir(ReverseSortDir(sortDir)) == sortDir
  {
  }

  /** The comparison is exact: "ASC" is not recognised and flips to "asc". */
  lemma ReverseSortDirIsCaseSensitive()
    ensures ReverseSortDir("ASC") == "asc" && ReverseSortDir("DESC") == "asc"
  {
  }

  /** The default list parameters (page 0, size 10, by id, asc) form a valid query. */
  lemma ListDefaultsAccepted(t: Jpa.Table)
    requires Jpa.Valid(t)
    ensures ListBooks(t, None, None, None, None, 0, 10, "id", "asc").reply.Render?
  {
    var q := NewPaginationQuery(0, 10, Some("id"), Some("asc"));
    assert !IsJavaWhitespace("id"[0]) && !IsJavaWhitespace("asc"[0]);
    assert q.value.sortBy == "id";
  }

  /** A book saved from the form is shown by the detail page under its new id. */
  lemma SaveThenDetail(t: Jpa.Table, now: DateTime, book: Book)
    requires TextFitsColumns(book.author, book.title)
    ensures var s := Service.Save(t, now, book);
            var d := Detail(SaveBook(t, now, book).table, s.result.value.id.value);
            d.reply == Render(DetailView, BookModel(s.result.value, None))
  {
    Service.SaveThenFindActive(t, now, book);
  }

  /** After a delete the detail page is the 404 page with the not-found message. */
  lemma DeleteThenDetail(t: Jpa.Table, now: DateTime, id: int)
    requires Jpa.Valid(t) && Service.RowsMeetConstraints(t) && id in t.rows
    ensures var after := DeleteBook(t, now, id).table;
            Detail(after, id).reply == ErrorPage(404, "error/404", Some(BookNotFoundMessage(id)))
  {
    Service.DeactivateThenFind(t, now, id);
  }
}

=== FILE: wrappers.dfy ===
/** Optional values (Java's nullable references and Optional) and results
    (a value or the exception the Java code would throw). */
module Wrappers {

  /** A Java reference that may be null, or a java.util.Optional. */
  datatype Option<+T> = None | Some(value: T) {

    /** The value, or the given default when absent (Optional.orElse). */
    function GetOr(default: T): T {
      match this
      case Some(v) => v
      case None => default
    }
  }

  /** Either the value a Java method returns or the exception it throws. */
  datatype Result<+R, +E> = Success(value: R) | Failure(error: E) {

    predicate IsFailure() {
      Failure?
    }

    function PropagateFailure<U>(): Result<U, E>
      requires Failure?
    {
      Failure(error)
    }

    function Extract(): R
      requires Success?
    {
      value
    }
  }
}
